=== FILE: README.md ===
# awesome-list-radar, modelled in Dafny

awesome-list-radar is a GitHub Action. It looks for new resources for a curated
"awesome" list. Each run has four stages:

1. **Collect** candidates from three sources: GitHub repository search, the
   arXiv API and RSS/Atom feeds. A web-page link extractor exists but is not
   called.
2. **Filter** them. A keyword filter draws its keywords from every configured
   source. A de-duplication step drops any URL already in the list file.
3. **Classify** a capped number of them. A language model scores each one, and
   candidates below the threshold are dropped.
4. Pass the survivors to the **issue writer**.

This project models that pipeline as pure Dafny functions and proves what each
stage promises.

Outside calls become parameters: the search API, `fetch`, the XML and RSS
parsers, `JSON.parse`, the file reader, the language-model replies, URL
resolution and the issue writer. Concurrent `Promise.allSettled` fan-outs become
sequences of settled outcomes, kept in input order.

Modules and files:

- `wrappers.dfy` (`Wrappers`): `Option`, `Result`, and `Settled`, which is the
  outcome of one `allSettled` task.
- `text.dfy` (`Text`): string helpers.
  - ASCII `toLowerCase`
  - `includes`
  - `join`
  - `slice(0, n)`
  - whitespace collapsing and `trim`
  - number rendering
- `seqs.dfy` (`Seqs`): `filter`, `map`, set-based de-duplication, and the
  subsequence relation.
- `external.dfy` (`External`): the value `JSON.parse` returns, `String(v)`, and
  the outcome of one language-model call.
- `types.dfy` (`Types`): the candidate record and the classified candidate
  record.
- `configuration.dfy` (`Configuration`): the validated configuration, the raw
  document, the schema's checks and defaults, and `parseConfig`.
- `brackets.dfy` (`Brackets`): the depth scan. Both reply parsers use it.
- `keywords.dfy` (`Keywords`): `getAllKeywords`, `matchesAnyKeyword`,
  `filterCandidates`.
- `dedup.dfy` (`Dedup`): the URL pattern, `extractUrlsFromMarkdown`, `dedup`.
- `classifier.dfy` (`Classifier`): `sanitize`, `buildUserPrompt`,
  `extractFirstJson`, `parseClassifyResponse`, `classifyCandidates`.
- The collectors' post-processing:
  - `blogs.dfy` (`Blogs`)
  - `web_pages.dfy` (`WebPages`)
  - `arxiv.dfy` (`Arxiv`)
  - `github.dfy` (`GitHub`)
- `pipeline.dfy` (`Pipeline`): `runPipeline` as a trace of stage calls.
- `wiring.dfy` (`Wiring`): `collect`, the `filter` composition, the dry-run flag
  and one whole run.

Two behaviours of the source worth noting:

- `collect` in `src/index.ts` never calls the web-page collector. A
  configuration with only `web_pages` therefore collects nothing.
  `Wiring.Collect` models this as written.
- The tests in `tests/sources/github.test.ts` call `buildSearchQuery` with the
  configuration alone. The source also takes the topic list. The model follows
  the source.

## Model

| member | source | states |
|---|---|---|
| Types.SourceName | src/sources/types.ts:5 | A source is tagged with one of the four names `github`, `arxiv`, `blog`, `web_page`. |
| Types.ParseSource | src/sources/types.ts:5 | A tag is accepted exactly when it is one of the four names, and the accepted source carries that name. |
| Types.SourceNameRoundTrip | src/sources/types.ts:1-7 | Reading back a source's tag gives the same source. |
| Configuration.ParseGithub | src/config.ts:5-13 | Accepted exactly when there is at least one topic, a given `min_stars` is a non-negative whole number, and a given `created_after` is digits then `d`. Topics and languages are kept, and so are a given `min_stars` and `created_after`. Otherwise `min_stars` defaults to 0 and `created_after` to `30d`. |
| Configuration.ParseSources | src/config.ts:15-35 | Accepted exactly when every given section passes its own checks and at least one section is given. The GitHub section is its own validated form. The arXiv, blog and web-page sections are kept as given. |
| Configuration.ParseClassification | src/config.ts:37-41 | Accepted exactly when a given threshold lies in 0..100 and a given cap is a positive whole number. A given model, threshold and cap are kept. A missing value takes its default: model `claude-sonnet-4-6`, threshold 70, cap 5. |
| Configuration.ParseConfig | src/config.ts:47-63 | Accepted exactly when the description is non-empty and the sources and classification are accepted. Everything accepted is valid. The description, a given `list_file` and given labels are kept, and the sources and classification are their validated forms. Otherwise `list_file` defaults to `README.md` and labels to `radar`, `needs-review`. |
| Configuration.MinimalConfigAccepted | tests/config.test.ts:27-37 | A document with only a description and GitHub topics is accepted, with every default filled in. |
| Configuration.ValidConfigRoundTrip | src/config.ts:47-56 | Validating the fully spelled-out form of any valid configuration returns that configuration unchanged. |
| Keywords.GetAllKeywords | src/filter/keywords.ts:5-22 | The keywords are the lower-cased topics and keywords of the configured sources, each once, kept in the gathered order. There are none when no source is configured. |
| Seqs.DedupeSnoc | src/filter/keywords.ts:21 | Adding one more value keeps the earlier result and appends the value only if it is new, so each value stands where it first occurs. |
| Keywords.MatchesAnyKeyword | src/filter/keywords.ts:24-27 | True exactly when some keyword occurs in the lower-cased text. |
| Keywords.FilterCandidates | src/filter/keywords.ts:29-49 | With no keywords, every candidate passes unchanged. Otherwise exactly the candidates whose title, description or topics text matches a keyword are kept, in order, each as many times as it occurs in the input. |
| Keywords.TopicMatchKeeps | src/filter/keywords.ts:40-43 | A candidate with a topic that contains a configured keyword always survives the filter. |
| Dedup.MatchEnd | src/filter/dedup.ts:6 | A URL match starts at a position exactly when `http://` or `https://` is followed there by a URL character. The match is a whole pattern match and ends where the URL characters stop. |
| Dedup.ScanUrls | src/filter/dedup.ts:6-10 | Every match is a full pattern match occurring in the text. There are none exactly when no match can start anywhere. |
| Dedup.ScanFindsMatch | src/filter/dedup.ts:6-10 | Every match is found: a match at position q is listed whenever no earlier match runs past q. |
| Dedup.ScanUrlsNext | src/filter/dedup.ts:6-10 | The global search takes the first match it meets, then resumes where that match ends. |
| Dedup.StripTrailingPunct | src/filter/dedup.ts:14 | The result is a prefix that does not end in `.,;:!?`. Only those characters were removed. |
| Dedup.CleanUrlShape | src/filter/dedup.ts:14 | A cleaned match is lower case. It keeps its scheme, holds only URL characters and does not end in punctuation. |
| Dedup.ExtractUrlsFromMarkdown | src/filter/dedup.ts:8-19 | Every extracted URL is clean and is the cleaned form of a match in the text. The set is empty exactly when the text has no URL. |
| Dedup.ExtractFindsUrl | src/filter/dedup.ts:8-19 | Conversely, the cleaned form of every URL the global search reaches is in the set. |
| Dedup.DedupCandidates | src/filter/dedup.ts:23-48 | An unreadable list file drops nothing. Otherwise exactly the candidates whose lower-cased URL is not on the list are kept, in order, each as many times as it occurs in the input. |
| Dedup.ListedUrlDropped | src/filter/dedup.ts:30-42 | A candidate whose lower-cased URL is the cleaned form of a URL written in the list file is dropped. |
| Dedup.CaseInsensitiveDrop | src/filter/dedup.ts:40-42 | Two candidates whose URLs differ only in case are kept or dropped together. |
| Classifier.Sanitize | src/classifier/llm.ts:22-24 | The result is no longer than the cap and contains none of the control characters 0x00-0x08, 0x0B, 0x0C, 0x0E-0x1F. |
| Classifier.SanitizeKeeps | src/classifier/llm.ts:22-24 | Sanitize keeps, in order, exactly the allowed characters of the truncated text, each as often as it occurs there. Short clean text is returned unchanged. |
| Classifier.PromptFieldsTags | src/classifier/llm.ts:27-55 | The prompt always has title, url, source and description. Then come stars, language, authors and topics, each exactly when present, in that order. |
| Classifier.PromptFieldsContained | src/classifier/llm.ts:31-55 | Every untrusted field in the prompt is free of control characters and within its cap: 200, 500, 500, 50, 200, 200. |
| Classifier.BuildUserPrompt | src/classifier/llm.ts:26-59 | The prompt opens with the list-description heading. It contains the description and every tagged field, and ends with the rating instruction. |
| Classifier.ExtractFirstJson | src/classifier/llm.ts:68-78 | The only outcomes are a slice, "no JSON" and "no valid JSON". Reports "no JSON" exactly when there is no `{`. Reports "no valid JSON" exactly when the depth never returns to zero. Otherwise it returns the balanced slice that starts at the first `{`. |
| Classifier.ExtractStopsAtFirstBalance | src/classifier/llm.ts:71-75 | The slice ends at the first point where the depth returns to zero. |
| Classifier.ExtractFindsFirstBalance | src/classifier/llm.ts:69-75 | Wherever the first `{` stands, once the depth returns to zero after it, the result is exactly that slice. |
| Classifier.BraceInStringEndsSlice | src/classifier/llm.ts:72-75 | Braces inside JSON strings count, so `{"a":"}"}` yields `{"a":"}`. |
| Classifier.Round | src/classifier/llm.ts:93 | `Math.round` gives the integer within one half of x, with halves rounded up. |
| Classifier.ParseClassifyResponse | src/classifier/llm.ts:80-100 | Succeeds exactly when a JSON object is found, parses, and holds a numeric score in 0..100. The score is rounded. A missing or null category or reasoning gives `Uncategorized` or the empty string; a present one is its `String` rendering. An array of tags becomes the `String` rendering of each element; anything else gives no tags. |
| Classifier.Verdict | src/classifier/llm.ts:129-140 | One candidate is kept exactly when its reply is usable, parses, and scores at or above the threshold. The kept record combines the candidate with the parsed result. |
| Classifier.ClassifyEach | src/classifier/llm.ts:119-146 | At most one result per candidate, each scored within 0..100 and at or above the threshold, and each wrapping one of the input candidates. |
| Classifier.ClassifyEachOrder | src/classifier/llm.ts:119-146 | The kept candidates appear in input order. |
| Classifier.ClassifyEachExact | src/classifier/llm.ts:119-146 | A result is kept exactly when it is the verdict on some candidate and that candidate's reply. |
| Classifier.ClassifyEachAppend | src/classifier/llm.ts:119-146 | Classifying two lists in a row gives the two results concatenated. |
| Classifier.ClassifyEachSingle | src/classifier/llm.ts:119-146 | One call keeps its result exactly once when the verdict is positive, and nothing otherwise. |
| Classifier.FailedCallIsolated | src/classifier/llm.ts:141-145 | A failed model call drops only its own candidate. The others are classified as if it were absent. |
| Classifier.ThresholdBoundary | src/classifier/llm.ts:134 | A score equal to the threshold is kept. A threshold one above the score drops the candidate. |
| Classifier.ClassifyCandidates | src/classifier/llm.ts:105-149 | Empty input makes no calls. Exactly min(count, cap) prompts are built, one per candidate in order. The kept results are exactly the per-candidate loop over the first min(count, cap) candidates. Every kept score is at or above the threshold, and every result wraps an input candidate. |
| Classifier.ClassifyCandidatesExact | src/classifier/llm.ts:115-146 | Only candidates within the cap can be kept, in order. A result is kept exactly when it is a verdict on one of them. |
| Blogs.MatchesKeywords | src/sources/blogs.ts:8-11 | True exactly when some keyword, lower-cased, occurs in the lower-cased text. |
| Blogs.MatchesKeywordsCaseInsensitive | src/sources/blogs.ts:8-11 | Neither the text's case nor the keywords' case changes the answer. |
| Blogs.FeedCandidates | src/sources/blogs.ts:39-62 | Exactly the items that have a link and a title and pass the optional keyword filter become blog candidates. Each carries the feed title. |
| Blogs.FeedCandidatesAppend | src/sources/blogs.ts:39-62 | Items are processed one after another: the candidates of two runs of items are those of each run, in order. |
| Blogs.FeedCandidatesSingle | src/sources/blogs.ts:39-62 | A single item yields its candidate exactly when it is accepted, and nothing otherwise. |
| Blogs.SettledCandidates | src/sources/blogs.ts:31-63 | Every candidate drawn from the feed outcomes has the blog shape. |
| Blogs.SettledCandidatesAppend | src/sources/blogs.ts:31-63 | Feed outcomes are processed one after another, in order. |
| Blogs.RejectedFeedIsolated | src/sources/blogs.ts:32-35 | A feed that failed to load contributes nothing, and the other feeds are unaffected. |
| Blogs.LoadedFeedIsolated | src/sources/blogs.ts:31-63 | A loaded feed contributes its own candidates between those of the feeds before and after it. |
| Blogs.SettledCandidatesSingle | src/sources/blogs.ts:37-62 | A single loaded feed contributes exactly its own candidates. |
| Blogs.SettledCandidatesExact | src/sources/blogs.ts:31-63 | A candidate is produced exactly when it comes from an accepted item of a loaded feed. |
| Blogs.CollectBlogs | src/sources/blogs.ts:13-66 | No blogs section means no candidates. Every candidate has the blog shape: a link and title, a description of at most 1000 characters, and at most one author. |
| Blogs.CollectBlogsExact | src/sources/blogs.ts:31-63 | With a blogs section, keywords or not, a candidate is collected exactly when it comes from an item of a loaded feed that has a link and a title and passes the keyword filter. |
| Blogs.LoadedFeedCollected | src/sources/blogs.ts:31-63 | A feed that loads contributes its accepted items in its own place among the feeds. |
| Blogs.RejectedFeedCollected | src/sources/blogs.ts:32-35 | A feed that fails to load leaves the other feeds' candidates as they were. |
| Blogs.CollectBlogsWithoutKeywords | src/sources/blogs.ts:40-46 | Without keywords, every item with a link and a title of a loaded feed is collected. |
| WebPages.CleanHtml | src/sources/web_pages.ts:37-42 | The cleaned text is a prefix of the collapsed, trimmed text and does not start with whitespace. It is the whole text when that fits in 15000 characters, and exactly 15000 characters otherwise. |
| WebPages.LinksOf | src/sources/web_pages.ts:54-63 | A non-array gives no links. Otherwise the links are exactly the elements that are objects with string `title` and `url`. |
| WebPages.LinksOfAppend | src/sources/web_pages.ts:55-63 | Filtering keeps array order: the links of two runs of elements are those of each run, in order. |
| WebPages.LinksOfSingle | src/sources/web_pages.ts:55-63 | A single element is kept exactly when it is an object with string `title` and `url`. |
| WebPages.ExtractFirstJsonArray | src/sources/web_pages.ts:45-67 | No `[`, or no balance, gives no links. A balanced slice that fails to parse is an error; otherwise it yields its links. |
| WebPages.ProcessPage | src/sources/web_pages.ts:89-125 | A network failure, a non-OK status, a failed model call and a malformed reply each reject the page. Otherwise every link is kept, with its URL resolved against the page. |
| WebPages.PageOutcomes | src/sources/web_pages.ts:89-126 | One outcome per configured page URL, in order. |
| WebPages.PageCandidates | src/sources/web_pages.ts:136-157 | Exactly the links with a title and a URL that pass the keyword filter become web-page candidates, named after the page's host. |
| WebPages.PageCandidatesAppend | src/sources/web_pages.ts:138-157 | Links are processed one after another: the candidates of two runs of links are those of each run, in order. |
| WebPages.PageCandidatesSingle | src/sources/web_pages.ts:138-157 | A single link yields its candidate exactly when it is accepted, and nothing otherwise. |
| WebPages.SettledPages | src/sources/web_pages.ts:130-158 | Every candidate drawn from the page outcomes has the web-page shape. |
| WebPages.SettledPagesAppend | src/sources/web_pages.ts:130-158 | Page outcomes are processed one after another, in order. |
| WebPages.RejectedPageIsolated | src/sources/web_pages.ts:131-134 | A rejected page contributes nothing, and the other pages are unaffected. |
| WebPages.SettledPagesSingle | src/sources/web_pages.ts:136-158 | A single loaded page contributes exactly its own candidates. |
| WebPages.LoadedPageIsolated | src/sources/web_pages.ts:130-158 | A loaded page contributes its own candidates between those of the pages before and after it. |
| WebPages.CollectWebPages | src/sources/web_pages.ts:77-161 | No web-pages section means no candidates. Every candidate has the web-page shape. |
| WebPages.FailedFetchIsolated | src/sources/web_pages.ts:93-96 | A page whose fetch fails leaves the candidates of every other page as they were. |
| WebPages.LoadedPageCollected | src/sources/web_pages.ts:77-161 | A configured page that loads contributes its accepted links, in its own place among the pages. |
| Arxiv.Group | src/sources/arxiv.ts:19-25 | One part stands alone. Several are joined with ` OR ` inside parentheses. Every part appears in the group. |
| Arxiv.BuildArxivQuery | src/sources/arxiv.ts:17-28 | The query is the group of `cat:` clauses, then ` AND `, then the group of `all:` keyword clauses. |
| Arxiv.QueryMentionsCategories | src/sources/arxiv.ts:19-21 | Every configured category appears as `cat:<c>` in the query. |
| Arxiv.QueryMentionsKeywords | src/sources/arxiv.ts:23-25 | Every configured keyword appears quoted as `all:"<kw>"` in the query. |
| Arxiv.ParseAuthors | src/sources/arxiv.ts:40-47 | A single author becomes a one-element list, and a list keeps every name in order. |
| Arxiv.EntryCandidate | src/sources/arxiv.ts:81-93 | An entry becomes an arXiv candidate with its id as URL and its authors and date. The title is the normalized title. The description is the normalized summary cut to 1000 characters. |
| Arxiv.Normalize | src/sources/arxiv.ts:83-86 | The result neither starts nor ends with whitespace, holds only single spaces, and keeps every visible character in order. Text that is already normalized is returned unchanged. |
| Arxiv.NormalizeEdges | src/sources/arxiv.ts:83-86 | Whitespace before and after the text is dropped entirely. |
| Text.CollapseSpaces | src/sources/arxiv.ts:83 | Every whitespace run becomes one plain space: no two whitespace characters are adjacent, the ends stay whitespace exactly when they were, and the visible characters are kept in order. Text that is already single-spaced is returned unchanged. |
| Text.Trim | src/sources/arxiv.ts:86 | The result neither starts nor ends with whitespace and keeps every visible character. Text without whitespace at either end is returned unchanged. |
| Arxiv.NormalizeRun | src/sources/arxiv.ts:83-86 | A whitespace run between two visible characters becomes exactly one space, and the text on each side is normalized on its own. |
| Arxiv.EntryCandidates | src/sources/arxiv.ts:81-93 | All entries map one to one, in order. One entry that throws drops the whole batch. |
| Arxiv.Entries | src/sources/arxiv.ts:74-79 | No entry gives none, a single entry is wrapped, and a list is kept. |
| Arxiv.CollectArxiv | src/sources/arxiv.ts:49-100 | Returns nothing without an arXiv section, on a fetch failure, on a non-OK status or on unparseable XML. Otherwise it returns the mapped entries. |
| GitHub.SearchParts | src/sources/github.ts:18-41 | Topic clauses come first, then language clauses when configured, then the star floor when positive. The creation clause comes last. |
| GitHub.BuildSearchQuery | src/sources/github.ts:18-43 | The query is the topic clauses, then the language clauses when given, then the star floor when positive, then the creation clause, each part after the first preceded by one space. It mentions every topic and language. |
| GitHub.RepoCandidate | src/sources/github.ts:71-81 | A repository becomes a GitHub candidate with its URL, full name, star count and language. A missing description becomes empty. A present one is kept whole up to 1000 characters and cut to exactly 1000 beyond. Missing topics become an empty list. |
| GitHub.CollectGitHub | src/sources/github.ts:45-90 | No GitHub section, or a failed search, gives nothing. Otherwise there is one candidate per repository, in order. |
| Pipeline.RunPipeline | src/pipeline.ts:28-54 | The stages run in order, each on the previous stage's output, and stop at the first rejection. The counters are the collected count, the filtered count and the writer's result. |
| Pipeline.RejectionPropagates | src/pipeline.ts:33-47 | A failed run fails with the error of the last stage it called. |
| Wiring.Collect | src/index.ts:14-28 | GitHub results, then arXiv, then blogs. The candidates from each source are exactly that collector's output, in order. No web-page candidate is collected. |
| Wiring.FilterStage | src/index.ts:30-36 | Exactly the candidates that match a keyword, when there are keywords, and are not already listed survive, in order, each as many times as it occurs in the input. |
| Wiring.ClassifyStageBounds | src/classifier/llm.ts:115-135 | The classify stage passes on at most the cap of its own input candidates, each at or above the threshold. |
| Wiring.RunRadar | src/index.ts:41-55 | Every run calls collect, filter, classify and the issue writer in that order, each on the previous stage's output. The dry-run flag is set exactly for the input `true`. The run succeeds exactly when the writer does. |
| Wiring.RunRadarShape | src/index.ts:14-55 | End to end: filtering only removes, and at most the cap reach the writer, all above the threshold and none from a web page. |

## Left out

- Reading the configuration file and parsing its YAML are not modelled. The model starts from the raw document the YAML parser returns.
- Configuration.ParseConfig: zod's `.url()` check on feed and page URLs is not modelled, so any string is accepted there.
- Configuration.ParseConfig: zod's error messages are not modelled. An error is a single `ConfigError` tag, and the first failing check wins.
- GitHub.SearchParts: `createdAfterDate` reads the clock and computes a calendar date. Its result is the parameter `after`. Its throw on a malformed spec lies outside the search `try` and is not modelled; validation already rules such a spec out.
- GitHub.CollectGitHub: the search request itself is not modelled, nor its paging (one page of 100, sorted by stars). A response is the list of repositories the search returns, or a failure.
- `buildArxivUrl` only URL-encodes the query into fixed parameters, so the model does not build the URL. The fetch receives the query directly.
- The XML parser and the RSS parser are parameters. Their output is modelled as the entry fields and feed items the code reads.
- WebPages.CleanHtml: the tag-removal and anchor-rewriting regular expressions are the parameter `stripTags`. Only whitespace normalization and the 15000-character cut are modelled.
- `resolveUrl` and `new URL(pageUrl).hostname` are parameters, because URL parsing is not modelled. A hostname throw would escape the loop; validated page URLs rule that out, and it is not modelled.
- Classifier.Round: numbers are reals, not IEEE doubles. Rounding at the limits of double precision is not modelled.
- Classifier.ParseClassifyResponse: `JSON.parse` is a parameter. `String(n)` of a number uses the text the parser supplies. A JSON `null` reply is reported as its own error; the source fails there with a `TypeError`. Both drop the candidate.
- Text.Lower: lower-casing is ASCII-only. Non-ASCII case mappings are not modelled.
- Text.Take: a string is a sequence of Unicode characters, so `slice(0, n)` and `length` count characters here. JavaScript counts UTF-16 code units. Text outside the Basic Multilingual Plane is therefore cut at a different point, and a cut through a surrogate pair cannot be represented.
- Classifier.Sanitize: its caps of 200, 500 and 50 count Unicode characters, not UTF-16 code units, as for Text.Take.
- GitHub.RepoCandidate: the 1000-character description cap counts Unicode characters, not UTF-16 code units, as for Text.Take.
- Arxiv.EntryCandidate: the 1000-character summary cap counts Unicode characters, not UTF-16 code units, as for Text.Take.
- Blogs.ItemCandidate: the 1000-character description cap counts Unicode characters, not UTF-16 code units, as for Text.Take.
- WebPages.CleanHtml: the 15000-character cap counts Unicode characters, not UTF-16 code units, as for Text.Take.
- WebPages.LinkCandidate: the 1000-character description cap counts Unicode characters, not UTF-16 code units, as for Text.Take.
- The language model is the sequence of replies, one per call in order. A missing reply counts as a failed call.
- Model name, `max_tokens`, the system prompts and the web-page extraction prompt text are not modelled. They are fixed call arguments with no effect on the pipeline's logic.
- Constructing the Anthropic and Octokit clients and reading the action inputs other than `dry_run` are not modelled.
- Logging (`core.info`, `core.warning`), `core.setOutput` and `core.setFailed` are not modelled.
- The issue writer (`src/output/issues.ts`) is not part of this model. It is the parameter `createIssues`.
- Concurrency: `Promise.allSettled` is modelled as the sequence of settled outcomes in input order.

=== FILE: arxiv.dfy ===
/** The arXiv collector: the search query built from the configured
    categories and keywords, and the mapping of the Atom entries the API returns.
    URL encoding, the HTTP call and XML parsing are inputs. */
module Arxiv {
  import opened Wrappers
  import opened Text
  import opened Seqs
  import opened Types
  import opened Configuration

  const MaxDescriptionLength: nat := 1000

  /** One side of the query: the parts `OR`-joined in parentheses when there are
      several, the part alone when there is one. With none, JavaScript
      interpolates `parts[0]`, which is `undefined`. */
  function Group(parts: seq<string>): (r: string)
    ensures |parts| == 1 ==> r == parts[0]
    ensures |parts| > 1 ==> |r| >= 2 && r[0] == '(' && r[|r| - 1] == ')' && r[1..|r| - 1] == Join(parts, " OR ")
    ensures forall i :: 0 <= i < |parts| ==> Occurs(r, parts[i])
  {
    if |parts| > 1 then
      var inner := Join(parts, " OR ");
      GroupContainsParts(parts, inner);
      "(" + inner + ")"
    else if |parts| == 1 then
      OccursItself(parts[0]);
      parts[0]
    else "undefined"
  }

  lemma GroupContainsParts(parts: seq<string>, inner: string)
    requires inner == Join(parts, " OR ")
    ensures forall i :: 0 <= i < |parts| ==> Occurs("(" + inner + ")", parts[i])
  {
    forall i | 0 <= i < |parts|
      ensures Occurs("(" + inner + ")", parts[i])
    {
      JoinContainsEachPart(parts, " OR ", i);
      OccursInRight("(", inner, parts[i]);
      OccursInLeft("(" + inner, ")", parts[i]);
    }
  }

  function CategoryClause(c: string): string { "cat:" + c }

  /** A keyword is quoted verbatim. */
  function KeywordClause(kw: string): string { "all:\"" + kw + "\"" }

  /** `buildArxivQuery`. */
  function BuildArxivQuery(arxiv: ArxivSource): (r: string)
    ensures var cats := Group(Map(arxiv.categories, CategoryClause));
            && |cats| + 5 <= |r| && r[..|cats| + 5] == cats + " AND "
            && r[|cats| + 5..] == Group(Map(arxiv.keywords, KeywordClause))
  {
    Group(Map(arxiv.categories, CategoryClause)) + " AND " + Group(Map(arxiv.keywords, KeywordClause))
  }

  /** Every category is in the query, as its own clause. */
  lemma QueryMentionsCategories(arxiv: ArxivSource)
    ensures forall c :: c in arxiv.categories ==> Occurs(BuildArxivQuery(arxiv), CategoryClause(c))
  {
    var cats := Map(arxiv.categories, CategoryClause);
    var left := Group(cats) + " AND ";
    forall c | c in arxiv.categories
      ensures Occurs(BuildArxivQuery(arxiv), CategoryClause(c))
    {
      var i :| 0 <= i < |arxiv.categories| && arxiv.categories[i] == c;
      assert cats[i] == CategoryClause(c);
      OccursInLeft(Group(cats), " AND ", CategoryClause(c));
      OccursInLeft(left, Group(Map(arxiv.keywords, KeywordClause)), CategoryClause(c));
    }
  }

  /** Every keyword is in the query, quoted, as its own clause. */
  lemma QueryMentionsKeywords(arxiv: ArxivSource)
    ensures forall kw :: kw in arxiv.keywords ==> Occurs(BuildArxivQuery(arxiv), KeywordClause(kw))
  {
    var kws := Map(arxiv.keywords, KeywordClause);
    var left := Group(Map(arxiv.categories, CategoryClause)) + " AND ";
    forall kw | kw in arxiv.keywords
      ensures Occurs(BuildArxivQuery(arxiv), KeywordClause(kw))
    {
      var i :| 0 <= i < |arxiv.keywords| && arxiv.keywords[i] == kw;
      assert kws[i] == KeywordClause(kw);
      OccursInRight(left, Group(kws), KeywordClause(kw));
    }
  }

  /** With one category and one keyword the query has no parentheses. */
  lemma SingleClauseQuery(c: string, kw: string)
    ensures BuildArxivQuery(ArxivSource([c], [kw])) == "cat:" + c + " AND all:\"" + kw + "\""
  {
    assert Map([c], CategoryClause) == [CategoryClause(c)];
    assert Map([kw], KeywordClause) == [KeywordClause(kw)];
  }

  /** The `author` element of an entry as the XML parser presents it: missing, a
      single author, or a list of authors. */
  datatype AuthorField = NoAuthor | OneAuthor(name: string) | AuthorList(names: seq<string>)

  /** `parseAuthors`; `None` where reading `.name` of a missing author throws. */
  function ParseAuthors(author: AuthorField): (r: Option<seq<string>>)
    ensures r.None? <==> author.NoAuthor?
    ensures author.OneAuthor? ==> r == Some([author.name])
    ensures author.AuthorList? ==> r == Some(author.names)
  {
    match author
    case NoAuthor => None
    case OneAuthor(name) => Some([name])
    case AuthorList(names) => Some(names)
  }

  /** One Atom entry; each text field is what `String(...)` gives for it. */
  datatype ArxivEntry = ArxivEntry(
    id: string,
    title: string,
    summary: string,
    author: AuthorField,
    published: Option<string>)

  /** `feed.entry`: absent (or no feed at all), one entry, or several. */
  datatype EntryField = NoEntry | OneEntry(entry: ArxivEntry) | EntryList(entries: seq<ArxivEntry>)

  /** What the HTTP call produced. */
  datatype ArxivResponse = FetchFailed | NotOk(status: int) | Xml(text: string)

  /** Whitespace runs become one space and the ends are trimmed. */
  function Normalize(s: string): (r: string)
    ensures |r| > 0 ==> !IsSpace(r[0]) && !IsSpace(r[|r| - 1])
    ensures SingleSpaced(r)
    ensures NonSpace(r) == NonSpace(s)
    ensures SingleSpaced(s) && (|s| == 0 || (!IsSpace(s[0]) && !IsSpace(s[|s| - 1]))) ==> r == s
  {
    TrimKeepsSingleSpaced(CollapseSpaces(s));
    Trim(CollapseSpaces(s))
  }

  /** A whitespace run between two visible characters becomes exactly one
      space, and the text on either side is normalized on its own. */
  lemma NormalizeRun(a: string, w: string, b: string)
    requires |a| > 0 && !IsSpace(a[|a| - 1])
    requires |w| > 0 && forall i :: 0 <= i < |w| ==> IsSpace(w[i])
    requires |b| > 0 && !IsSpace(b[0])
    ensures Normalize(a + w + b) == Normalize(a) + " " + Normalize(b)
  {
    TrimCollapseRun(a, w, b);
  }

  /** Whitespace before and after the text is dropped entirely. */
  lemma NormalizeEdges(w1: string, s: string, w2: string)
    requires AllSpace(w1) && AllSpace(w2)
    ensures Normalize(w1 + s + w2) == Normalize(s)
  {
    TrimCollapseEdges(w1, s, w2);
  }

  /** The shape every arXiv candidate has. */
  predicate IsArxivCandidate(c: Candidate)
  {
    && c.source == Arxiv
    && |c.description| <= MaxDescriptionLength
    && (|c.title| > 0 ==> !IsSpace(c.title[0]) && !IsSpace(c.title[|c.title| - 1]))
    && (|c.description| > 0 ==> !IsSpace(c.description[0]))
    && c.metadata.authors.Some?
    && c.metadata.stars.None? && c.metadata.feedName.None? && c.metadata.pageName.None?
  }

  /** The candidate for one entry; `None` when its authors cannot be read. */
  function EntryCandidate(e: ArxivEntry): (r: Option<Candidate>)
    ensures r.Some? <==> !e.author.NoAuthor?
    ensures r.Some? ==>
              && IsArxivCandidate(r.value)
              && r.value.url == e.id
              && r.value.title == Normalize(e.title)
              && r.value.description == Take(Normalize(e.summary), MaxDescriptionLength)
              && r.value.metadata.authors == ParseAuthors(e.author)
              && r.value.metadata.publishedAt == e.published
  {
    match ParseAuthors(e.author)
    case None => None
    case Some(authors) =>
      Some(Candidate(e.id, Normalize(e.title), Take(Normalize(e.summary), MaxDescriptionLength), Arxiv,
                     NoMetadata.(authors := Some(authors), publishedAt := e.published)))
  }

  /** `entries.map(...)` inside the `try`: one entry that throws loses them all. */
  function EntryCandidates(entries: seq<ArxivEntry>): (r: Option<seq<Candidate>>)
    ensures r.Some? <==> forall i :: 0 <= i < |entries| ==> EntryCandidate(entries[i]).Some?
    ensures r.Some? ==>
              && |r.value| == |entries|
              && forall i :: 0 <= i < |entries| ==> Some(r.value[i]) == EntryCandidate(entries[i])
  {
    AllSome(Map(entries, EntryCandidate))
  }

  /** A single entry is treated as a one-element list. */
  function Entries(field: EntryField): (r: seq<ArxivEntry>)
    ensures field.NoEntry? ==> r == []
    ensures field.OneEntry? ==> r == [field.entry]
    ensures field.EntryList? ==> r == field.entries
  {
    match field
    case NoEntry => []
    case OneEntry(e) => [e]
    case EntryList(es) => es
  }

  /** `collectArxiv`. `fetch(query)` is the API's answer to the search for
      `query`; `parseXml` is the XML parser, `None` where it throws. */
  function CollectArxiv(config: RadarConfig, fetch: string -> ArxivResponse, parseXml: string -> Option<EntryField>)
    : (r: seq<Candidate>)
    ensures config.sources.arxiv.None? ==> r == []
    ensures forall i :: 0 <= i < |r| ==> IsArxivCandidate(r[i])
    ensures config.sources.arxiv.Some? ==>
              var response := fetch(BuildArxivQuery(config.sources.arxiv.value));
              && (!response.Xml? ==> r == [])
              && (response.Xml? && parseXml(response.text).None? ==> r == [])
              && (response.Xml? && parseXml(response.text).Some? ==>
                    var entries := Entries(parseXml(response.text).value);
                    && (EntryCandidates(entries).Some? ==> r == EntryCandidates(entries).value)
                    && (EntryCandidates(entries).None? ==> r == []))
  {
    match config.sources.arxiv
    case None => []
    case Some(arxiv) =>
      match fetch(BuildArxivQuery(arxiv))
      case FetchFailed => []
      case NotOk(_) => []
      case Xml(text) =>
        match parseXml(text)
        case None => []
        case Some(field) =>
          match EntryCandidates(Entries(field))
          case None => []
          case Some(cs) => cs
  }
}

=== FILE: blogs.dfy ===
/** The RSS/Atom collector after fetching: the feeds arrive as settled outcomes,
    in configured order, and every item becomes a candidate unless it lacks a
    link or a title or misses the optional keywords. */
module Blogs {
  import opened Wrappers
  import opened Text
  import opened Seqs
  import opened Types
  import opened Configuration

  const MaxDescriptionLength: nat := 1000

  /** `matchesKeywords`: some keyword, lowercased, is a substring of the
      lowercased text. */
  function MatchesKeywords(text: string, keywords: seq<string>): (r: bool)
    ensures r <==> exists k :: k in keywords && Occurs(Lower(text), Lower(k))
  {
    if |keywords| == 0 then false
    else
      IncludesMeansOccurs(Lower(text), Lower(keywords[0]));
      Includes(Lower(text), Lower(keywords[0])) || MatchesKeywords(text, keywords[1..])
  }

  /** Neither side's letter case matters. */
  lemma MatchesKeywordsCaseInsensitive(text: string, keywords: seq<string>)
    ensures MatchesKeywords(Lower(text), keywords) == MatchesKeywords(text, keywords)
    ensures MatchesKeywords(text, Map(keywords, Lower)) == MatchesKeywords(text, keywords)
  {
    LowerIdempotent(text);
    var lowered := Map(keywords, Lower);
    forall k | k in keywords
      ensures Lower(k) in lowered && Lower(Lower(k)) == Lower(k)
    {
      var i :| 0 <= i < |keywords| && keywords[i] == k;
      assert lowered[i] == Lower(k);
      LowerIdempotent(k);
    }
    forall k | k in lowered
      ensures exists k' :: k' in keywords && Lower(k) == Lower(k')
    {
      var i :| 0 <= i < |lowered| && lowered[i] == k;
      LowerIdempotent(keywords[i]);
    }
  }

  /** The optional keyword filter is on only for a non-empty list. */
  predicate KeywordsApply(keywords: Option<seq<string>>)
  {
    keywords.Some? && |keywords.value| > 0
  }

  /** A string-valued feed field that is truthy: present and non-empty. */
  predicate Truthy(s: Option<string>)
  {
    s.Some? && s.value != ""
  }

  /** What rss-parser reports for one item. */
  datatype FeedItem = FeedItem(
    link: Option<string>,
    title: Option<string>,
    contentSnippet: Option<string>,
    content: Option<string>,
    creator: Option<string>,
    isoDate: Option<string>,
    pubDate: Option<string>)

  datatype Feed = Feed(title: Option<string>, items: seq<FeedItem>)

  /** `a ?? b`: only a missing value falls through; an empty string does not. */
  function Coalesce(a: Option<string>, b: Option<string>): (r: Option<string>)
    ensures a.Some? ==> r == a
    ensures a.None? ==> r == b
  {
    if a.Some? then a else b
  }

  /** `contentSnippet ?? content ?? ""`. */
  function Body(item: FeedItem): string
  {
    Coalesce(item.contentSnippet, item.content).GetOr("")
  }

  /** The text the keyword filter reads. */
  function ItemText(item: FeedItem): string
  {
    item.title.GetOr("") + " " + Body(item)
  }

  predicate Accepted(item: FeedItem, keywords: Option<seq<string>>)
  {
    && Truthy(item.link) && Truthy(item.title)
    && (KeywordsApply(keywords) ==> MatchesKeywords(ItemText(item), keywords.value))
  }

  function ItemCandidate(item: FeedItem, feed: Feed): Candidate
  {
    Candidate(
      item.link.GetOr(""),
      item.title.GetOr(""),
      Take(Body(item), MaxDescriptionLength),
      Blog,
      NoMetadata.(authors := if Truthy(item.creator) then Some([item.creator.value]) else None,
                  publishedAt := Coalesce(item.isoDate, item.pubDate),
                  feedName := feed.title))
  }

  /** The shape every blog candidate has. */
  predicate IsBlogCandidate(c: Candidate)
  {
    && c.source == Blog && c.url != "" && c.title != ""
    && |c.description| <= MaxDescriptionLength
    && (c.metadata.authors.Some? ==> |c.metadata.authors.value| == 1)
    && c.metadata.stars.None? && c.metadata.pageName.None?
  }

  /** The inner loop over one feed's items. */
  function FeedCandidates(feed: Feed, keywords: Option<seq<string>>): (r: seq<Candidate>)
    ensures |r| <= |feed.items|
    ensures forall i :: 0 <= i < |r| ==> IsBlogCandidate(r[i]) && r[i].metadata.feedName == feed.title
    ensures forall item :: item in feed.items && Accepted(item, keywords) ==> ItemCandidate(item, feed) in r
    ensures forall c :: c in r ==>
              exists item :: item in feed.items && Accepted(item, keywords) && c == ItemCandidate(item, feed)
  {
    var kept := Filter(feed.items, AcceptedBy(keywords));
    var r := Map(kept, ItemCandidateOf(feed));
    KeptItemsYield(feed, keywords, kept, r);
    r
  }

  function AcceptedBy(keywords: Option<seq<string>>): FeedItem -> bool
  {
    item => Accepted(item, keywords)
  }

  function ItemCandidateOf(feed: Feed): FeedItem -> Candidate
  {
    item => ItemCandidate(item, feed)
  }

  /** Items are visited in order: the candidates of two runs of items are those
      of the first run followed by those of the second. */
  lemma FeedCandidatesAppend(title: Option<string>, a: seq<FeedItem>, b: seq<FeedItem>, keywords: Option<seq<string>>)
    ensures FeedCandidates(Feed(title, a + b), keywords)
            == FeedCandidates(Feed(title, a), keywords) + FeedCandidates(Feed(title, b), keywords)
  {
    var keep := AcceptedBy(keywords);
    FilterAppend(a, b, keep);
    var fa, fb := Filter(a, keep), Filter(b, keep);
    MapAppend(fa, fb, ItemCandidateOf(Feed(title, a + b)));
    SameTitleSameCandidates(fa, Feed(title, a + b), Feed(title, a));
    SameTitleSameCandidates(fb, Feed(title, a + b), Feed(title, b));
  }

  /** Only the feed's title reaches a candidate. */
  lemma SameTitleSameCandidates(items: seq<FeedItem>, f1: Feed, f2: Feed)
    requires f1.title == f2.title
    ensures Map(items, ItemCandidateOf(f1)) == Map(items, ItemCandidateOf(f2))
  {
  }

  /** One item yields its candidate exactly when it is accepted. */
  lemma FeedCandidatesSingle(title: Option<string>, item: FeedItem, keywords: Option<seq<string>>)
    ensures FeedCandidates(Feed(title, [item]), keywords)
            == if Accepted(item, keywords) then [ItemCandidate(item, Feed(title, [item]))] else []
  {
    assert [item][1..] == [];
    assert Filter([item], AcceptedBy(keywords)) == if Accepted(item, keywords) then [item] else [];
  }

  /** The candidates made from exactly the accepted items. */
  lemma KeptItemsYield(feed: Feed, keywords: Option<seq<string>>, kept: seq<FeedItem>, r: seq<Candidate>)
    requires forall item :: item in kept <==> item in feed.items && Accepted(item, keywords)
    requires |r| == |kept| && forall i :: 0 <= i < |kept| ==> r[i] == ItemCandidate(kept[i], feed)
    ensures forall i :: 0 <= i < |r| ==> IsBlogCandidate(r[i]) && r[i].metadata.feedName == feed.title
    ensures forall item :: item in feed.items && Accepted(item, keywords) ==> ItemCandidate(item, feed) in r
    ensures forall c :: c in r ==>
              exists item :: item in feed.items && Accepted(item, keywords) && c == ItemCandidate(item, feed)
  {
    forall i | 0 <= i < |r|
      ensures IsBlogCandidate(r[i]) && r[i].metadata.feedName == feed.title
    {
      assert kept[i] in kept;
    }
    forall item | item in kept
      ensures ItemCandidate(item, feed) in r
    {
      var i :| 0 <= i < |kept| && kept[i] == item;
      assert r[i] == ItemCandidate(item, feed);
    }
    forall c | c in r
      ensures exists item :: item in feed.items && Accepted(item, keywords) && c == ItemCandidate(item, feed)
    {
      var i :| 0 <= i < |r| && r[i] == c;
      assert kept[i] in kept;
    }
  }

  /** The outer loop: a rejected feed is skipped and the others still count, in
      feed order. */
  function SettledCandidates(outcomes: seq<Settled<Feed>>, keywords: Option<seq<string>>): (r: seq<Candidate>)
    ensures forall i :: 0 <= i < |r| ==> IsBlogCandidate(r[i])
  {
    if |outcomes| == 0 then []
    else
      var first := match outcomes[0]
        case Rejected => []
        case Fulfilled(feed) => FeedCandidates(feed, keywords);
      first + SettledCandidates(outcomes[1..], keywords)
  }

  lemma {:induction false} SettledCandidatesAppend(a: seq<Settled<Feed>>, b: seq<Settled<Feed>>, keywords: Option<seq<string>>)
    ensures SettledCandidates(a + b, keywords) == SettledCandidates(a, keywords) + SettledCandidates(b, keywords)
    decreases |a|
  {
    if |a| == 0 {
      assert a + b == b;
    } else {
      assert (a + b)[1..] == a[1..] + b;
      SettledCandidatesAppend(a[1..], b, keywords);
    }
  }

  /** A feed that fails to load contributes nothing and disturbs nothing. */
  lemma RejectedFeedIsolated(before: seq<Settled<Feed>>, after: seq<Settled<Feed>>, keywords: Option<seq<string>>)
    ensures SettledCandidates(before + [Rejected] + after, keywords)
            == SettledCandidates(before, keywords) + SettledCandidates(after, keywords)
  {
    var failed: seq<Settled<Feed>> := [Rejected];
    RejectedFeedSkipped(keywords);
    SettledCandidatesAppend(before, failed, keywords);
    SettledCandidatesAppend(before + failed, after, keywords);
    assert SettledCandidates(before + failed, keywords) == SettledCandidates(before, keywords);
  }

  lemma RejectedFeedSkipped(keywords: Option<seq<string>>)
    ensures SettledCandidates([Rejected], keywords) == []
  {
    var failed: seq<Settled<Feed>> := [Rejected];
    assert failed[1..] == [];
  }

  /** A loaded feed contributes exactly its own candidates. */
  lemma SettledCandidatesSingle(feed: Feed, keywords: Option<seq<string>>)
    ensures SettledCandidates([Fulfilled(feed)], keywords) == FeedCandidates(feed, keywords)
  {
    var loaded: seq<Settled<Feed>> := [Fulfilled(feed)];
    assert loaded[1..] == [];
  }

  /** A loaded feed contributes its own candidates between those of the feeds
      before and after it. */
  lemma LoadedFeedIsolated(before: seq<Settled<Feed>>, feed: Feed, after: seq<Settled<Feed>>, keywords: Option<seq<string>>)
    ensures SettledCandidates(before + [Fulfilled(feed)] + after, keywords)
            == SettledCandidates(before, keywords) + FeedCandidates(feed, keywords) + SettledCandidates(after, keywords)
  {
    var loaded: seq<Settled<Feed>> := [Fulfilled(feed)];
    SettledCandidatesSingle(feed, keywords);
    SettledCandidatesAppend(before, loaded, keywords);
    SettledCandidatesAppend(before + loaded, after, keywords);
  }

  /** Every candidate comes from a loaded feed's accepted item, and every accepted
      item of a loaded feed yields one. */
  lemma {:induction false} SettledCandidatesExact(outcomes: seq<Settled<Feed>>, keywords: Option<seq<string>>)
    ensures forall c :: c in SettledCandidates(outcomes, keywords) <==>
              exists k, item :: 0 <= k < |outcomes| && outcomes[k].Fulfilled?
                && item in outcomes[k].value.items && Accepted(item, keywords)
                && c == ItemCandidate(item, outcomes[k].value)
    decreases |outcomes|
  {
    if |outcomes| > 0 {
      SettledCandidatesExact(outcomes[1..], keywords);
      forall c
        ensures c in SettledCandidates(outcomes, keywords) <==>
                exists k, item :: 0 <= k < |outcomes| && outcomes[k].Fulfilled?
                  && item in outcomes[k].value.items && Accepted(item, keywords)
                  && c == ItemCandidate(item, outcomes[k].value)
      {
        if exists k, item :: 0 <= k < |outcomes| && outcomes[k].Fulfilled?
             && item in outcomes[k].value.items && Accepted(item, keywords)
             && c == ItemCandidate(item, outcomes[k].value) {
          var k, item :| 0 <= k < |outcomes| && outcomes[k].Fulfilled?
             && item in outcomes[k].value.items && Accepted(item, keywords)
             && c == ItemCandidate(item, outcomes[k].value);
          if k > 0 {
            assert outcomes[1..][k - 1] == outcomes[k];
          }
        }
        if c in SettledCandidates(outcomes[1..], keywords) {
          var k, item :| 0 <= k < |outcomes[1..]| && outcomes[1..][k].Fulfilled?
             && item in outcomes[1..][k].value.items && Accepted(item, keywords)
             && c == ItemCandidate(item, outcomes[1..][k].value);
          assert outcomes[1..][k] == outcomes[k + 1];
        }
      }
    }
  }

  /** `collectBlogs` once every feed has settled: `outcomes[k]` is the outcome of
      fetching `feeds[k]`. */
  function CollectBlogs(config: RadarConfig, outcomes: seq<Settled<Feed>>): (r: seq<Candidate>)
    ensures config.sources.blogs.None? ==> r == []
    ensures forall i :: 0 <= i < |r| ==> IsBlogCandidate(r[i])
  {
    match config.sources.blogs
    case None => []
    case Some(blogs) => SettledCandidates(outcomes, blogs.keywords)
  }

  /** Without keywords, every item of a loaded feed that has a link and a title
      becomes a candidate. */
  lemma CollectBlogsWithoutKeywords(config: RadarConfig, outcomes: seq<Settled<Feed>>, k: nat, item: FeedItem)
    requires config.sources.blogs.Some? && !KeywordsApply(config.sources.blogs.value.keywords)
    requires k < |outcomes| && outcomes[k].Fulfilled? && item in outcomes[k].value.items
    requires Truthy(item.link) && Truthy(item.title)
    ensures ItemCandidate(item, outcomes[k].value) in CollectBlogs(config, outcomes)
  {
    var keywords := config.sources.blogs.value.keywords;
    SettledCandidatesExact(outcomes, keywords);
    assert Accepted(item, keywords);
    var c := ItemCandidate(item, outcomes[k].value);
    assert exists k', item' :: 0 <= k' < |outcomes| && outcomes[k'].Fulfilled?
             && item' in outcomes[k'].value.items && Accepted(item', keywords)
             && c == ItemCandidate(item', outcomes[k'].value);
  }

  /** With a blogs section, keywords or not, a candidate is collected exactly
      when it comes from an item of a loaded feed that has a link and a title and
      passes the section's keyword filter. */
  lemma CollectBlogsExact(config: RadarConfig, outcomes: seq<Settled<Feed>>)
    requires config.sources.blogs.Some?
    ensures var keywords := config.sources.blogs.value.keywords;
            forall c :: c in CollectBlogs(config, outcomes) <==>
              exists k, item :: 0 <= k < |outcomes| && outcomes[k].Fulfilled?
                && item in outcomes[k].value.items && Accepted(item, keywords)
                && c == ItemCandidate(item, outcomes[k].value)
  {
    SettledCandidatesExact(outcomes, config.sources.blogs.value.keywords);
  }

  /** A feed that loads contributes its accepted items in its own place: the
      feeds before it, then its candidates, then the feeds after it. */
  lemma LoadedFeedCollected(config: RadarConfig, before: seq<Settled<Feed>>, feed: Feed, after: seq<Settled<Feed>>)
    requires config.sources.blogs.Some?
    ensures CollectBlogs(config, before + [Fulfilled(feed)] + after)
            == CollectBlogs(config, before) + FeedCandidates(feed, config.sources.blogs.value.keywords)
               + CollectBlogs(config, after)
  {
    LoadedFeedIsolated(before, feed, after, config.sources.blogs.value.keywords);
  }

  /** A feed that fails to load leaves the other feeds' candidates as they were. */
  lemma RejectedFeedCollected(config: RadarConfig, before: seq<Settled<Feed>>, after: seq<Settled<Feed>>)
    requires config.sources.blogs.Some?
    ensures CollectBlogs(config, before + [Rejected] + after) == CollectBlogs(config, before) + CollectBlogs(config, after)
  {
    RejectedFeedIsolated(before, after, config.sources.blogs.value.keywords);
  }
}

=== FILE: brackets.dfy ===
/** The depth scan shared by the extraction of the first JSON object from a model
    reply and of the first JSON array from a link-extraction reply: find the first
    opening character, then the first point at which opening and closing
    characters balance. Every occurrence counts, including those inside JSON
    strings. */
module Brackets {
  import opened Wrappers

  /** How many times `ch` occurs in `t`. */
  function Count(t: string, ch: char): nat
  {
    if |t| == 0 then 0 else Count(t[..|t| - 1], ch) + (if t[|t| - 1] == ch then 1 else 0)
  }

  /** Openings minus closings. */
  function Depth(t: string, open: char, close: char): int
  {
    Count(t, open) - Count(t, close)
  }

  lemma DepthStep(t: string, s: nat, k: nat, open: char, close: char)
    requires s <= k < |t|
    ensures Depth(t[s..k + 1], open, close)
            == Depth(t[s..k], open, close)
               + (if t[k] == open then 1 else 0) - (if t[k] == close then 1 else 0)
  {
    assert t[s..k + 1][..k - s] == t[s..k];
  }

  /** `t.indexOf(ch)`, `None` for -1. */
  function IndexOf(t: string, ch: char): (r: Option<nat>)
    ensures r.None? <==> ch !in t
    ensures r.Some? ==> r.value < |t| && t[r.value] == ch && ch !in t[..r.value]
  {
    if |t| == 0 then None
    else if t[0] == ch then Some(0)
    else
      match IndexOf(t[1..], ch)
      case None => None
      case Some(i) =>
        assert t[..i + 1] == [t[0]] + t[1..][..i];
        Some(i + 1)
  }

  /** The loop `for (i = start; i < length; i++)` that tracks `depth` from the
      first opening character `s`; returns the index at which depth returns to 0. */
  function ScanClose(t: string, s: nat, i: nat, depth: int, open: char, close: char): (r: Option<nat>)
    requires open != close
    requires s <= i <= |t|
    requires depth == Depth(t[s..i], open, close)
    requires (i == s && s < |t| && t[s] == open && depth == 0) || (i > s && depth > 0)
    ensures r.Some? ==> i < r.value < |t| + 1 && Depth(t[s..r.value], open, close) == 0
    ensures r.Some? ==> forall k :: i < k < r.value ==> Depth(t[s..k], open, close) > 0
    ensures r.None? ==> forall k :: i < k <= |t| ==> Depth(t[s..k], open, close) > 0
    decreases |t| - i
  {
    if i >= |t| then None
    else
      var d := depth + (if t[i] == open then 1 else 0) - (if t[i] == close then 1 else 0);
      DepthStep(t, s, i, open, close);
      if d == 0 then Some(i + 1)
      else ScanClose(t, s, i + 1, d, open, close)
  }

  /** The outcome of the scan: no opening character, an opening character whose
      depth never returns to 0, or the balanced slice `t[start..end]`. */
  datatype Scan = NoOpen | Unbalanced | Balanced(start: nat, end: nat)

  function FirstBalanced(t: string, open: char, close: char): (r: Scan)
    requires open != close
    ensures r.NoOpen? <==> open !in t
    ensures !r.NoOpen? ==> IndexOf(t, open).Some?
    ensures r.Unbalanced? ==>
              var s := IndexOf(t, open).value;
              forall k :: s < k <= |t| ==> Depth(t[s..k], open, close) > 0
    ensures r.Balanced? ==>
              && r.start == IndexOf(t, open).value
              && r.start < r.end <= |t|
              && Depth(t[r.start..r.end], open, close) == 0
              && forall k :: r.start < k < r.end ==> Depth(t[r.start..k], open, close) > 0
  {
    match IndexOf(t, open)
    case None => NoOpen
    case Some(s) =>
      assert t[s..s] == [];
      match ScanClose(t, s, s, 0, open, close)
      case None => Unbalanced
      case Some(e) => Balanced(s, e)
  }

  /** The balanced slice is determined by the first opening character and the
      first point after it where the depth returns to 0. */
  lemma FirstBalancedAt(t: string, open: char, close: char, s: nat, e: nat)
    requires open != close
    requires IndexOf(t, open) == Some(s) && s < e <= |t|
    requires Depth(t[s..e], open, close) == 0
    requires forall k :: s < k < e ==> Depth(t[s..k], open, close) > 0
    ensures FirstBalanced(t, open, close) == Balanced(s, e)
  {
  }

  /** A balanced slice opens with `open`, closes with `close`, and holds as many
      of one as of the other. */
  lemma BalancedShape(t: string, open: char, close: char)
    requires open != close
    requires FirstBalanced(t, open, close).Balanced?
    ensures var b := FirstBalanced(t, open, close);
            var piece := t[b.start..b.end];
            && |piece| >= 2
            && piece[0] == open
            && piece[|piece| - 1] == close
            && Count(piece, open) == Count(piece, close)
  {
    var b := FirstBalanced(t, open, close);
    var piece := t[b.start..b.end];
    assert t[b.start] == open;
    assert piece[0] == open;
    DepthStep(t, b.start, b.end - 1, open, close);
    if b.end - 1 > b.start {
      assert Depth(t[b.start..b.end - 1], open, close) > 0;
    }
  }
}

=== FILE: classifier.dfy ===
/** Relevance classification: prompt construction from untrusted candidate
    fields, defensive parsing of the model's reply, and the capped,
    per-item-isolated loop that keeps results at or above the threshold. The
    model is represented by the sequence of replies its calls return. */
module Classifier {
  import opened Wrappers
  import opened Text
  import opened Seqs
  import opened External
  import opened Types
  import opened Configuration
  import opened Brackets

  // ---------------------------------------------------------------- sanitize

  /** The control characters `sanitize` removes: 0x00-0x08, 0x0B, 0x0C, 0x0E-0x1F
      (tab, line feed and carriage return stay). */
  predicate IsStrippedControl(ch: char)
  {
    var c := ch as int;
    c <= 0x08 || c == 0x0B || c == 0x0C || (0x0E <= c <= 0x1F)
  }

  predicate NoControl(s: string)
  {
    forall i :: 0 <= i < |s| ==> !IsStrippedControl(s[i])
  }

  /** `sanitize`: truncate to `maxLength`, then strip control characters. */
  function Sanitize(text: string, maxLength: nat): (r: string)
    ensures |r| <= maxLength
    ensures NoControl(r)
  {
    var r := Filter(Take(text, maxLength), (ch: char) => !IsStrippedControl(ch));
    assert forall i :: 0 <= i < |r| ==> r[i] in r;
    r
  }

  /** Sanitizing keeps, in order, exactly the allowed characters of the
      truncated text. */
  lemma SanitizeKeeps(text: string, maxLength: nat)
    ensures IsSubseq(Sanitize(text, maxLength), Take(text, maxLength))
    ensures forall ch :: ch in Sanitize(text, maxLength) <==> ch in Take(text, maxLength) && !IsStrippedControl(ch)
    ensures NoControl(text) && |text| <= maxLength ==> Sanitize(text, maxLength) == text
    ensures forall ch :: multiset(Sanitize(text, maxLength))[ch] ==
              if IsStrippedControl(ch) then 0 else multiset(Take(text, maxLength))[ch]
  {
    assert NoControl(text) ==> forall ch :: ch in text ==> !IsStrippedControl(ch);
  }

  // ---------------------------------------------------------------- prompt

  datatype Tag = TitleTag | UrlTag | SourceTag | DescriptionTag | StarsTag | LanguageTag | AuthorsTag | TopicsTag

  function TagName(t: Tag): string
  {
    match t
    case TitleTag => "candidate_title"
    case UrlTag => "candidate_url"
    case SourceTag => "candidate_source"
    case DescriptionTag => "candidate_description"
    case StarsTag => "candidate_stars"
    case LanguageTag => "candidate_language"
    case AuthorsTag => "candidate_authors"
    case TopicsTag => "candidate_topics"
  }

  /** One candidate field of the prompt, between `<tag>` and `</tag>`. */
  datatype Tagged = Tagged(tag: Tag, content: string)

  function RenderTagged(f: Tagged): string
  {
    "<" + TagName(f.tag) + ">" + f.content + "</" + TagName(f.tag) + ">"
  }

  /** The length cap each sanitized field is held to; the source tag and the star
      count are not sanitized. */
  function TagCap(t: Tag): Option<nat>
  {
    match t
    case TitleTag => Some(200)
    case UrlTag => Some(500)
    case DescriptionTag => Some(500)
    case LanguageTag => Some(50)
    case AuthorsTag => Some(200)
    case TopicsTag => Some(200)
    case _ => None
  }

  /** An untrusted field that carries no control character and respects its cap. */
  predicate Contained(f: Tagged)
  {
    NoControl(f.content) && (TagCap(f.tag).Some? ==> |f.content| <= TagCap(f.tag).value)
  }

  predicate AllContained(fs: seq<Tagged>)
  {
    forall i :: 0 <= i < |fs| ==> Contained(fs[i])
  }

  lemma AllContainedAppend(a: seq<Tagged>, b: seq<Tagged>)
    requires AllContained(a) && AllContained(b)
    ensures AllContained(a + b)
  {
    forall i | 0 <= i < |a + b|
      ensures Contained((a + b)[i])
    {
      if i >= |a| {
        assert (a + b)[i] == b[i - |a|];
      }
    }
  }

  function TagsOf(fs: seq<Tagged>): (r: seq<Tag>)
    ensures |r| == |fs| && forall i :: 0 <= i < |fs| ==> r[i] == fs[i].tag
  {
    seq(|fs|, i requires 0 <= i < |fs| => fs[i].tag)
  }

  lemma TagsOfAppend(a: seq<Tagged>, b: seq<Tagged>)
    ensures TagsOf(a + b) == TagsOf(a) + TagsOf(b)
  {
  }

  lemma IntTextHasNoControl(i: int)
    ensures NoControl(IntToString(i))
  {
    var r := IntToString(i);
    if i < 0 {
      forall k | 1 <= k < |r|
        ensures !IsStrippedControl(r[k])
      {
        assert r[k] == r[1..][k - 1];
      }
    }
  }

  /** A field pushed only when `present`. */
  function Optional(present: bool, tag: Tag, content: string): seq<Tagged>
  {
    if present then [Tagged(tag, content)] else []
  }

  /** `metadata.language` is truthy: present and non-empty. */
  predicate HasLanguage(m: Metadata) { m.language.Some? && m.language.value != "" }

  /** `metadata.authors?.length` is truthy. */
  predicate HasAuthors(m: Metadata) { m.authors.Some? && |m.authors.value| > 0 }

  /** `metadata.topics?.length` is truthy. */
  predicate HasTopics(m: Metadata) { m.topics.Some? && |m.topics.value| > 0 }

  function FixedFields(c: Candidate): seq<Tagged>
  {
    FixedOf(Sanitize(c.title, 200), Sanitize(c.url, 500), SourceName(c.source), Sanitize(c.description, 500))
  }

  /** The four fields every prompt carries. */
  function FixedOf(title: string, url: string, source: string, description: string): seq<Tagged>
  {
    [ Tagged(TitleTag, title), Tagged(UrlTag, url), Tagged(SourceTag, source), Tagged(DescriptionTag, description) ]
  }

  function StarsField(m: Metadata): seq<Tagged>
  {
    Optional(m.stars.Some?, StarsTag, IntToString(m.stars.GetOr(0)))
  }

  function LanguageField(m: Metadata): seq<Tagged>
  {
    Optional(HasLanguage(m), LanguageTag, Sanitize(m.language.GetOr(""), 50))
  }

  function AuthorsField(m: Metadata): seq<Tagged>
  {
    Optional(HasAuthors(m), AuthorsTag, Sanitize(Join(m.authors.GetOr([]), ", "), 200))
  }

  function TopicsField(m: Metadata): seq<Tagged>
  {
    Optional(HasTopics(m), TopicsTag, Sanitize(Join(m.topics.GetOr([]), ", "), 200))
  }

  /** The candidate fields of `buildUserPrompt`, in order. */
  function PromptFields(c: Candidate): seq<Tagged>
  {
    FixedFields(c) + StarsField(c.metadata) + LanguageField(c.metadata)
    + AuthorsField(c.metadata) + TopicsField(c.metadata)
  }

  lemma FixedFieldsTags(c: Candidate)
    ensures TagsOf(FixedFields(c)) == [TitleTag, UrlTag, SourceTag, DescriptionTag]
  {
    FixedOfTags(Sanitize(c.title, 200), Sanitize(c.url, 500), SourceName(c.source), Sanitize(c.description, 500));
  }

  lemma FixedOfTags(title: string, url: string, source: string, description: string)
    ensures TagsOf(FixedOf(title, url, source, description)) == [TitleTag, UrlTag, SourceTag, DescriptionTag]
  {
  }

  lemma OptionalTags(present: bool, tag: Tag, content: string)
    ensures TagsOf(Optional(present, tag, content)) == if present then [tag] else []
  {
  }

  /** The prompt always carries title, url, source and description, then exactly
      the metadata fields that are present, in a fixed order. */
  lemma PromptFieldsTags(c: Candidate)
    ensures TagsOf(PromptFields(c))
            == [TitleTag, UrlTag, SourceTag, DescriptionTag]
               + (if c.metadata.stars.Some? then [StarsTag] else [])
               + (if HasLanguage(c.metadata) then [LanguageTag] else [])
               + (if HasAuthors(c.metadata) then [AuthorsTag] else [])
               + (if HasTopics(c.metadata) then [TopicsTag] else [])
  {
    var m := c.metadata;
    var head, stars, language, authors, topics := FixedFields(c), StarsField(m), LanguageField(m), AuthorsField(m), TopicsField(m);
    FixedFieldsTags(c);
    OptionalTags(m.stars.Some?, StarsTag, IntToString(m.stars.GetOr(0)));
    OptionalTags(HasLanguage(m), LanguageTag, Sanitize(m.language.GetOr(""), 50));
    OptionalTags(HasAuthors(m), AuthorsTag, Sanitize(Join(m.authors.GetOr([]), ", "), 200));
    OptionalTags(HasTopics(m), TopicsTag, Sanitize(Join(m.topics.GetOr([]), ", "), 200));
    TagsOfAppend(head, stars);
    TagsOfAppend(head + stars, language);
    TagsOfAppend(head + stars + language, authors);
    TagsOfAppend(head + stars + language + authors, topics);
  }

  lemma SourceNameNoControl(source: Source)
    ensures NoControl(SourceName(source))
  {
    match source
    case GitHub =>
    case Arxiv =>
    case Blog =>
    case WebPage =>
  }

  lemma FixedFieldsContained(c: Candidate)
    ensures AllContained(FixedFields(c))
  {
    SourceNameNoControl(c.source);
    FixedOfContained(Sanitize(c.title, 200), Sanitize(c.url, 500), SourceName(c.source), Sanitize(c.description, 500));
  }

  lemma FixedOfContained(title: string, url: string, source: string, description: string)
    requires NoControl(title) && |title| <= 200
    requires NoControl(url) && |url| <= 500
    requires NoControl(source)
    requires NoControl(description) && |description| <= 500
    ensures AllContained(FixedOf(title, url, source, description))
  {
    var fs := FixedOf(title, url, source, description);
    forall i | 0 <= i < |fs|
      ensures Contained(fs[i])
    {
      if i == 0 {
      } else if i == 1 {
      } else if i == 2 {
      } else {
        assert i == 3;
      }
    }
  }

  lemma OptionalContained(present: bool, tag: Tag, content: string)
    requires Contained(Tagged(tag, content))
    ensures AllContained(Optional(present, tag, content))
  {
  }

  lemma MetadataFieldsContained(m: Metadata)
    ensures AllContained(StarsField(m)) && AllContained(LanguageField(m))
    ensures AllContained(AuthorsField(m)) && AllContained(TopicsField(m))
  {
    assert AllContained(StarsField(m)) by {
      IntTextHasNoControl(m.stars.GetOr(0));
      OptionalContained(m.stars.Some?, StarsTag, IntToString(m.stars.GetOr(0)));
    }
    assert AllContained(LanguageField(m)) by {
      SanitizedContained(HasLanguage(m), LanguageTag, m.language.GetOr(""));
    }
    assert AllContained(AuthorsField(m)) by {
      SanitizedContained(HasAuthors(m), AuthorsTag, Join(m.authors.GetOr([]), ", "));
    }
    assert AllContained(TopicsField(m)) by {
      SanitizedContained(HasTopics(m), TopicsTag, Join(m.topics.GetOr([]), ", "));
    }
  }

  /** An optional field sanitized to its tag's cap is contained. */
  lemma SanitizedContained(present: bool, tag: Tag, text: string)
    requires TagCap(tag).Some?
    ensures AllContained(Optional(present, tag, Sanitize(text, TagCap(tag).value)))
  {
    OptionalContained(present, tag, Sanitize(text, TagCap(tag).value));
  }

  /** Every untrusted field of the prompt is free of control characters and
      within its cap. */
  lemma PromptFieldsContained(c: Candidate)
    ensures AllContained(PromptFields(c))
  {
    var m := c.metadata;
    FixedFieldsContained(c);
    MetadataFieldsContained(m);
    AllContainedAppend(FixedFields(c), StarsField(m));
    AllContainedAppend(FixedFields(c) + StarsField(m), LanguageField(m));
    AllContainedAppend(FixedFields(c) + StarsField(m) + LanguageField(m), AuthorsField(m));
    AllContainedAppend(FixedFields(c) + StarsField(m) + LanguageField(m) + AuthorsField(m), TopicsField(m));
  }

  const Instruction := "Rate relevance from 0-100 and suggest a category and tags."
  const Heading := "## List Description"

  /** The prompt text around a list of tagged fields, one line each. */
  function PromptText(description: string, fields: seq<Tagged>): (p: string)
    ensures StartsWith(p, Heading)
    ensures Occurs(p, description)
    ensures CarriesEach(p, fields)
    ensures EndsWith(p, Instruction)
  {
    PromptLinesShape(description, fields);
    Join(PromptLines(description, fields), "\n")
  }

  /** Every one of `fields` appears, rendered, somewhere in `p`. */
  ghost predicate CarriesEach(p: string, fields: seq<Tagged>)
  {
    forall f :: f in fields ==> Occurs(p, RenderTagged(f))
  }

  function PromptLines(description: string, fields: seq<Tagged>): seq<string>
  {
    [Heading, description, "", "## Candidate"] + Map(fields, RenderTagged) + ["", Instruction]
  }

  /** `buildUserPrompt`: the list description, the tagged candidate fields and the
      closing instruction, one per line. */
  function BuildUserPrompt(c: Candidate, config: RadarConfig): (p: string)
    ensures StartsWith(p, Heading)
    ensures Occurs(p, config.description)
    ensures CarriesEach(p, PromptFields(c))
    ensures EndsWith(p, Instruction)
  {
    var fields := PromptFields(c);
    PromptText(config.description, fields)
  }

  lemma PromptLinesShape(description: string, fields: seq<Tagged>)
    ensures var p := Join(PromptLines(description, fields), "\n");
            && StartsWith(p, Heading)
            && Occurs(p, description)
            && (forall f :: f in fields ==> Occurs(p, RenderTagged(f)))
            && EndsWith(p, Instruction)
  {
    var head := [Heading, description, "", "## Candidate"];
    var tail := ["", Instruction];
    var parts := PromptLines(description, fields);
    assert parts[0] == Heading && parts[1] == description;
    assert parts[|parts| - 1] == Instruction;
    JoinStartsWithFirst(parts, "\n");
    JoinContainsEachPart(parts, "\n", 1);
    JoinEndsWithLast(parts, "\n");
    forall f | f in fields
      ensures Occurs(Join(parts, "\n"), RenderTagged(f))
    {
      JoinContainsMapped(head, fields, tail, f);
    }
  }

  /** A rendered field between fixed lines occurs in the joined prompt. */
  lemma JoinContainsMapped(head: seq<string>, fields: seq<Tagged>, tail: seq<string>, f: Tagged)
    requires f in fields
    ensures Occurs(Join(head + Map(fields, RenderTagged) + tail, "\n"), RenderTagged(f))
  {
    var parts := head + Map(fields, RenderTagged) + tail;
    var i :| 0 <= i < |fields| && fields[i] == f;
    assert parts[|head| + i] == RenderTagged(f);
    JoinContainsEachPart(parts, "\n", |head| + i);
  }

  // ---------------------------------------------------------------- reply parsing

  datatype ClassifyError = NoJsonFound | NoValidJson | MalformedJson | NullResponse | InvalidScore

  datatype ClassifyResult = ClassifyResult(
    relevanceScore: int,
    suggestedCategory: string,
    suggestedTags: seq<string>,
    reasoning: string)

  /** `extractFirstJson`: the slice from the first `{` to the first point where
      the brace depth returns to 0. */
  function ExtractFirstJson(text: string): (r: Result<string, ClassifyError>)
    ensures r.Ok? || r == Err(NoJsonFound) || r == Err(NoValidJson)
    ensures r == Err(NoJsonFound) <==> '{' !in text
    ensures r == Err(NoValidJson) <==>
              '{' in text
              && var s := IndexOf(text, '{').value;
                 forall k :: s < k <= |text| ==> Depth(text[s..k], '{', '}') > 0
    ensures r.Ok? ==>
              var s := IndexOf(text, '{').value;
              && s + |r.value| <= |text| && r.value == text[s..s + |r.value|]
              && |r.value| >= 2 && r.value[0] == '{' && r.value[|r.value| - 1] == '}'
              && Count(r.value, '{') == Count(r.value, '}')
              && forall k :: s < k < s + |r.value| ==> Depth(text[s..k], '{', '}') > 0
  {
    match FirstBalanced(text, '{', '}')
    case NoOpen => Err(NoJsonFound)
    case Unbalanced => Err(NoValidJson)
    case Balanced(s, e) =>
      BalancedShape(text, '{', '}');
      Ok(text[s..e])
  }

  /** A reply opening with `{` yields its shortest prefix where the braces balance. */
  lemma ExtractStopsAtFirstBalance(t: string, e: nat)
    requires 0 < e <= |t| && t[0] == '{'
    requires Depth(t[0..e], '{', '}') == 0
    requires forall k :: 0 < k < e ==> Depth(t[0..k], '{', '}') > 0
    ensures ExtractFirstJson(t) == Ok(t[..e])
  {
    assert IndexOf(t, '{') == Some(0);
  }

  /** Wherever the first `{` stands, the slice ends at the first point after it
      where the braces balance, and nothing else is returned. */
  lemma ExtractFindsFirstBalance(t: string, s: nat, e: nat)
    requires IndexOf(t, '{') == Some(s)
    requires s < e <= |t|
    requires Depth(t[s..e], '{', '}') == 0
    requires forall k :: s < k < e ==> Depth(t[s..k], '{', '}') > 0
    ensures ExtractFirstJson(t) == Ok(t[s..e])
  {
    FirstBalancedAt(t, '{', '}', s, e);
  }

  /** Braces are counted inside JSON strings too: a `}` in a string value ends
      the slice early, and the parse of the cut-off text then fails. */
  lemma BraceInStringEndsSlice(t: string)
    requires t == "{\"a\":\"}\"}"
    ensures ExtractFirstJson(t) == Ok("{\"a\":\"}")
  {
    BraceInStringDepths(t);
    assert forall k :: 0 < k < 7 ==> Depth(t[0..k], '{', '}') > 0 by {
      forall k | 0 < k < 7
        ensures Depth(t[0..k], '{', '}') > 0
      {
        assert k in {1, 2, 3, 4, 5, 6};
      }
    }
    ExtractStopsAtFirstBalance(t, 7);
    assert t[..7] == "{\"a\":\"}";
  }

  /** The brace depth of each prefix of `{"a":"}"}` up to the string's `}`. */
  lemma BraceInStringDepths(t: string)
    requires t == "{\"a\":\"}\"}"
    ensures Depth(t[0..1], '{', '}') == 1 && Depth(t[0..2], '{', '}') == 1
    ensures Depth(t[0..3], '{', '}') == 1 && Depth(t[0..4], '{', '}') == 1
    ensures Depth(t[0..5], '{', '}') == 1 && Depth(t[0..6], '{', '}') == 1
    ensures Depth(t[0..7], '{', '}') == 0
  {
    assert t[0..0] == [];
    DepthStep(t, 0, 0, '{', '}');
    DepthStep(t, 0, 1, '{', '}');
    DepthStep(t, 0, 2, '{', '}');
    DepthStep(t, 0, 3, '{', '}');
    DepthStep(t, 0, 4, '{', '}');
    DepthStep(t, 0, 5, '{', '}');
    DepthStep(t, 0, 6, '{', '}');
  }

  /** `Math.round` on the scores that reach it: the nearest integer, halves up. */
  function Round(x: real): (n: int)
    ensures x - 0.5 < n as real <= x + 0.5
  {
    (x + 0.5).Floor
  }

  /** A `relevanceScore` field that is a number in [0, 100]. */
  predicate ScoreInRange(value: Json)
  {
    var f := Field(value, "relevanceScore");
    f.Some? && f.value.JNum? && 0.0 <= f.value.value <= 100.0
  }

  function CategoryOf(value: Json): string
  {
    match Field(value, "suggestedCategory")
    case None => "Uncategorized"
    case Some(JNull) => "Uncategorized"
    case Some(v) => Stringify(v)
  }

  function SuggestedTagsOf(value: Json): seq<string>
  {
    match Field(value, "suggestedTags")
    case Some(JArr(items)) => Map(items, Stringify)
    case _ => []
  }

  function ReasoningOf(value: Json): string
  {
    match Field(value, "reasoning")
    case None => ""
    case Some(JNull) => ""
    case Some(v) => Stringify(v)
  }

  /** `parseClassifyResponse`. */
  function ParseClassifyResponse(text: string, parse: JsonParser): (r: Result<ClassifyResult, ClassifyError>)
    ensures r.Ok? <==>
              && ExtractFirstJson(text).Ok?
              && parse(ExtractFirstJson(text).value).Some?
              && ScoreInRange(parse(ExtractFirstJson(text).value).value)
    ensures r.Ok? ==> 0 <= r.value.relevanceScore <= 100
    ensures r.Ok? ==>
              var v := parse(ExtractFirstJson(text).value).value;
              var score := Field(v, "relevanceScore").value.value;
              && score - 0.5 < r.value.relevanceScore as real <= score + 0.5
              && (Field(v, "suggestedCategory") in {None, Some(JNull)} ==> r.value.suggestedCategory == "Uncategorized")
              && (Field(v, "suggestedCategory") !in {None, Some(JNull)} ==>
                    r.value.suggestedCategory == Stringify(Field(v, "suggestedCategory").value))
              && (!(Field(v, "suggestedTags").Some? && Field(v, "suggestedTags").value.JArr?) ==> r.value.suggestedTags == [])
              && (Field(v, "suggestedTags").Some? && Field(v, "suggestedTags").value.JArr? ==>
                    r.value.suggestedTags == Map(Field(v, "suggestedTags").value.items, Stringify))
              && (Field(v, "reasoning") in {None, Some(JNull)} ==> r.value.reasoning == "")
              && (Field(v, "reasoning") !in {None, Some(JNull)} ==>
                    r.value.reasoning == Stringify(Field(v, "reasoning").value))
    ensures '{' !in text ==> r == Err(NoJsonFound)
  {
    match ExtractFirstJson(text)
    case Err(e) => Err(e)
    case Ok(json) =>
      match parse(json)
      case None => Err(MalformedJson)
      case Some(value) =>
        if value.JNull? then Err(NullResponse)
        else if !ScoreInRange(value) then Err(InvalidScore)
        else
          var score := Field(value, "relevanceScore").value.value;
          Ok(ClassifyResult(Round(score), CategoryOf(value), SuggestedTagsOf(value), ReasoningOf(value)))
  }

  // ---------------------------------------------------------------- the loop

  /** The reply text the classifier reads: a non-text first block reads as "". */
  function ReplyText(reply: LlmReply): Option<string>
  {
    match reply
    case TextReply(text) => Some(text)
    case NonTextReply => Some("")
    case CallFailed => None
  }

  /** The outcome of classifying one candidate: kept with its classification, or
      skipped (failed call, unusable reply, or score below the threshold). */
  function Verdict(c: Candidate, reply: LlmReply, threshold: real, parse: JsonParser): (r: Option<ClassifiedCandidate>)
    ensures r.Some? <==>
              && ReplyText(reply).Some?
              && ParseClassifyResponse(ReplyText(reply).value, parse).Ok?
              && ParseClassifyResponse(ReplyText(reply).value, parse).value.relevanceScore as real >= threshold
    ensures r.Some? ==>
              var res := ParseClassifyResponse(ReplyText(reply).value, parse).value;
              r.value == ClassifiedCandidate(c, res.relevanceScore, res.suggestedCategory, res.suggestedTags, res.reasoning)
    ensures r.Some? ==> r.value.relevanceScore as real >= threshold && 0 <= r.value.relevanceScore <= 100
  {
    match ReplyText(reply)
    case None => None
    case Some(text) =>
      match ParseClassifyResponse(text, parse)
      case Err(_) => None
      case Ok(res) =>
        if res.relevanceScore as real >= threshold then
          Some(ClassifiedCandidate(c, res.relevanceScore, res.suggestedCategory, res.suggestedTags, res.reasoning))
        else None
  }

  /** The verdict on each candidate, call `k` deciding candidate `k`. */
  function Verdicts(cs: seq<Candidate>, replies: seq<LlmReply>, threshold: real, parse: JsonParser)
    : (r: seq<Option<ClassifiedCandidate>>)
    ensures |r| == |cs|
    ensures forall k :: 0 <= k < |cs| ==> r[k] == Verdict(cs[k], ReplyAt(replies, k), threshold, parse)
  {
    seq(|cs|, k requires 0 <= k < |cs| => Verdict(cs[k], ReplyAt(replies, k), threshold, parse))
  }

  /** The sequential loop: one call per candidate, each outcome caught on its
      own, the kept ones in candidate order. */
  function ClassifyEach(cs: seq<Candidate>, replies: seq<LlmReply>, threshold: real, parse: JsonParser)
    : (r: seq<ClassifiedCandidate>)
    ensures |r| <= |cs|
    ensures forall i :: 0 <= i < |r| ==> r[i].relevanceScore as real >= threshold && 0 <= r[i].relevanceScore <= 100
    ensures forall i :: 0 <= i < |r| ==> r[i].candidate in cs
  {
    var vs := Verdicts(cs, replies, threshold, parse);
    var r := Somes(vs);
    assert forall i :: 0 <= i < |r| ==> Some(r[i]) in vs by {
      forall i | 0 <= i < |r|
        ensures Some(r[i]) in vs
      {
        assert r[i] in r;
      }
    }
    r
  }

  /** The kept results are candidates of the input, in input order. */
  lemma ClassifyEachOrder(cs: seq<Candidate>, replies: seq<LlmReply>, threshold: real, parse: JsonParser)
    ensures IsSubseq(Map(ClassifyEach(cs, replies, threshold, parse), CandidateOf), cs)
  {
    SomesSubseq(cs, Verdicts(cs, replies, threshold, parse), CandidateOf);
  }

  /** Call `k` decides candidate `k`: the results are exactly the positive verdicts. */
  lemma ClassifyEachExact(cs: seq<Candidate>, replies: seq<LlmReply>, threshold: real, parse: JsonParser)
    ensures forall x :: x in ClassifyEach(cs, replies, threshold, parse) <==>
              exists k :: 0 <= k < |cs| && Verdict(cs[k], ReplyAt(replies, k), threshold, parse) == Some(x)
  {
    var vs := Verdicts(cs, replies, threshold, parse);
    assert forall x :: Some(x) in vs <==> exists k :: 0 <= k < |cs| && vs[k] == Some(x);
  }

  /** The same for the first `n` candidates, indexed into the whole list. */
  lemma ClassifyEachPrefix(cs: seq<Candidate>, n: nat, replies: seq<LlmReply>, threshold: real, parse: JsonParser)
    requires n <= |cs|
    ensures forall x :: x in ClassifyEach(cs[..n], replies, threshold, parse) <==>
              exists k :: 0 <= k < n && Verdict(cs[k], ReplyAt(replies, k), threshold, parse) == Some(x)
  {
    ClassifyEachExact(cs[..n], replies, threshold, parse);
    assert forall k :: 0 <= k < n ==> cs[..n][k] == cs[k];
  }

  /** The loop over a concatenation is the concatenation of the loops: no
      candidate's outcome depends on another's. */
  lemma ClassifyEachAppend(a: seq<Candidate>, b: seq<Candidate>,
                           ra: seq<LlmReply>, rb: seq<LlmReply>,
                           threshold: real, parse: JsonParser)
    requires |ra| == |a|
    ensures ClassifyEach(a + b, ra + rb, threshold, parse)
            == ClassifyEach(a, ra, threshold, parse) + ClassifyEach(b, rb, threshold, parse)
  {
    VerdictsAppend(a, b, ra, rb, threshold, parse);
    SomesAppend(Verdicts(a, ra, threshold, parse), Verdicts(b, rb, threshold, parse));
  }

  lemma VerdictsAppend(a: seq<Candidate>, b: seq<Candidate>,
                       ra: seq<LlmReply>, rb: seq<LlmReply>,
                       threshold: real, parse: JsonParser)
    requires |ra| == |a|
    ensures Verdicts(a + b, ra + rb, threshold, parse)
            == Verdicts(a, ra, threshold, parse) + Verdicts(b, rb, threshold, parse)
  {
    forall k | |a| <= k < |a| + |b|
      ensures ReplyAt(ra + rb, k) == ReplyAt(rb, k - |a|)
    {
    }
  }

  /** A failing call drops only its own candidate. */
  lemma FailedCallIsolated(before: seq<Candidate>, c: Candidate, after: seq<Candidate>,
                           rBefore: seq<LlmReply>, rAfter: seq<LlmReply>,
                           threshold: real, parse: JsonParser)
    requires |rBefore| == |before|
    ensures ClassifyEach(before + [c] + after, rBefore + [CallFailed] + rAfter, threshold, parse)
            == ClassifyEach(before, rBefore, threshold, parse) + ClassifyEach(after, rAfter, threshold, parse)
  {
    var one, failed := [c], [CallFailed];
    FailedCallSkipped(c, threshold, parse);
    ClassifyEachAppend(before, one, rBefore, failed, threshold, parse);
    ClassifyEachAppend(before + one, after, rBefore + failed, rAfter, threshold, parse);
    assert ClassifyEach(before + one, rBefore + failed, threshold, parse) == ClassifyEach(before, rBefore, threshold, parse);
  }

  /** One call keeps its result exactly once when the verdict is positive, and
      nothing otherwise; with `ClassifyEachAppend` this fixes every multiplicity. */
  lemma ClassifyEachSingle(c: Candidate, reply: LlmReply, threshold: real, parse: JsonParser)
    ensures ClassifyEach([c], [reply], threshold, parse)
            == match Verdict(c, reply, threshold, parse) case Some(x) => [x] case None => []
  {
    var one: seq<Candidate> := [c];
    assert Verdicts(one, [reply], threshold, parse) == [Verdict(c, reply, threshold, parse)];
    assert [Verdict(c, reply, threshold, parse)][1..] == [];
  }

  lemma FailedCallSkipped(c: Candidate, threshold: real, parse: JsonParser)
    ensures ClassifyEach([c], [CallFailed], threshold, parse) == []
  {
    var one: seq<Candidate> := [c];
    assert one[1..] == [];
  }

  /** The threshold comparison is `>=`: a score equal to the threshold is kept,
      one a unit below is not. */
  lemma ThresholdBoundary(c: Candidate, text: string, parse: JsonParser)
    requires ParseClassifyResponse(text, parse).Ok?
    ensures var score := ParseClassifyResponse(text, parse).value.relevanceScore as real;
            && Verdict(c, TextReply(text), score, parse).Some?
            && Verdict(c, TextReply(text), score + 1.0, parse).None?
  {
  }

  /** What one run of `classifyCandidates` did: the kept results and the prompt of
      every model call made, in call order. */
  datatype ClassifyRun = ClassifyRun(classified: seq<ClassifiedCandidate>, prompts: seq<string>)

  /** `classifyCandidates`: at most `max_issues_per_run` calls, on the first
      candidates; `replies[k]` is what call `k` returns. */
  function ClassifyCandidates(cs: seq<Candidate>, config: RadarConfig, replies: seq<LlmReply>, parse: JsonParser)
    : (r: ClassifyRun)
    ensures |cs| == 0 ==> r == ClassifyRun([], [])
    ensures |r.prompts| == if |cs| <= config.classification.maxIssuesPerRun then |cs| else config.classification.maxIssuesPerRun
    ensures forall k :: 0 <= k < |r.prompts| ==> r.prompts[k] == BuildUserPrompt(cs[k], config)
    ensures forall i :: 0 <= i < |r.classified| ==> r.classified[i].relevanceScore as real >= config.classification.threshold
    ensures |r.classified| <= |r.prompts|
    ensures forall i :: 0 <= i < |r.classified| ==> r.classified[i].candidate in cs
    ensures r.classified == ClassifyEach(cs[..|r.prompts|], replies, config.classification.threshold, parse)
  {
    if |cs| == 0 then ClassifyRun([], [])
    else
      var toClassify := Take(cs, config.classification.maxIssuesPerRun);
      ClassifyRun(
        ClassifyEach(toClassify, replies, config.classification.threshold, parse),
        Map(toClassify, c => BuildUserPrompt(c, config)))
  }

  /** The kept results of a run are exactly the positive verdicts among the
      candidates that got a call, in candidate order. */
  lemma ClassifyCandidatesExact(cs: seq<Candidate>, config: RadarConfig, replies: seq<LlmReply>, parse: JsonParser)
    ensures var r := ClassifyCandidates(cs, config, replies, parse);
            && IsSubseq(Map(r.classified, CandidateOf), cs[..|r.prompts|])
            && forall x :: x in r.classified <==>
                 exists k :: 0 <= k < |r.prompts|
                   && Verdict(cs[k], ReplyAt(replies, k), config.classification.threshold, parse) == Some(x)
  {
    if |cs| > 0 {
      var r := ClassifyCandidates(cs, config, replies, parse);
      var toClassify := Take(cs, config.classification.maxIssuesPerRun);
      var threshold := config.classification.threshold;
      assert r.classified == ClassifyEach(toClassify, replies, threshold, parse);
      assert toClassify == cs[..|r.prompts|];
      ClassifyEachOrder(toClassify, replies, threshold, parse);
      ClassifyEachPrefix(cs, |r.prompts|, replies, threshold, parse);
    } else {
      assert Map([], CandidateOf) == [];
    }
  }
}

=== FILE: configuration.dfy ===
/** The run configuration: the validated shape the stages read, the document as it
    arrives before validation, and the schema's checks and defaults between them. */
module Configuration {
  import opened Wrappers

  // ---------------------------------------------------------------- validated shape

  datatype GithubSource = GithubSource(
    topics: seq<string>,
    languages: Option<seq<string>>,
    minStars: int,
    createdAfter: string)

  datatype ArxivSource = ArxivSource(categories: seq<string>, keywords: seq<string>)

  datatype BlogsSource = BlogsSource(feeds: seq<string>, keywords: Option<seq<string>>)

  datatype WebPagesSource = WebPagesSource(urls: seq<string>, keywords: Option<seq<string>>)

  datatype Sources = Sources(
    github: Option<GithubSource>,
    arxiv: Option<ArxivSource>,
    blogs: Option<BlogsSource>,
    webPages: Option<WebPagesSource>)

  datatype Classification = Classification(model: string, threshold: real, maxIssuesPerRun: nat)

  datatype RadarConfig = RadarConfig(
    description: string,
    listFile: string,
    sources: Sources,
    classification: Classification,
    labels: seq<string>)

  // ---------------------------------------------------------------- defaults

  const DefaultModel := "claude-sonnet-4-6"
  const DefaultThreshold: real := 70.0
  const DefaultMaxIssuesPerRun: nat := 5
  const DefaultListFile := "README.md"
  const DefaultLabels := ["radar", "needs-review"]
  const DefaultMinStars: real := 0.0
  const DefaultCreatedAfter := "30d"

  // ---------------------------------------------------------------- validity

  /** The `^\d+d$` pattern: one or more ASCII digits, then `d`. */
  predicate IsDaySpec(s: string)
  {
    |s| >= 2 && s[|s| - 1] == 'd' && forall i :: 0 <= i < |s| - 1 ==> '0' <= s[i] <= '9'
  }

  predicate IsInteger(x: real)
  {
    x == x.Floor as real
  }

  predicate AnySource(s: Sources)
  {
    s.github.Some? || s.arxiv.Some? || s.blogs.Some? || s.webPages.Some?
  }

  predicate ValidGithub(g: GithubSource)
  {
    |g.topics| >= 1 && g.minStars >= 0 && IsDaySpec(g.createdAfter)
  }

  predicate ValidSources(s: Sources)
  {
    && AnySource(s)
    && (s.github.Some? ==> ValidGithub(s.github.value))
    && (s.arxiv.Some? ==> |s.arxiv.value.categories| >= 1 && |s.arxiv.value.keywords| >= 1)
    && (s.blogs.Some? ==> |s.blogs.value.feeds| >= 1)
    && (s.webPages.Some? ==> |s.webPages.value.urls| >= 1)
  }

  /** Every constraint the schema places on a loaded configuration. */
  predicate Valid(c: RadarConfig)
  {
    && |c.description| >= 1
    && ValidSources(c.sources)
    && 0.0 <= c.classification.threshold <= 100.0
    && c.classification.maxIssuesPerRun >= 1
  }

  // ---------------------------------------------------------------- raw document

  datatype RawGithub = RawGithub(
    topics: seq<string>,
    languages: Option<seq<string>>,
    minStars: Option<real>,
    createdAfter: Option<string>)

  datatype RawSources = RawSources(
    github: Option<RawGithub>,
    arxiv: Option<ArxivSource>,
    blogs: Option<BlogsSource>,
    webPages: Option<WebPagesSource>)

  datatype RawClassification = RawClassification(
    model: Option<string>,
    threshold: Option<real>,
    maxIssuesPerRun: Option<real>)

  datatype RawIssueTemplate = RawIssueTemplate(labels: Option<seq<string>>)

  datatype RawConfig = RawConfig(
    description: Option<string>,
    listFile: Option<string>,
    sources: RawSources,
    classification: Option<RawClassification>,
    issueTemplate: Option<RawIssueTemplate>)

  datatype ConfigError =
    | MissingDescription
    | EmptyTopics
    | BadMinStars
    | BadCreatedAfter
    | EmptyArxivList
    | EmptyFeeds
    | EmptyPageUrls
    | NoSourceConfigured
    | BadThreshold
    | BadMaxIssues

  /** The checks of the GitHub section: topics present, a given `min_stars` a
      non-negative integer, a given `created_after` of the form `Nd`. */
  predicate RawGithubOk(raw: RawGithub)
  {
    && |raw.topics| >= 1
    && (raw.minStars.Some? ==> raw.minStars.value >= 0.0 && IsInteger(raw.minStars.value))
    && (raw.createdAfter.Some? ==> IsDaySpec(raw.createdAfter.value))
  }

  function ParseGithub(raw: RawGithub): (r: Result<GithubSource, ConfigError>)
    ensures r.Ok? <==> RawGithubOk(raw)
    ensures r.Ok? ==> ValidGithub(r.value)
    ensures r.Ok? ==> r.value.topics == raw.topics && r.value.languages == raw.languages
    ensures raw.minStars.Some? && r.Ok? ==> r.value.minStars as real == raw.minStars.value
    ensures raw.createdAfter.Some? && r.Ok? ==> r.value.createdAfter == raw.createdAfter.value
    ensures raw.minStars.None? && r.Ok? ==> r.value.minStars == 0
    ensures raw.createdAfter.None? && r.Ok? ==> r.value.createdAfter == DefaultCreatedAfter
    ensures raw.minStars.Some? && (raw.minStars.value < 0.0 || !IsInteger(raw.minStars.value)) ==> r.Err?
    ensures raw.createdAfter.Some? && !IsDaySpec(raw.createdAfter.value) ==> r.Err?
  {
    var stars := raw.minStars.GetOr(DefaultMinStars);
    var after := raw.createdAfter.GetOr(DefaultCreatedAfter);
    if |raw.topics| < 1 then Err(EmptyTopics)
    else if stars < 0.0 || !IsInteger(stars) then Err(BadMinStars)
    else if !IsDaySpec(after) then Err(BadCreatedAfter)
    else Ok(GithubSource(raw.topics, raw.languages, stars.Floor, after))
  }

  /** The checks of the sources: each given section passes its own checks, and
      at least one section is given. */
  predicate RawSourcesOk(raw: RawSources)
  {
    && (raw.github.Some? ==> RawGithubOk(raw.github.value))
    && (raw.arxiv.Some? ==> |raw.arxiv.value.categories| >= 1 && |raw.arxiv.value.keywords| >= 1)
    && (raw.blogs.Some? ==> |raw.blogs.value.feeds| >= 1)
    && (raw.webPages.Some? ==> |raw.webPages.value.urls| >= 1)
    && (raw.github.Some? || raw.arxiv.Some? || raw.blogs.Some? || raw.webPages.Some?)
  }

  function ParseSources(raw: RawSources): (r: Result<Sources, ConfigError>)
    ensures r.Ok? <==> RawSourcesOk(raw)
    ensures r.Ok? ==> ValidSources(r.value)
    ensures r.Ok? && raw.github.Some? ==> r.value.github == Some(ParseGithub(raw.github.value).value)
    ensures r.Ok? ==> r.value.arxiv == raw.arxiv && r.value.blogs == raw.blogs && r.value.webPages == raw.webPages
    ensures r.Ok? ==> (r.value.github.Some? <==> raw.github.Some?)
    ensures raw.github.None? && raw.arxiv.None? && raw.blogs.None? && raw.webPages.None? ==> r.Err?
  {
    var github :=
      match raw.github
      case None => Ok(None)
      case Some(g) =>
        match ParseGithub(g)
        case Ok(v) => Ok(Some(v))
        case Err(e) => Err(e);
    if github.Err? then Err(github.error)
    else if raw.arxiv.Some? && (|raw.arxiv.value.categories| < 1 || |raw.arxiv.value.keywords| < 1) then
      Err(EmptyArxivList)
    else if raw.blogs.Some? && |raw.blogs.value.feeds| < 1 then Err(EmptyFeeds)
    else if raw.webPages.Some? && |raw.webPages.value.urls| < 1 then Err(EmptyPageUrls)
    else
      var s := Sources(github.value, raw.arxiv, raw.blogs, raw.webPages);
      if !AnySource(s) then Err(NoSourceConfigured) else Ok(s)
  }

  /** The checks of the classification section: a given threshold within
      0..100, a given cap a positive integer. */
  predicate RawClassificationOk(raw: RawClassification)
  {
    && (raw.threshold.Some? ==> 0.0 <= raw.threshold.value <= 100.0)
    && (raw.maxIssuesPerRun.Some? ==> raw.maxIssuesPerRun.value > 0.0 && IsInteger(raw.maxIssuesPerRun.value))
  }

  function ParseClassification(raw: Option<RawClassification>): (r: Result<Classification, ConfigError>)
    ensures r.Ok? <==> raw.None? || RawClassificationOk(raw.value)
    ensures r.Ok? ==> 0.0 <= r.value.threshold <= 100.0 && r.value.maxIssuesPerRun >= 1
    ensures raw.Some? && r.Ok? ==>
              && r.value.model == raw.value.model.GetOr(DefaultModel)
              && (raw.value.threshold.Some? ==> r.value.threshold == raw.value.threshold.value)
              && (raw.value.maxIssuesPerRun.Some? ==> r.value.maxIssuesPerRun as real == raw.value.maxIssuesPerRun.value)
    ensures raw.None? ==> r == Ok(Classification(DefaultModel, DefaultThreshold, DefaultMaxIssuesPerRun))
    ensures raw.Some? && raw.value.threshold.None? && r.Ok? ==> r.value.threshold == DefaultThreshold
    ensures raw.Some? && raw.value.maxIssuesPerRun.None? && r.Ok? ==> r.value.maxIssuesPerRun == DefaultMaxIssuesPerRun
    ensures raw.Some? && raw.value.threshold.Some? && !(0.0 <= raw.value.threshold.value <= 100.0) ==> r.Err?
    ensures (raw.Some? && raw.value.maxIssuesPerRun.Some?
             && (raw.value.maxIssuesPerRun.value <= 0.0 || !IsInteger(raw.value.maxIssuesPerRun.value)))
            ==> r.Err?
  {
    var c := raw.GetOr(RawClassification(None, None, None));
    var threshold := c.threshold.GetOr(DefaultThreshold);
    var cap := c.maxIssuesPerRun.GetOr(DefaultMaxIssuesPerRun as real);
    if !(0.0 <= threshold <= 100.0) then Err(BadThreshold)
    else if cap <= 0.0 || !IsInteger(cap) then Err(BadMaxIssues)
    else Ok(Classification(c.model.GetOr(DefaultModel), threshold, cap.Floor))
  }

  /** Validates a loaded document and fills in the defaults. */
  function ParseConfig(raw: RawConfig): (r: Result<RadarConfig, ConfigError>)
    ensures r.Ok? <==>
              && raw.description.Some? && |raw.description.value| >= 1
              && ParseSources(raw.sources).Ok? && ParseClassification(raw.classification).Ok?
    ensures r.Ok? ==> Valid(r.value)
    ensures r.Ok? ==>
              && r.value.description == raw.description.value
              && r.value.sources == ParseSources(raw.sources).value
              && r.value.classification == ParseClassification(raw.classification).value
    ensures raw.listFile.Some? && r.Ok? ==> r.value.listFile == raw.listFile.value
    ensures raw.issueTemplate.Some? && raw.issueTemplate.value.labels.Some? && r.Ok?
            ==> r.value.labels == raw.issueTemplate.value.labels.value
    ensures raw.description.None? ==> r.Err?
    ensures raw.listFile.None? && r.Ok? ==> r.value.listFile == DefaultListFile
    ensures ((raw.issueTemplate.None? || raw.issueTemplate.value.labels.None?) && r.Ok?)
            ==> r.value.labels == DefaultLabels
    ensures (raw.classification.None? && r.Ok?)
            ==> r.value.classification == Classification(DefaultModel, DefaultThreshold, DefaultMaxIssuesPerRun)
  {
    if raw.description.None? || |raw.description.value| < 1 then Err(MissingDescription)
    else
      match ParseSources(raw.sources)
      case Err(e) => Err(e)
      case Ok(sources) =>
        match ParseClassification(raw.classification)
        case Err(e) => Err(e)
        case Ok(classification) =>
          var labels :=
            match raw.issueTemplate
            case None => DefaultLabels
            case Some(t) => t.labels.GetOr(DefaultLabels);
          Ok(RadarConfig(raw.description.value, raw.listFile.GetOr(DefaultListFile), sources, classification, labels))
  }

  /** A minimal document, a description and one GitHub topic list and nothing
      else, is accepted with every default filled in. */
  lemma MinimalConfigAccepted(description: string, topics: seq<string>)
    requires |description| >= 1 && |topics| >= 1
    ensures var raw := RawConfig(Some(description), None,
                                 RawSources(Some(RawGithub(topics, None, None, None)), None, None, None), None, None);
            ParseConfig(raw)
            == Ok(RadarConfig(description, DefaultListFile,
                              Sources(Some(GithubSource(topics, None, 0, DefaultCreatedAfter)), None, None, None),
                              Classification(DefaultModel, DefaultThreshold, DefaultMaxIssuesPerRun),
                              DefaultLabels))
  {
    assert IsDaySpec(DefaultCreatedAfter);
  }

  /** The fully spelled-out document a configuration corresponds to. */
  function ToRaw(c: RadarConfig): RawConfig
  {
    var gh :=
      match c.sources.github
      case None => None
      case Some(g) => Some(RawGithub(g.topics, g.languages, Some(g.minStars as real), Some(g.createdAfter)));
    RawConfig(
      Some(c.description),
      Some(c.listFile),
      RawSources(gh, c.sources.arxiv, c.sources.blogs, c.sources.webPages),
      Some(RawClassification(
        Some(c.classification.model),
        Some(c.classification.threshold),
        Some(c.classification.maxIssuesPerRun as real))),
      Some(RawIssueTemplate(Some(c.labels))))
  }

  /** Validation accepts exactly the valid configurations, unchanged. */
  lemma ValidConfigRoundTrip(c: RadarConfig)
    requires Valid(c)
    ensures ParseConfig(ToRaw(c)) == Ok(c)
  {
    if c.sources.github.Some? {
      var g := c.sources.github.value;
      assert (g.minStars as real).Floor == g.minStars;
    }
    assert (c.classification.maxIssuesPerRun as real).Floor == c.classification.maxIssuesPerRun;
  }
}

=== FILE: dedup.dfy ===
/** De-duplication against the curated list: a scanner for the URL pattern
    `https?://` followed by a run of characters other than whitespace, `)`, `>`
    and `]`; trailing `.,;:!?` stripped and the result lower-cased; candidates
    whose lower-cased URL is among them are dropped. A list that cannot be read
    drops nothing. */
module Dedup {
  import opened Wrappers
  import opened Text
  import opened Seqs
  import opened Types
  import opened Configuration

  /** A character the URL pattern's `[^\s\)>\]]` class accepts. */
  predicate UrlChar(ch: char)
  {
    !IsSpace(ch) && ch != ')' && ch != '>' && ch != ']'
  }

  /** A character the clean-up `[.,;:!?]+$` strips from the end. */
  predicate IsTrailingPunct(ch: char)
  {
    ch == '.' || ch == ',' || ch == ';' || ch == ':' || ch == '!' || ch == '?'
  }

  predicate HasPrefixAt(t: string, p: nat, prefix: string)
  {
    p + |prefix| <= |t| && t[p..p + |prefix|] == prefix
  }

  /** The URL pattern can match starting at position `p`. */
  predicate UrlStartsAt(t: string, p: nat)
  {
    || (HasPrefixAt(t, p, "https://") && p + 8 < |t| && UrlChar(t[p + 8]))
    || (HasPrefixAt(t, p, "http://") && p + 7 < |t| && UrlChar(t[p + 7]))
  }

  /** A string the URL pattern matches in full. */
  predicate IsUrlMatch(m: string)
  {
    || (|m| > 8 && m[..8] == "https://" && forall k :: 8 <= k < |m| ==> UrlChar(m[k]))
    || (|m| > 7 && m[..7] == "http://" && forall k :: 7 <= k < |m| ==> UrlChar(m[k]))
  }

  /** The end of the longest run of URL characters starting at `i`. */
  function RunEnd(t: string, i: nat): (e: nat)
    requires i <= |t|
    ensures i <= e <= |t|
    ensures forall k :: i <= k < e ==> UrlChar(t[k])
    ensures e == |t| || !UrlChar(t[e])
    decreases |t| - i
  {
    if i < |t| && UrlChar(t[i]) then RunEnd(t, i + 1) else i
  }

  /** Where the greedy match starting at `p` ends, if one starts there. */
  function MatchEnd(t: string, p: nat): (r: Option<nat>)
    requires p <= |t|
    ensures r.Some? <==> UrlStartsAt(t, p)
    ensures r.Some? ==> p < r.value <= |t| && IsUrlMatch(t[p..r.value])
    ensures r.Some? ==> r.value == |t| || !UrlChar(t[r.value])
  {
    if HasPrefixAt(t, p, "https://") && RunEnd(t, p + 8) > p + 8 then
      SchemeRunMatches(t, p, "https://");
      Some(RunEnd(t, p + 8))
    else if HasPrefixAt(t, p, "http://") && RunEnd(t, p + 7) > p + 7 then
      SchemeRunMatches(t, p, "http://");
      Some(RunEnd(t, p + 7))
    else None
  }

  /** A scheme followed by a non-empty run of URL characters is a full match. */
  lemma SchemeRunMatches(t: string, p: nat, scheme: string)
    requires IsScheme(scheme) && HasPrefixAt(t, p, scheme)
    requires RunEnd(t, p + |scheme|) > p + |scheme|
    ensures IsUrlMatch(t[p..RunEnd(t, p + |scheme|)])
  {
    var n, e := |scheme|, RunEnd(t, p + |scheme|);
    var m := t[p..e];
    assert m[..n] == t[p..p + n];
    assert forall k :: n <= k < |m| ==> m[k] == t[p + k];
  }

  /** `t.match(URL_REGEX)` from position `p` on: every match, left to right. */
  function ScanUrls(t: string, p: nat): (r: seq<string>)
    requires p <= |t|
    ensures forall i :: 0 <= i < |r| ==> IsUrlMatch(r[i]) && Occurs(t, r[i])
    ensures r == [] <==> forall q :: p <= q < |t| ==> !UrlStartsAt(t, q)
  {
    ScanShape(t, p);
    Scan(t, p)
  }

  /** The global search itself: a match is taken where one starts, and the
      search resumes at its end. */
  function Scan(t: string, p: nat): seq<string>
    requires p <= |t|
    decreases |t| - p
  {
    if p == |t| then []
    else
      match MatchEnd(t, p)
      case Some(e) => [t[p..e]] + Scan(t, e)
      case None => Scan(t, p + 1)
  }

  lemma ScanShape(t: string, p: nat)
    requires p <= |t|
    ensures var r := Scan(t, p);
            && (forall i :: 0 <= i < |r| ==> IsUrlMatch(r[i]) && Occurs(t, r[i]))
            && (r == [] <==> forall q :: p <= q < |t| ==> !UrlStartsAt(t, q))
  {
    ScanMatches(t, p);
    ScanEmpty(t, p);
  }

  /** One step of the search at position `p`. */
  lemma ScanStep(t: string, p: nat)
    requires p < |t|
    ensures !UrlStartsAt(t, p) ==> Scan(t, p) == Scan(t, p + 1)
    ensures UrlStartsAt(t, p) ==> Scan(t, p) == [t[p..MatchEnd(t, p).value]] + Scan(t, MatchEnd(t, p).value)
  {
  }

  /** Each listed string is a full match found in `t`. */
  lemma {:induction false} ScanMatches(t: string, p: nat)
    requires p <= |t|
    ensures forall i :: 0 <= i < |Scan(t, p)| ==> IsUrlMatch(Scan(t, p)[i]) && Occurs(t, Scan(t, p)[i])
    decreases |t| - p
  {
    if p < |t| {
      var m := MatchEnd(t, p);
      if m.Some? {
        var e := m.value;
        ScanMatches(t, e);
        var r, rest := Scan(t, p), Scan(t, e);
        assert r == [t[p..e]] + rest;
        assert OccursAt(t, r[0], p);
        forall i | 1 <= i < |r|
          ensures IsUrlMatch(r[i]) && Occurs(t, r[i])
        {
          assert r[i] == rest[i - 1];
        }
      } else {
        ScanMatches(t, p + 1);
        assert Scan(t, p) == Scan(t, p + 1);
      }
    }
  }

  /** The scan finds nothing exactly when no match starts at or after `p`. */
  lemma {:induction false} ScanEmpty(t: string, p: nat)
    requires p <= |t|
    ensures Scan(t, p) == [] <==> forall q :: p <= q < |t| ==> !UrlStartsAt(t, q)
    decreases |t| - p
  {
    if p < |t| {
      ScanStep(t, p);
      if !UrlStartsAt(t, p) {
        ScanEmpty(t, p + 1);
      }
    }
  }

  /** Completeness of the scan: a match at `q` is listed when no earlier match
      starting at or after `p` runs past `q` (the global search resumes where
      each match ends). */
  lemma ScanFindsMatch(t: string, p: nat, q: nat)
    requires p <= q < |t| && UrlStartsAt(t, q)
    requires forall k :: p <= k < q && UrlStartsAt(t, k) ==> MatchEnd(t, k).value <= q
    ensures t[q..MatchEnd(t, q).value] in ScanUrls(t, p)
  {
    ScanFinds(t, p, q);
  }

  lemma {:induction false} ScanFinds(t: string, p: nat, q: nat)
    requires p <= q < |t| && UrlStartsAt(t, q)
    requires NoOverrun(t, p, q)
    ensures t[q..MatchEnd(t, q).value] in Scan(t, p)
    decreases q - p
  {
    ScanStep(t, p);
    if p == q {
      assert Scan(t, p)[0] == t[q..MatchEnd(t, q).value];
    } else if !UrlStartsAt(t, p) {
      NoOverrunFrom(t, p, p + 1, q);
      ScanFinds(t, p + 1, q);
    } else {
      var e := MatchEnd(t, p).value;
      NoOverrunAt(t, p, q);
      NoOverrunFrom(t, p, e, q);
      ScanFinds(t, e, q);
      ScanTail(t, p, t[q..MatchEnd(t, q).value]);
    }
  }

  /** What the scan lists after the match at `p` is listed from `p` too. */
  lemma ScanTail(t: string, p: nat, u: string)
    requires p < |t| && UrlStartsAt(t, p) && u in Scan(t, MatchEnd(t, p).value)
    ensures u in Scan(t, p)
  {
    ScanStep(t, p);
  }

  /** No match starting in `[p, q)` runs past `q`. */
  predicate NoOverrun(t: string, p: nat, q: nat)
    requires q <= |t|
  {
    forall k :: p <= k < q && UrlStartsAt(t, k) ==> MatchEnd(t, k).value <= q
  }

  lemma NoOverrunAt(t: string, p: nat, q: nat)
    requires p < q <= |t| && NoOverrun(t, p, q) && UrlStartsAt(t, p)
    ensures MatchEnd(t, p).value <= q
  {
  }

  lemma NoOverrunFrom(t: string, p: nat, p': nat, q: nat)
    requires p <= p' <= q <= |t| && NoOverrun(t, p, q)
    ensures NoOverrun(t, p', q)
  {
  }

  /** Scanning from the left: no match starts before `q`, then the first match
      is the one at `q` and the scan resumes at its end. */
  lemma ScanUrlsNext(t: string, p: nat, q: nat)
    requires p <= q < |t| && UrlStartsAt(t, q)
    requires forall k :: p <= k < q ==> !UrlStartsAt(t, k)
    ensures ScanUrls(t, p) == [t[q..MatchEnd(t, q).value]] + ScanUrls(t, MatchEnd(t, q).value)
  {
    ScanNext(t, p, q);
  }

  lemma {:induction false} ScanNext(t: string, p: nat, q: nat)
    requires p <= q < |t| && UrlStartsAt(t, q)
    requires forall k :: p <= k < q ==> !UrlStartsAt(t, k)
    ensures Scan(t, p) == [t[q..MatchEnd(t, q).value]] + Scan(t, MatchEnd(t, q).value)
    decreases q - p
  {
    ScanStep(t, p);
    if p < q {
      ScanNext(t, p + 1, q);
    }
  }

  /** `url.replace(/[.,;:!?]+$/, "")`. */
  function StripTrailingPunct(s: string): (r: string)
    ensures |r| <= |s| && r == s[..|r|]
    ensures |r| > 0 ==> !IsTrailingPunct(r[|r| - 1])
    ensures forall k :: |r| <= k < |s| ==> IsTrailingPunct(s[k])
  {
    if |s| > 0 && IsTrailingPunct(s[|s| - 1]) then StripTrailingPunct(s[..|s| - 1]) else s
  }

  function CleanUrl(m: string): string
  {
    Lower(StripTrailingPunct(m))
  }

  /** The shape every cleaned URL has. */
  predicate IsCleanUrl(u: string)
  {
    && IsLower(u)
    && ((|u| >= 8 && u[..8] == "https://") || (|u| >= 7 && u[..7] == "http://"))
    && (forall k :: 0 <= k < |u| ==> UrlChar(u[k]))
    && |u| > 0 && !IsTrailingPunct(u[|u| - 1])
  }

  predicate IsScheme(s: string)
  {
    s == "https://" || s == "http://"
  }

  /** Stripping never reaches into the scheme, whose last character is `/`. */
  lemma StripKeepsScheme(m: string, n: nat)
    requires 7 <= n <= |m| && IsScheme(m[..n])
    requires forall k :: n <= k < |m| ==> UrlChar(m[k])
    ensures var s := StripTrailingPunct(m);
            && n <= |s| && s[..n] == m[..n]
            && (forall k :: 0 <= k < |s| ==> UrlChar(s[k]))
            && !IsTrailingPunct(s[|s| - 1])
  {
    var s := StripTrailingPunct(m);
    assert m[n - 1] == m[..n][n - 1] == '/';
    assert forall k :: 0 <= k < n ==> m[k] == m[..n][k];
    assert s[..n] == m[..n];
  }

  lemma LowerKeepsClean(s: string, n: nat)
    requires 7 <= n <= |s| && IsScheme(s[..n])
    requires forall k :: 0 <= k < |s| ==> UrlChar(s[k])
    requires !IsTrailingPunct(s[|s| - 1])
    ensures IsCleanUrl(Lower(s))
  {
    var u := Lower(s);
    assert forall k :: 0 <= k < n ==> s[k] == s[..n][k];
    assert u[..n] == s[..n];
  }

  lemma CleanUrlShape(m: string)
    requires IsUrlMatch(m)
    ensures IsCleanUrl(CleanUrl(m))
  {
    var n := if |m| > 8 && m[..8] == "https://" then 8 else 7;
    StripKeepsScheme(m, n);
    LowerKeepsClean(StripTrailingPunct(m), n);
  }

  /** `extractUrlsFromMarkdown`. */
  function ExtractUrlsFromMarkdown(markdown: string): (r: set<string>)
    ensures forall u :: u in r ==> IsCleanUrl(u)
    ensures forall u :: u in r ==> exists m :: Occurs(markdown, m) && IsUrlMatch(m) && u == CleanUrl(m)
    ensures r == {} <==> forall q :: 0 <= q < |markdown| ==> !UrlStartsAt(markdown, q)
  {
    var matches := ScanUrls(markdown, 0);
    var r := set m | m in matches :: CleanUrl(m);
    CleanedAreClean(matches);
    if matches != [] then
      assert CleanUrl(matches[0]) in r;
      r
    else r
  }

  lemma CleanedAreClean(matches: seq<string>)
    requires forall i :: 0 <= i < |matches| ==> IsUrlMatch(matches[i])
    ensures forall u :: u in (set m | m in matches :: CleanUrl(m)) ==> IsCleanUrl(u)
  {
    forall u | u in (set m | m in matches :: CleanUrl(m))
      ensures IsCleanUrl(u)
    {
      var m :| m in matches && u == CleanUrl(m);
      CleanUrlShape(m);
    }
  }

  /** Every URL of the list is extracted: a match at `q` that no earlier match
      overlaps contributes its cleaned form. */
  lemma ExtractFindsUrl(markdown: string, q: nat)
    requires q < |markdown| && UrlStartsAt(markdown, q)
    requires forall k :: 0 <= k < q && UrlStartsAt(markdown, k) ==> MatchEnd(markdown, k).value <= q
    ensures CleanUrl(markdown[q..MatchEnd(markdown, q).value]) in ExtractUrlsFromMarkdown(markdown)
  {
    ScanFindsMatch(markdown, 0, q);
  }

  /** `dedup`; `read` is the file reader applied to the configured list file. */
  function DedupCandidates(candidates: seq<Candidate>, config: RadarConfig, read: string -> Result<string, string>)
    : (r: seq<Candidate>)
    ensures read(config.listFile).Err? ==> r == candidates
    ensures read(config.listFile).Ok? ==>
              forall c :: c in r <==>
                c in candidates && Lower(c.url) !in ExtractUrlsFromMarkdown(read(config.listFile).value)
    ensures read(config.listFile).Ok? && ExtractUrlsFromMarkdown(read(config.listFile).value) == {} ==> r == candidates
    ensures IsSubseq(r, candidates)
    ensures forall c :: multiset(r)[c] ==
              if read(config.listFile).Ok? && Lower(c.url) in ExtractUrlsFromMarkdown(read(config.listFile).value)
              then 0 else multiset(candidates)[c]
  {
    match read(config.listFile)
    case Err(_) =>
      IsSubseqReflexive(candidates);
      candidates
    case Ok(markdown) =>
      var existing := ExtractUrlsFromMarkdown(markdown);
      Filter(candidates, (c: Candidate) => Lower(c.url) !in existing)
  }

  /** Matching ignores the case of the candidate's URL: two candidates whose URLs
      differ only in case are kept or dropped together. */
  lemma CaseInsensitiveDrop(candidates: seq<Candidate>, config: RadarConfig, read: string -> Result<string, string>,
                            a: Candidate, b: Candidate)
    requires a in candidates && b in candidates
    requires Lower(a.url) == Lower(b.url)
    ensures a in DedupCandidates(candidates, config, read) <==> b in DedupCandidates(candidates, config, read)
  {
  }

  /** A candidate whose URL, lower-cased, is one the list links to is dropped. */
  lemma ListedUrlDropped(candidates: seq<Candidate>, config: RadarConfig, read: string -> Result<string, string>,
                         q: nat, c: Candidate)
    requires read(config.listFile).Ok?
    requires var md := read(config.listFile).value;
             && q < |md| && UrlStartsAt(md, q)
             && (forall k :: 0 <= k < q && UrlStartsAt(md, k) ==> MatchEnd(md, k).value <= q)
             && Lower(c.url) == CleanUrl(md[q..MatchEnd(md, q).value])
    ensures c !in DedupCandidates(candidates, config, read)
  {
    ExtractFindsUrl(read(config.listFile).value, q);
  }
}

=== FILE: external.dfy ===
/** What the libraries the pipeline calls hand back, as data: a parsed JSON value
    (the result of `JSON.parse`) and the outcome of one language-model call. */
module External {
  import opened Wrappers
  import opened Text

  /** A JSON value. A number carries its value and the text JavaScript's
      `String(n)` renders it as. Object fields hold the last value JSON.parse
      kept for each key. */
  datatype Json =
    | JNull
    | JBool(b: bool)
    | JNum(value: real, text: string)
    | JStr(s: string)
    | JArr(items: seq<Json>)
    | JObj(fields: map<string, Json>)

  /** `JSON.parse` as a partial function: `None` where it throws. */
  type JsonParser = string -> Option<Json>

  /** `value[key]`, `None` for `undefined`; only objects carry properties JSON can set. */
  function Field(value: Json, key: string): (r: Option<Json>)
    ensures r.Some? <==> value.JObj? && key in value.fields
  {
    if value.JObj? && key in value.fields then Some(value.fields[key]) else None
  }

  /** `String(value)`. Arrays render as their elements joined by `,`, with a
      `null` element rendered as the empty string, as `Array.prototype.join` does. */
  function Stringify(value: Json): (r: string)
    ensures value.JStr? ==> r == value.s
    ensures value.JNull? ==> r == "null"
    decreases value, 0
  {
    match value
    case JNull => "null"
    case JBool(b) => if b then "true" else "false"
    case JNum(_, text) => text
    case JStr(s) => s
    case JArr(items) =>
      Join(seq(|items|, i requires 0 <= i < |items| => assert items[i] in items; ElementText(items[i])), ",")
    case JObj(_) => "[object Object]"
  }

  function ElementText(value: Json): string
    decreases value, 1
  {
    if value.JNull? then "" else Stringify(value)
  }

  /** One language-model call: a first content block of type text, a first block
      of another type, or a call that threw (transport error, empty content). */
  datatype LlmReply = TextReply(text: string) | NonTextReply | CallFailed

  /** The reply to call `k`; a call with no reply given fails. */
  function ReplyAt(replies: seq<LlmReply>, k: nat): LlmReply
  {
    if k < |replies| then replies[k] else CallFailed
  }
}

=== FILE: github.dfy ===
/** The GitHub collector: the repository search query and the mapping of the
    repositories the search returns. The search call and the date arithmetic of
    `createdAfterDate` are inputs. */
module GitHub {
  import opened Wrappers
  import opened Text
  import opened Seqs
  import opened Types
  import opened Configuration

  const MaxDescriptionLength: nat := 1000

  function TopicClause(t: string): string { "topic:" + t }

  function LanguageClause(l: string): string { "language:" + l }

  function StarsClause(minStars: int): string { "stars:>=" + IntToString(minStars) }

  function CreatedClause(after: string): string { "created:>=" + after }

  /** The `parts` of `buildSearchQuery`: topics first, then languages when given,
      then the star floor when positive, and the creation date last. `after` is
      what `createdAfterDate(created_after)` returns. */
  function SearchParts(topics: seq<string>, gh: GithubSource, after: string): (r: seq<string>)
    ensures |r| == 2 + (if gh.languages.Some? then 1 else 0) + (if gh.minStars > 0 then 1 else 0)
    ensures r[0] == Join(Map(topics, TopicClause), " ")
    ensures gh.languages.Some? ==> r[1] == Join(Map(gh.languages.value, LanguageClause), " ")
    ensures gh.minStars > 0 ==> r[|r| - 2] == StarsClause(gh.minStars)
    ensures r[|r| - 1] == CreatedClause(after)
  {
    [Join(Map(topics, TopicClause), " ")]
    + (if gh.languages.Some? then [Join(Map(gh.languages.value, LanguageClause), " ")] else [])
    + (if gh.minStars > 0 then [StarsClause(gh.minStars)] else [])
    + [CreatedClause(after)]
  }

  /** `buildSearchQuery(topics, config)`: the parts joined by single spaces.
      Every topic is searched for, every language when given, the star floor
      when it is positive, and the creation date closes the query. */
  function BuildSearchQuery(topics: seq<string>, gh: GithubSource, after: string): (q: string)
    ensures forall t :: t in topics ==> Occurs(q, TopicClause(t))
    ensures gh.languages.Some? ==> forall l :: l in gh.languages.value ==> Occurs(q, LanguageClause(l))
    ensures gh.minStars > 0 ==> Occurs(q, StarsClause(gh.minStars))
    ensures |CreatedClause(after)| <= |q| && q[|q| - |CreatedClause(after)|..] == CreatedClause(after)
    ensures q == TopicsText(topics) + LanguagesText(gh) + StarsText(gh) + " " + CreatedClause(after)
  {
    SearchPartsJoined(topics, gh, after);
    SearchQuerySpelled(topics, gh, after);
    Join(SearchParts(topics, gh, after), " ")
  }

  /** The query spelled out piece by piece: the topic clauses, each optional
      piece preceded by its separating space, then the creation date. */
  function TopicsText(topics: seq<string>): string
  {
    Join(Map(topics, TopicClause), " ")
  }

  function LanguagesText(gh: GithubSource): string
  {
    if gh.languages.Some? then " " + Join(Map(gh.languages.value, LanguageClause), " ") else ""
  }

  function StarsText(gh: GithubSource): string
  {
    if gh.minStars > 0 then " " + StarsClause(gh.minStars) else ""
  }

  lemma SearchQuerySpelled(topics: seq<string>, gh: GithubSource, after: string)
    ensures Join(SearchParts(topics, gh, after), " ")
            == TopicsText(topics) + LanguagesText(gh) + StarsText(gh) + " " + CreatedClause(after)
  {
    var t, c := TopicsText(topics), CreatedClause(after);
    var tail := if gh.minStars > 0 then [StarsClause(gh.minStars), c] else [c];
    StarsTailJoined(gh, c);
    SearchPartsSplit(topics, gh, after, tail);
    ConcatRegroup(t + LanguagesText(gh), StarsText(gh), c);
  }

  /** The star floor and the creation date, joined. */
  lemma StarsTailJoined(gh: GithubSource, c: string)
    ensures var tail := if gh.minStars > 0 then [StarsClause(gh.minStars), c] else [c];
            " " + Join(tail, " ") == StarsText(gh) + " " + c
  {
    if gh.minStars > 0 {
      JoinCons(StarsClause(gh.minStars), [c], " ");
    }
  }

  /** The topics and languages, then the rest of the parts. */
  lemma SearchPartsSplit(topics: seq<string>, gh: GithubSource, after: string, tail: seq<string>)
    requires tail == if gh.minStars > 0 then [StarsClause(gh.minStars), CreatedClause(after)] else [CreatedClause(after)]
    ensures Join(SearchParts(topics, gh, after), " ") == TopicsText(topics) + LanguagesText(gh) + (" " + Join(tail, " "))
  {
    var parts := SearchParts(topics, gh, after);
    var t := TopicsText(topics);
    if gh.languages.Some? {
      var l := Join(Map(gh.languages.value, LanguageClause), " ");
      assert parts == [t] + ([l] + tail);
      JoinTwoThenRest(t, l, tail, " ");
    } else {
      assert parts == [t] + tail;
      JoinCons(t, tail, " ");
    }
  }

  lemma JoinTwoThenRest(t: string, l: string, tail: seq<string>, sep: string)
    requires |tail| > 0
    ensures Join([t] + ([l] + tail), sep) == t + (sep + l) + (sep + Join(tail, sep))
  {
    var j := Join(tail, sep);
    JoinCons(t, [l] + tail, sep);
    JoinCons(l, tail, sep);
    ConcatAssoc(l, sep, j);
    ConcatAssoc(t + sep, l, sep + j);
    ConcatAssoc(t, sep, l);
  }

  lemma SearchPartsJoined(topics: seq<string>, gh: GithubSource, after: string)
    ensures var q := Join(SearchParts(topics, gh, after), " ");
            && (forall t :: t in topics ==> Occurs(q, TopicClause(t)))
            && (gh.languages.Some? ==> forall l :: l in gh.languages.value ==> Occurs(q, LanguageClause(l)))
            && (gh.minStars > 0 ==> Occurs(q, StarsClause(gh.minStars)))
            && |CreatedClause(after)| <= |q| && q[|q| - |CreatedClause(after)|..] == CreatedClause(after)
  {
    var parts := SearchParts(topics, gh, after);
    var q := Join(parts, " ");
    forall t | t in topics
      ensures Occurs(q, TopicClause(t))
    {
      var i :| 0 <= i < |topics| && topics[i] == t;
      var clauses := Map(topics, TopicClause);
      JoinContainsEachPart(clauses, " ", i);
      JoinContainsEachPart(parts, " ", 0);
      OccursTransitive(q, parts[0], TopicClause(t));
    }
    if gh.languages.Some? {
      forall l | l in gh.languages.value
        ensures Occurs(q, LanguageClause(l))
      {
        var i :| 0 <= i < |gh.languages.value| && gh.languages.value[i] == l;
        JoinContainsEachPart(Map(gh.languages.value, LanguageClause), " ", i);
        JoinContainsEachPart(parts, " ", 1);
        OccursTransitive(q, parts[1], LanguageClause(l));
      }
    }
    if gh.minStars > 0 {
      JoinContainsEachPart(parts, " ", |parts| - 2);
    }
    JoinEndsWithLast(parts, " ");
  }

  /** One repository of the search result. */
  datatype Repo = Repo(
    htmlUrl: string,
    fullName: string,
    description: Option<string>,
    stargazersCount: int,
    language: Option<string>,
    topics: Option<seq<string>>)

  /** The shape every GitHub candidate has. */
  predicate IsGitHubCandidate(c: Candidate)
  {
    && c.source == GitHub
    && |c.description| <= MaxDescriptionLength
    && c.metadata.stars.Some? && c.metadata.topics.Some?
    && c.metadata.authors.None? && c.metadata.feedName.None? && c.metadata.pageName.None?
  }

  /** The candidate for one repository: a null description reads as "", a null
      language as absent, null topics as none. */
  function RepoCandidate(repo: Repo): (c: Candidate)
    ensures IsGitHubCandidate(c)
    ensures c.url == repo.htmlUrl && c.title == repo.fullName
    ensures var d := repo.description.GetOr("");
            |c.description| <= |d| && c.description == d[..|c.description|]
            && (|d| <= MaxDescriptionLength ==> c.description == d)
            && (|d| > MaxDescriptionLength ==> |c.description| == MaxDescriptionLength)
    ensures repo.description.None? ==> c.description == ""
    ensures c.metadata.stars == Some(repo.stargazersCount)
    ensures c.metadata.language == repo.language
    ensures c.metadata.topics == Some(repo.topics.GetOr([]))
  {
    Candidate(repo.htmlUrl, repo.fullName, Take(repo.description.GetOr(""), MaxDescriptionLength), GitHub,
              NoMetadata.(stars := Some(repo.stargazersCount), language := repo.language,
                          topics := Some(repo.topics.GetOr([]))))
  }

  /** The search outcome: it threw, or it returned one page of repositories. */
  datatype SearchResponse = SearchFailed | Items(repos: seq<Repo>)

  /** `collectGitHub`. `search(q)` is the answer to the repository search for
      `q`; `after` is the creation-date cut-off. */
  function CollectGitHub(config: RadarConfig, after: string, search: string -> SearchResponse): (r: seq<Candidate>)
    ensures config.sources.github.None? ==> r == []
    ensures forall i :: 0 <= i < |r| ==> IsGitHubCandidate(r[i])
    ensures config.sources.github.Some? ==>
              var gh := config.sources.github.value;
              var response := search(BuildSearchQuery(gh.topics, gh, after));
              && (response.SearchFailed? ==> r == [])
              && (response.Items? ==>
                    && |r| == |response.repos|
                    && forall i :: 0 <= i < |r| ==> r[i] == RepoCandidate(response.repos[i]))
  {
    match config.sources.github
    case None => []
    case Some(gh) =>
      match search(BuildSearchQuery(gh.topics, gh, after))
      case SearchFailed => []
      case Items(repos) => Map(repos, RepoCandidate)
  }
}

=== FILE: keywords.dfy ===
/** The keyword pre-filter: one lower-cased, de-duplicated keyword list built from
    every source section, and a case-insensitive substring test over a
    candidate's title, description and topics. */
module Keywords {
  import opened Wrappers
  import opened Text
  import opened Seqs
  import opened Types
  import opened Configuration

  /** Keywords in configuration order: GitHub topics, arXiv keywords, blog
      keywords, web-page keywords. */
  function GatheredKeywords(s: Sources): seq<string>
  {
    (if s.github.Some? then s.github.value.topics else [])
    + (if s.arxiv.Some? then s.arxiv.value.keywords else [])
    + (if s.blogs.Some? && s.blogs.value.keywords.Some? then s.blogs.value.keywords.value else [])
    + (if s.webPages.Some? && s.webPages.value.keywords.Some? then s.webPages.value.keywords.value else [])
  }

  /** `getAllKeywords`. */
  function GetAllKeywords(config: RadarConfig): (r: seq<string>)
    ensures forall k :: k in r ==> IsLower(k)
    ensures NoDuplicates(r)
    ensures forall k :: k in r <==> k in Map(GatheredKeywords(config.sources), Lower)
    ensures IsSubseq(r, Map(GatheredKeywords(config.sources), Lower))
    ensures !AnySource(config.sources) ==> r == []
  {
    Dedupe(Map(GatheredKeywords(config.sources), Lower))
  }

  /** `matchesAnyKeyword`: the keywords are expected in lower case already. */
  function MatchesAnyKeyword(text: string, keywords: seq<string>): (r: bool)
    ensures r <==> exists k :: k in keywords && Occurs(Lower(text), k)
  {
    if |keywords| == 0 then false
    else
      IncludesMeansOccurs(Lower(text), keywords[0]);
      Includes(Lower(text), keywords[0]) || MatchesAnyKeyword(text, keywords[1..])
  }

  /** The text a candidate is matched against; absent topics give an empty segment. */
  function SearchText(c: Candidate): string
  {
    c.title + " " + c.description + " " + Join(c.metadata.topics.GetOr([]), " ")
  }

  /** `filterCandidates`. */
  function FilterCandidates(candidates: seq<Candidate>, config: RadarConfig): (r: seq<Candidate>)
    ensures GetAllKeywords(config) == [] ==> r == candidates
    ensures GetAllKeywords(config) != [] ==>
              forall c :: c in r <==> c in candidates && MatchesAnyKeyword(SearchText(c), GetAllKeywords(config))
    ensures IsSubseq(r, candidates)
    ensures forall c :: multiset(r)[c] ==
              if GetAllKeywords(config) == [] || MatchesAnyKeyword(SearchText(c), GetAllKeywords(config))
              then multiset(candidates)[c] else 0
  {
    var keywords := GetAllKeywords(config);
    if |keywords| == 0 then
      IsSubseqReflexive(candidates);
      candidates
    else Filter(candidates, c => MatchesAnyKeyword(SearchText(c), keywords))
  }

  /** A candidate one of whose topics contains a configured keyword is kept,
      whatever its title and description say. */
  lemma {:induction false} TopicMatchKeeps(candidates: seq<Candidate>, config: RadarConfig, c: Candidate, t: string, k: string)
    requires c in candidates
    requires c.metadata.topics.Some? && t in c.metadata.topics.value
    requires k in GetAllKeywords(config) && Occurs(Lower(t), k)
    ensures c in FilterCandidates(candidates, config)
  {
    var topics := c.metadata.topics.value;
    var i :| 0 <= i < |topics| && topics[i] == t;
    JoinContainsEachPart(topics, " ", i);
    var head := c.title + " " + c.description + " ";
    OccursInRight(head, Join(topics, " "), t);
    assert SearchText(c) == head + Join(topics, " ");
    OccursLower(SearchText(c), t);
    OccursTransitive(Lower(SearchText(c)), Lower(t), k);
  }
}

=== FILE: pipeline.dfy ===
/** The four-stage orchestrator. The stages are parameters; each may reject,
    and a rejection ends the run there. */
module Pipeline {
  import opened Wrappers
  import opened Types
  import opened Configuration

  datatype PipelineResult = PipelineResult(candidatesFound: nat, candidatesFiltered: nat, issuesCreated: int)

  /** `PipelineDeps`: each stage resolves to its value or rejects with a message. */
  datatype Deps = Deps(
    collect: RadarConfig -> Result<seq<Candidate>, string>,
    filter: (seq<Candidate>, RadarConfig) -> Result<seq<Candidate>, string>,
    classify: (seq<Candidate>, RadarConfig) -> Result<seq<ClassifiedCandidate>, string>,
    output: (seq<ClassifiedCandidate>, RadarConfig, bool) -> Result<int, string>)

  /** One stage invocation, with the input it was given (every stage also gets
      the run's configuration). */
  datatype StageCall =
    | CollectCall
    | FilterCall(candidates: seq<Candidate>)
    | ClassifyCall(candidates: seq<Candidate>)
    | OutputCall(classified: seq<ClassifiedCandidate>, dryRun: bool)

  /** A run: the stage calls made, in order, and the result or the rejection. */
  datatype Run = Run(trace: seq<StageCall>, result: Result<PipelineResult, string>)

  /** `runPipeline`. */
  function RunPipeline(config: RadarConfig, deps: Deps, dryRun: bool): (r: Run)
    ensures 1 <= |r.trace| <= 4 && r.trace[0] == CollectCall
    ensures |r.trace| > 1 <==> deps.collect(config).Ok?
    ensures |r.trace| > 1 ==>
              r.trace[1] == FilterCall(deps.collect(config).value)
              && (|r.trace| > 2 <==> deps.filter(r.trace[1].candidates, config).Ok?)
    ensures |r.trace| > 2 ==>
              r.trace[2] == ClassifyCall(deps.filter(r.trace[1].candidates, config).value)
              && (|r.trace| > 3 <==> deps.classify(r.trace[2].candidates, config).Ok?)
    ensures |r.trace| > 3 ==>
              r.trace[3] == OutputCall(deps.classify(r.trace[2].candidates, config).value, dryRun)
    ensures r.result.Ok? <==> |r.trace| == 4 && deps.output(r.trace[3].classified, config, dryRun).Ok?
    ensures r.result.Ok? ==>
              && r.result.value.candidatesFound == |r.trace[1].candidates|
              && r.result.value.candidatesFiltered == |r.trace[2].candidates|
              && r.result.value.issuesCreated == deps.output(r.trace[3].classified, config, dryRun).value
  {
    match deps.collect(config)
    case Err(e) => Run([CollectCall], Err(e))
    case Ok(collected) =>
      match deps.filter(collected, config)
      case Err(e) => Run([CollectCall, FilterCall(collected)], Err(e))
      case Ok(filtered) =>
        match deps.classify(filtered, config)
        case Err(e) => Run([CollectCall, FilterCall(collected), ClassifyCall(filtered)], Err(e))
        case Ok(classified) =>
          var trace := [CollectCall, FilterCall(collected), ClassifyCall(filtered), OutputCall(classified, dryRun)];
          match deps.output(classified, config, dryRun)
          case Err(e) => Run(trace, Err(e))
          case Ok(issuesCreated) =>
            Run(trace, Ok(PipelineResult(|collected|, |filtered|, issuesCreated)))
  }

  /** A rejecting stage's error is the run's error. */
  lemma RejectionPropagates(config: RadarConfig, deps: Deps, dryRun: bool)
    requires RunPipeline(config, deps, dryRun).result.Err?
    ensures var r := RunPipeline(config, deps, dryRun);
            var last := r.trace[|r.trace| - 1];
            match last
            case CollectCall => deps.collect(config) == Err(r.result.error)
            case FilterCall(cs) => deps.filter(cs, config) == Err(r.result.error)
            case ClassifyCall(cs) => deps.classify(cs, config) == Err(r.result.error)
            case OutputCall(cs, d) => deps.output(cs, config, d) == Err(r.result.error)
  {
  }
}

=== FILE: seqs.dfy ===
/** Order-preserving selection over sequences: `Array.prototype.filter`, the
    first-occurrence de-duplication of `[...new Set(xs)]`, and the subsequence
    relation both of them satisfy. */
module Seqs {
  import opened Wrappers

  /** `sub` is obtained from `xs` by deleting elements, without reordering. */
  predicate IsSubseq<T(==)>(sub: seq<T>, xs: seq<T>)
    decreases |xs|
  {
    |sub| == 0
    || (|xs| > 0 && ((sub[0] == xs[0] && IsSubseq(sub[1..], xs[1..])) || IsSubseq(sub, xs[1..])))
  }

  lemma {:induction false} IsSubseqReflexive<T>(xs: seq<T>)
    ensures IsSubseq(xs, xs)
    decreases |xs|
  {
    if |xs| > 0 {
      IsSubseqReflexive(xs[1..]);
    }
  }

  lemma {:induction false} IsSubseqTransitive<T>(a: seq<T>, b: seq<T>, c: seq<T>)
    requires IsSubseq(a, b) && IsSubseq(b, c)
    ensures IsSubseq(a, c)
    decreases |c|
  {
    if |a| > 0 {
      assert |c| > 0;
      if |b| > 0 && b[0] == c[0] && IsSubseq(b[1..], c[1..]) {
        if a[0] == b[0] && IsSubseq(a[1..], b[1..]) {
          IsSubseqTransitive(a[1..], b[1..], c[1..]);
        } else {
          IsSubseqTransitive(a, b[1..], c[1..]);
        }
      } else {
        IsSubseqTransitive(a, b, c[1..]);
      }
    }
  }

  /** A subsequence is no longer than the sequence and draws its elements from it. */
  lemma {:induction false} IsSubseqMembers<T>(sub: seq<T>, xs: seq<T>)
    requires IsSubseq(sub, xs)
    ensures |sub| <= |xs|
    ensures forall x :: x in sub ==> x in xs
    decreases |xs|
  {
    if |sub| > 0 {
      if sub[0] == xs[0] && IsSubseq(sub[1..], xs[1..]) {
        IsSubseqMembers(sub[1..], xs[1..]);
        assert forall x :: x in sub ==> x == sub[0] || x in sub[1..];
      } else {
        IsSubseqMembers(sub, xs[1..]);
      }
    }
  }

  /** No element occurs twice. */
  predicate NoDuplicates<T(==)>(xs: seq<T>)
  {
    forall i, j :: 0 <= i < j < |xs| ==> xs[i] != xs[j]
  }

  /** `xs.filter(keep)`. */
  function Filter<T(==,!new)>(xs: seq<T>, keep: T -> bool): (r: seq<T>)
    ensures |r| <= |xs|
    ensures forall x :: x in r <==> x in xs && keep(x)
    ensures (forall i :: 0 <= i < |xs| ==> keep(xs[i])) ==> r == xs
    ensures IsSubseq(r, xs)
    ensures forall x :: multiset(r)[x] == if keep(x) then multiset(xs)[x] else 0
  {
    if |xs| == 0 then []
    else
      var rest := Filter(xs[1..], keep);
      assert multiset(xs) == multiset([xs[0]]) + multiset(xs[1..]) by { assert xs == [xs[0]] + xs[1..]; }
      if keep(xs[0]) then
        assert ([xs[0]] + rest)[1..] == rest;
        [xs[0]] + rest
      else rest
  }

  /** A filter that keeps no element gives the empty sequence. */
  lemma FilterNone<T(!new)>(xs: seq<T>, keep: T -> bool)
    requires forall i :: 0 <= i < |xs| ==> !keep(xs[i])
    ensures Filter(xs, keep) == []
  {
  }

  lemma {:induction false} FilterAppend<T(!new)>(a: seq<T>, b: seq<T>, keep: T -> bool)
    ensures Filter(a + b, keep) == Filter(a, keep) + Filter(b, keep)
    decreases |a|
  {
    if |a| == 0 {
      assert a + b == b;
    } else {
      assert (a + b)[1..] == a[1..] + b;
      FilterAppend(a[1..], b, keep);
    }
  }

  /** `[...new Set(xs)]` run with the values of `seen` already in the set:
      the first occurrence of each value, in order. */
  function DedupeFrom<T(==,!new)>(xs: seq<T>, seen: set<T>): (r: seq<T>)
    ensures NoDuplicates(r)
    ensures forall x :: x in r <==> x in xs && x !in seen
    ensures IsSubseq(r, xs)
  {
    if |xs| == 0 then []
    else if xs[0] in seen then DedupeFrom(xs[1..], seen)
    else
      var rest := DedupeFrom(xs[1..], seen + {xs[0]});
      assert ([xs[0]] + rest)[1..] == rest;
      [xs[0]] + rest
  }

  function Dedupe<T(==,!new)>(xs: seq<T>): (r: seq<T>)
    ensures NoDuplicates(r)
    ensures forall x :: x in r <==> x in xs
    ensures IsSubseq(r, xs)
  {
    DedupeFrom(xs, {})
  }

  /** Appending an element keeps the earlier result and adds the element at the
      end only when it is new: each element stands where it first occurs. */
  lemma DedupeSnoc<T(!new)>(xs: seq<T>, x: T)
    ensures Dedupe(xs + [x]) == if x in xs then Dedupe(xs) else Dedupe(xs) + [x]
  {
    DedupeFromSnoc(xs, x, {});
  }

  lemma {:induction false} DedupeFromSnoc<T(!new)>(xs: seq<T>, x: T, seen: set<T>)
    ensures DedupeFrom(xs + [x], seen)
            == if x in xs || x in seen then DedupeFrom(xs, seen) else DedupeFrom(xs, seen) + [x]
    decreases |xs|
  {
    if |xs| == 0 {
      assert xs + [x] == [x];
      assert [x][1..] == [];
    } else {
      assert (xs + [x])[1..] == xs[1..] + [x];
      assert x in xs <==> x == xs[0] || x in xs[1..];
      if xs[0] in seen {
        DedupeFromSnoc(xs[1..], x, seen);
      } else {
        DedupeFromSnoc(xs[1..], x, seen + {xs[0]});
      }
    }
  }

  /** `xs.map(f)`. */
  function Map<T, U>(xs: seq<T>, f: T -> U): (r: seq<U>)
    ensures |r| == |xs|
    ensures forall i :: 0 <= i < |xs| ==> r[i] == f(xs[i])
  {
    seq(|xs|, i requires 0 <= i < |xs| => f(xs[i]))
  }

  /** A sequence is what comes before position `k`, the element there, and what follows. */
  lemma SplitAround<T>(xs: seq<T>, k: nat)
    requires k < |xs|
    ensures xs == xs[..k] + [xs[k]] + xs[k + 1..]
  {
  }

  lemma MapAppend<T, U>(a: seq<T>, b: seq<T>, f: T -> U)
    ensures Map(a + b, f) == Map(a, f) + Map(b, f)
  {
    assert forall i :: |a| <= i < |a| + |b| ==> (a + b)[i] == b[i - |a|];
  }

  /** The values of the present entries, in order. */
  function Somes<U(==,!new)>(os: seq<Option<U>>): (r: seq<U>)
    ensures |r| <= |os|
    ensures forall x :: x in r <==> Some(x) in os
  {
    if |os| == 0 then []
    else
      var rest := Somes(os[1..]);
      assert forall o :: o in os <==> o == os[0] || o in os[1..];
      if os[0].Some? then [os[0].value] + rest else rest
  }

  lemma {:induction false} SomesAppend<U(!new)>(a: seq<Option<U>>, b: seq<Option<U>>)
    ensures Somes(a + b) == Somes(a) + Somes(b)
    decreases |a|
  {
    if |a| == 0 {
      assert a + b == b;
    } else {
      assert (a + b)[1..] == a[1..] + b;
      SomesAppend(a[1..], b);
    }
  }

  /** When every present entry maps back to the element at its own position,
      the present entries map back to a subsequence. */
  lemma {:induction false} SomesSubseq<T, U(!new)>(xs: seq<T>, os: seq<Option<U>>, back: U -> T)
    requires |os| == |xs|
    requires forall k :: 0 <= k < |xs| && os[k].Some? ==> back(os[k].value) == xs[k]
    ensures IsSubseq(Map(Somes(os), back), xs)
    decreases |xs|
  {
    if |xs| > 0 {
      SomesSubseq(xs[1..], os[1..], back);
      var rest := Somes(os[1..]);
      if os[0].Some? {
        assert Map([os[0].value] + rest, back) == [xs[0]] + Map(rest, back);
      }
    }
  }

  /** Every entry present: their values, in order; otherwise `None`. */
  function AllSome<U>(os: seq<Option<U>>): (r: Option<seq<U>>)
    ensures r.Some? <==> forall i :: 0 <= i < |os| ==> os[i].Some?
    ensures r.Some? ==> |r.value| == |os| && forall i :: 0 <= i < |os| ==> os[i] == Some(r.value[i])
  {
    if |os| == 0 then Some([])
    else
      var rest := AllSome(os[1..]);
      assert forall i :: 1 <= i < |os| ==> os[1..][i - 1] == os[i];
      if os[0].Some? && rest.Some? then
        Some([os[0].value] + rest.value)
      else
        assert rest.None? ==> exists j :: 0 <= j < |os[1..]| && os[1..][j].None?;
        None
  }
}

=== FILE: text.dfy ===
/** String helpers with the meaning of the JavaScript built-ins the pipeline uses:
    `toLowerCase` (ASCII only), `includes`, `join`, `slice(0, n)`, the `\s` class,
    `replace(/\s+/g, " ")`, `trim()` and decimal rendering of integers. */
module Text {

  // ---------------------------------------------------------------- case

  predicate IsUpperAscii(ch: char)
  {
    'A' <= ch <= 'Z'
  }

  function LowerChar(ch: char): (r: char)
    ensures !IsUpperAscii(r)
    ensures !IsUpperAscii(ch) ==> r == ch
    ensures IsUpperAscii(ch) ==> r as int == ch as int + 32
  {
    if IsUpperAscii(ch) then (ch as int + 32) as char else ch
  }

  /** No upper-case ASCII letter occurs. */
  predicate IsLower(s: string)
  {
    forall i :: 0 <= i < |s| ==> !IsUpperAscii(s[i])
  }

  /** `s.toLowerCase()`, restricted to ASCII letters. */
  function Lower(s: string): (r: string)
    ensures |r| == |s|
    ensures forall i :: 0 <= i < |s| ==> r[i] == LowerChar(s[i])
    ensures IsLower(r)
  {
    seq(|s|, i requires 0 <= i < |s| => LowerChar(s[i]))
  }

  lemma LowerOfLower(s: string)
    requires IsLower(s)
    ensures Lower(s) == s
  {
  }

  lemma LowerIdempotent(s: string)
    ensures Lower(Lower(s)) == Lower(s)
  {
    LowerOfLower(Lower(s));
  }

  lemma LowerAppend(a: string, b: string)
    ensures Lower(a + b) == Lower(a) + Lower(b)
  {
  }

  // ---------------------------------------------------------------- substrings

  /** `needle` occurs in `hay` starting at index `i`. */
  predicate OccursAt(hay: string, needle: string, i: int)
  {
    0 <= i && i + |needle| <= |hay| && hay[i..i + |needle|] == needle
  }

  /** `s` begins with `prefix`. */
  predicate StartsWith(s: string, prefix: string)
  {
    |prefix| <= |s| && s[..|prefix|] == prefix
  }

  /** `s` finishes with `suffix`. */
  predicate EndsWith(s: string, suffix: string)
  {
    |suffix| <= |s| && s[|s| - |suffix|..] == suffix
  }

  /** The specification of substring containment. */
  ghost predicate Occurs(hay: string, needle: string)
  {
    exists i :: OccursAt(hay, needle, i)
  }

  /** `hay.includes(needle)`: tries every start position from the left. */
  function Includes(hay: string, needle: string): (r: bool)
    decreases |hay|
  {
    |needle| <= |hay| && (hay[..|needle|] == needle || Includes(hay[1..], needle))
  }

  lemma {:induction false} IncludesMeansOccurs(hay: string, needle: string)
    ensures Includes(hay, needle) <==> Occurs(hay, needle)
    decreases |hay|
  {
    if |needle| <= |hay| {
      if hay[..|needle|] == needle {
        assert OccursAt(hay, needle, 0);
      } else {
        IncludesMeansOccurs(hay[1..], needle);
        if Includes(hay[1..], needle) {
          var i :| OccursAt(hay[1..], needle, i);
          OccursAtShift(hay, needle, i);
        }
        if Occurs(hay, needle) {
          var i :| OccursAt(hay, needle, i);
          if i > 0 {
            OccursAtShift(hay, needle, i - 1);
          }
        }
      }
    }
  }

  /** Dropping the first character shifts every occurrence one place left. */
  lemma OccursAtShift(hay: string, needle: string, i: nat)
    requires |hay| > 0
    ensures OccursAt(hay[1..], needle, i) <==> OccursAt(hay, needle, i + 1)
  {
    if 0 <= i && i + 1 + |needle| <= |hay| {
      assert hay[1..][i..i + |needle|] == hay[i + 1..i + 1 + |needle|];
    }
  }

  lemma OccursInLeft(a: string, b: string, needle: string)
    requires Occurs(a, needle)
    ensures Occurs(a + b, needle)
  {
    var i :| OccursAt(a, needle, i);
    assert (a + b)[i..i + |needle|] == a[i..i + |needle|];
    assert OccursAt(a + b, needle, i);
  }

  lemma OccursInRight(a: string, b: string, needle: string)
    requires Occurs(b, needle)
    ensures Occurs(a + b, needle)
  {
    var i :| OccursAt(b, needle, i);
    assert (a + b)[|a| + i..|a| + i + |needle|] == b[i..i + |needle|];
    assert OccursAt(a + b, needle, |a| + i);
  }

  lemma OccursItself(s: string)
    ensures Occurs(s, s)
  {
    assert OccursAt(s, s, 0);
  }

  lemma OccursTransitive(a: string, b: string, c: string)
    requires Occurs(a, b) && Occurs(b, c)
    ensures Occurs(a, c)
  {
    var i :| OccursAt(a, b, i);
    var j :| OccursAt(b, c, j);
    forall k | 0 <= k < |c|
      ensures a[i + j..i + j + |c|][k] == c[k]
    {
      assert c[k] == b[j..j + |c|][k] == b[j + k];
      assert b[j + k] == a[i..i + |b|][j + k] == a[i + j + k];
    }
    assert OccursAt(a, c, i + j);
  }

  /** Lower-casing keeps every occurrence, lower-cased. */
  lemma OccursLower(a: string, b: string)
    requires Occurs(a, b)
    ensures Occurs(Lower(a), Lower(b))
  {
    var i :| OccursAt(a, b, i);
    forall k | 0 <= k < |b|
      ensures Lower(a)[i..i + |b|][k] == Lower(b)[k]
    {
      assert a[i..i + |b|][k] == a[i + k];
    }
    assert OccursAt(Lower(a), Lower(b), i);
  }

  // ---------------------------------------------------------------- join

  /** `parts.join(sep)`. */
  function Join(parts: seq<string>, sep: string): string
  {
    if |parts| == 0 then ""
    else if |parts| == 1 then parts[0]
    else parts[0] + sep + Join(parts[1..], sep)
  }

  lemma {:induction false} JoinContainsEachPart(parts: seq<string>, sep: string, i: nat)
    requires i < |parts|
    ensures Occurs(Join(parts, sep), parts[i])
    decreases |parts|
  {
    if |parts| == 1 {
      OccursItself(parts[0]);
    } else if i == 0 {
      OccursItself(parts[0]);
      OccursInLeft(parts[0], sep + Join(parts[1..], sep), parts[0]);
      assert parts[0] + sep + Join(parts[1..], sep) == parts[0] + (sep + Join(parts[1..], sep));
    } else {
      JoinContainsEachPart(parts[1..], sep, i - 1);
      OccursInRight(parts[0] + sep, Join(parts[1..], sep), parts[i]);
    }
  }

  lemma JoinCons(head: string, rest: seq<string>, sep: string)
    requires |rest| > 0
    ensures Join([head] + rest, sep) == head + sep + Join(rest, sep)
  {
    assert ([head] + rest)[1..] == rest;
  }

  lemma ConcatAssoc(a: string, b: string, c: string)
    ensures (a + b) + c == a + (b + c)
  {
  }

  lemma ConcatRegroup(a: string, b: string, c: string)
    ensures a + (b + " " + c) == a + b + " " + c
  {
  }

  lemma {:induction false} JoinStartsWithFirst(parts: seq<string>, sep: string)
    requires |parts| > 0
    ensures |parts[0]| <= |Join(parts, sep)|
    ensures Join(parts, sep)[..|parts[0]|] == parts[0]
  {
    if |parts| > 1 {
      assert Join(parts, sep) == parts[0] + (sep + Join(parts[1..], sep));
    }
  }

  lemma {:induction false} JoinEndsWithLast(parts: seq<string>, sep: string)
    requires |parts| > 0
    ensures |parts[|parts| - 1]| <= |Join(parts, sep)|
    ensures Join(parts, sep)[|Join(parts, sep)| - |parts[|parts| - 1]|..] == parts[|parts| - 1]
    decreases |parts|
  {
    if |parts| > 1 {
      JoinEndsWithLast(parts[1..], sep);
      var j := Join(parts[1..], sep);
      var last := parts[|parts| - 1];
      assert parts[1..][|parts[1..]| - 1] == last;
      assert Join(parts, sep) == (parts[0] + sep) + j;
      assert j[|j| - |last|..] == last;
      assert ((parts[0] + sep) + j)[|(parts[0] + sep) + j| - |last|..] == j[|j| - |last|..];
    }
  }

  // ---------------------------------------------------------------- slicing

  /** `s.slice(0, n)` for a non-negative `n`. */
  function Take<T>(s: seq<T>, n: nat): (r: seq<T>)
    ensures |r| <= n && |r| <= |s|
    ensures r == s[..|r|]
    ensures |s| <= n ==> r == s
    ensures n <= |s| ==> |r| == n
  {
    if |s| <= n then s else s[..n]
  }

  // ---------------------------------------------------------------- whitespace

  /** A character of JavaScript's `\s` class (the set `trim()` removes as well). */
  predicate IsSpace(ch: char)
  {
    var c := ch as int;
    (0x09 <= c <= 0x0D) || c == 0x20 || c == 0xA0 || c == 0x1680
    || (0x2000 <= c <= 0x200A) || c == 0x2028 || c == 0x2029 || c == 0x202F
    || c == 0x205F || c == 0x3000 || c == 0xFEFF
  }

  /** The characters of `s` other than whitespace, in order. */
  function NonSpace(s: string): string
  {
    if |s| == 0 then ""
    else (if IsSpace(s[0]) then "" else [s[0]]) + NonSpace(s[1..])
  }

  /** Drops the leading whitespace run. */
  function SkipSpaces(s: string): (r: string)
    ensures |r| <= |s|
    ensures |r| > 0 ==> !IsSpace(r[0])
    ensures NonSpace(r) == NonSpace(s)
  {
    if |s| > 0 && IsSpace(s[0]) then SkipSpaces(s[1..]) else s
  }

  /** What is skipped is a whitespace prefix; what remains is the rest of `s`. */
  lemma {:induction false} SkipSpacesSuffix(s: string)
    ensures var r := SkipSpaces(s);
            && r == s[|s| - |r|..]
            && forall i :: 0 <= i < |s| - |r| ==> IsSpace(s[i])
    decreases |s|
  {
    if |s| > 0 && IsSpace(s[0]) {
      SkipSpacesSuffix(s[1..]);
    }
  }

  /** `s.replace(/\s+/g, " ")`: every maximal whitespace run becomes one space. */
  function CollapseSpaces(s: string): (r: string)
    ensures forall i :: 0 <= i < |r| && IsSpace(r[i]) ==> r[i] == ' '
    ensures forall i :: 0 <= i < |r| - 1 ==> !(IsSpace(r[i]) && IsSpace(r[i + 1]))
    ensures |s| > 0 ==> |r| > 0 && (IsSpace(r[0]) <==> IsSpace(s[0]))
    ensures |s| > 0 ==> (IsSpace(r[|r| - 1]) <==> IsSpace(s[|s| - 1]))
    ensures NonSpace(r) == NonSpace(s)
    ensures SingleSpaced(s) ==> r == s
  {
    CollapseShape(s);
    Collapse(s)
  }

  /** The rewriting itself, left to right. */
  function Collapse(s: string): string
    decreases |s|
  {
    if |s| == 0 then ""
    else if IsSpace(s[0]) then " " + Collapse(SkipSpaces(s[1..]))
    else [s[0]] + Collapse(s[1..])
  }

  lemma CollapseShape(s: string)
    ensures var r := Collapse(s);
            && (forall i :: 0 <= i < |r| && IsSpace(r[i]) ==> r[i] == ' ')
            && (forall i :: 0 <= i < |r| - 1 ==> !(IsSpace(r[i]) && IsSpace(r[i + 1])))
            && (|s| > 0 ==> |r| > 0 && (IsSpace(r[0]) <==> IsSpace(s[0])))
            && (|s| > 0 ==> (IsSpace(r[|r| - 1]) <==> IsSpace(s[|s| - 1])))
            && NonSpace(r) == NonSpace(s)
            && (SingleSpaced(s) ==> r == s)
  {
    CollapseChars(s);
    CollapseEnds(s);
    CollapseNoAdjacent(s);
    if SingleSpaced(s) {
      CollapseSingleSpaced(s);
    }
  }

  /** The output's whitespace is plain spaces, and its visible characters are the input's. */
  lemma {:induction false} CollapseChars(s: string)
    ensures var r := Collapse(s);
            && (forall i :: 0 <= i < |r| && IsSpace(r[i]) ==> r[i] == ' ')
            && NonSpace(r) == NonSpace(s)
    decreases |s|
  {
    if |s| > 0 {
      var r := Collapse(s);
      if IsSpace(s[0]) {
        var k := SkipSpaces(s[1..]);
        CollapseChars(k);
        assert r == " " + Collapse(k);
        assert forall i :: 1 <= i < |r| ==> r[i] == Collapse(k)[i - 1];
      } else {
        CollapseChars(s[1..]);
        assert r == [s[0]] + Collapse(s[1..]);
        assert forall i :: 1 <= i < |r| ==> r[i] == Collapse(s[1..])[i - 1];
      }
    }
  }

  /** The output starts and ends with whitespace exactly when the input does. */
  lemma {:induction false} CollapseEnds(s: string)
    ensures var r := Collapse(s);
            && (|s| > 0 ==> |r| > 0 && (IsSpace(r[0]) <==> IsSpace(s[0])))
            && (|s| > 0 ==> (IsSpace(r[|r| - 1]) <==> IsSpace(s[|s| - 1])))
    decreases |s|
  {
    if |s| > 0 {
      var r := Collapse(s);
      if IsSpace(s[0]) {
        var k := SkipSpaces(s[1..]);
        SkipSpacesSuffix(s[1..]);
        CollapseEnds(k);
        assert |k| > 0 ==> k[|k| - 1] == s[|s| - 1];
        assert |k| == 0 ==> IsSpace(s[|s| - 1]);
        assert r == " " + Collapse(k);
      } else {
        CollapseEnds(s[1..]);
        assert r == [s[0]] + Collapse(s[1..]);
      }
    }
  }

  /** No two whitespace characters of the output are adjacent. */
  lemma {:induction false} CollapseNoAdjacent(s: string)
    ensures var r := Collapse(s);
            forall i :: 0 <= i < |r| - 1 ==> !(IsSpace(r[i]) && IsSpace(r[i + 1]))
    decreases |s|
  {
    if |s| > 0 {
      var r := Collapse(s);
      if IsSpace(s[0]) {
        var k := SkipSpaces(s[1..]);
        CollapseNoAdjacent(k);
        CollapseEnds(k);
        assert r == " " + Collapse(k);
        assert forall i :: 1 <= i < |r| ==> r[i] == Collapse(k)[i - 1];
      } else {
        CollapseNoAdjacent(s[1..]);
        assert r == [s[0]] + Collapse(s[1..]);
        assert forall i :: 1 <= i < |r| ==> r[i] == Collapse(s[1..])[i - 1];
      }
    }
  }

  /** Single spaces only: every whitespace character is ' ' and no two are adjacent. */
  predicate SingleSpaced(s: string)
  {
    && (forall i :: 0 <= i < |s| && IsSpace(s[i]) ==> s[i] == ' ')
    && (forall i :: 0 <= i < |s| - 1 ==> !(IsSpace(s[i]) && IsSpace(s[i + 1])))
  }

  /** Text that is already single-spaced is left as it is. */
  lemma {:induction false} CollapseSingleSpaced(s: string)
    requires SingleSpaced(s)
    ensures Collapse(s) == s
    decreases |s|
  {
    if |s| > 0 {
      SliceSingleSpaced(s, 1, |s|);
      CollapseSingleSpaced(s[1..]);
      if IsSpace(s[0]) {
        assert |s| > 1 ==> !IsSpace(s[1]);
        assert SkipSpaces(s[1..]) == s[1..];
      }
      assert s == [s[0]] + s[1..];
    }
  }

  /** Whitespace only. */
  predicate AllSpace(w: string)
  {
    forall i :: 0 <= i < |w| ==> IsSpace(w[i])
  }

  lemma {:induction false} NonSpaceEmpty(x: string)
    requires NonSpace(x) == ""
    ensures AllSpace(x)
    decreases |x|
  {
    if |x| > 0 {
      NonSpaceEmpty(x[1..]);
      assert forall i :: 1 <= i < |x| ==> x[i] == x[1..][i - 1];
    }
  }

  /** A leading whitespace run is skipped along with the whitespace after it. */
  lemma {:induction false} SkipSpacesPrefix(w: string, t: string)
    requires AllSpace(w)
    ensures SkipSpaces(w + t) == SkipSpaces(t)
    decreases |w|
  {
    if |w| == 0 {
      assert w + t == t;
    } else {
      assert (w + t)[1..] == w[1..] + t;
      SkipSpacesPrefix(w[1..], t);
    }
  }

  /** Whitespace before the text collapses to at most one leading space. */
  lemma CollapseLeading(w: string, t: string)
    requires |w| > 0 && AllSpace(w)
    ensures Collapse(w + t) == Collapse(t) || Collapse(w + t) == " " + Collapse(t)
  {
    var wt := w + t;
    assert wt[0] == w[0] && wt[1..] == w[1..] + t;
    SkipSpacesPrefix(w[1..], t);
    assert Collapse(wt) == " " + Collapse(SkipSpaces(t));
    if |t| > 0 && IsSpace(t[0]) {
      assert SkipSpaces(t) == SkipSpaces(t[1..]);
    }
  }

  /** Whitespace after the text collapses to at most one trailing space. */
  lemma {:induction false} CollapseTrailing(t: string, w: string)
    requires |w| > 0 && AllSpace(w)
    ensures Collapse(t + w) == Collapse(t) || Collapse(t + w) == Collapse(t) + " "
    decreases |t|
  {
    var tw := t + w;
    if |t| == 0 {
      assert tw == w;
      SkipSpacesPrefix(w[1..], "");
      assert w[1..] + "" == w[1..];
    } else {
      assert tw[0] == t[0] && tw[1..] == t[1..] + w;
      if !IsSpace(t[0]) {
        CollapseTrailing(t[1..], w);
      } else if NonSpace(t[1..]) != "" {
        var k := SkipSpaces(t[1..]);
        SkipSpacesAppend(t[1..], w);
        SkipSpacesSuffix(t[1..]);
        CollapseTrailing(k, w);
      } else {
        NonSpaceEmpty(t[1..]);
        SkipSpacesPrefix(t[1..] + w, "");
        SkipSpacesPrefix(t[1..], "");
        assert t[1..] + w + "" == t[1..] + w;
        assert t[1..] + "" == t[1..];
      }
    }
  }

  lemma TrimSpaceFront(x: string)
    ensures Trim(" " + x) == Trim(x)
  {
    assert (" " + x)[1..] == x;
  }

  lemma TrimSpaceBack(x: string)
    ensures Trim(x + " ") == Trim(x)
  {
    if NonSpace(x) != "" {
      var k := SkipSpaces(x);
      SkipSpacesAppend(x, " ");
      assert (k + " ")[..|k|] == k;
    } else {
      NonSpaceEmpty(x);
      SkipSpacesPrefix(x, "");
      SkipSpacesPrefix(x + " ", "");
      assert x + "" == x;
      assert x + " " + "" == x + " ";
    }
  }

  /** Whitespace around the text makes no difference once collapsed and trimmed. */
  lemma TrimCollapseEdges(w1: string, t: string, w2: string)
    requires AllSpace(w1) && AllSpace(w2)
    ensures Trim(CollapseSpaces(w1 + t + w2)) == Trim(CollapseSpaces(t))
  {
    var m := w1 + t;
    if |w2| == 0 {
      assert m + w2 == m;
    } else {
      CollapseTrailing(m, w2);
      TrimSpaceBack(Collapse(m));
    }
    if |w1| == 0 {
      assert m == t;
    } else {
      CollapseLeading(w1, t);
      TrimSpaceFront(Collapse(t));
    }
  }

  lemma VisibleFirst(y: string)
    requires |y| > 0 && !IsSpace(y[0])
    ensures NonSpace(y) != ""
  {
  }

  lemma VisibleLast(y: string)
    requires |y| > 0 && !IsSpace(y[|y| - 1])
    ensures NonSpace(y) != ""
  {
    NonSpaceAppend(y[..|y| - 1], [y[|y| - 1]]);
    assert y[..|y| - 1] + [y[|y| - 1]] == y;
  }

  /** Skipping leading whitespace stops inside `x` when `x` has a visible character. */
  lemma {:induction false} SkipSpacesAppend(x: string, t: string)
    requires NonSpace(x) != ""
    ensures SkipSpaces(x + t) == SkipSpaces(x) + t
    decreases |x|
  {
    assert |x| > 0;
    if IsSpace(x[0]) {
      assert (x + t)[1..] == x[1..] + t;
      SkipSpacesAppend(x[1..], t);
    }
  }

  lemma {:induction false} SkipSpacesRun(w: string, b: string)
    requires forall i :: 0 <= i < |w| ==> IsSpace(w[i])
    requires |b| > 0 && !IsSpace(b[0])
    ensures SkipSpaces(w + b) == b
    decreases |w|
  {
    if |w| == 0 {
      assert w + b == b;
    } else {
      assert (w + b)[1..] == w[1..] + b;
      SkipSpacesRun(w[1..], b);
    }
  }

  /** Trimming the end stops inside `z` when `z` has a visible character. */
  lemma {:induction false} TrimEndAppend(y: string, z: string)
    requires NonSpace(z) != ""
    ensures TrimEnd(y + z) == y + TrimEnd(z)
    decreases |z|
  {
    assert |z| > 0;
    if IsSpace(z[|z| - 1]) {
      var front := z[..|z| - 1];
      NonSpaceAppend(front, [z[|z| - 1]]);
      assert front + [z[|z| - 1]] == z;
      assert (y + z)[..|y + z| - 1] == y + front;
      TrimEndAppend(y, front);
    }
  }

  /** Collapsing distributes over a cut just after a visible character. */
  lemma {:induction false} CollapseAppend(a: string, t: string)
    requires |a| == 0 || !IsSpace(a[|a| - 1])
    ensures Collapse(a + t) == Collapse(a) + Collapse(t)
    decreases |a|
  {
    if |a| == 0 {
      assert a + t == t;
    } else if !IsSpace(a[0]) {
      var at := a + t;
      assert at[0] == a[0] && at[1..] == a[1..] + t;
      CollapseAppend(a[1..], t);
    } else {
      var y := a[1..];
      VisibleLast(y);
      var k := SkipSpaces(y);
      SkipSpacesSuffix(y);
      var at := a + t;
      assert at[0] == a[0] && at[1..] == y + t;
      SkipSpacesAppend(y, t);
      assert k[|k| - 1] == y[|y| - 1];
      CollapseAppend(k, t);
    }
  }

  /** A whitespace run followed by a visible character collapses to one space. */
  lemma CollapseLeadingRun(w: string, b: string)
    requires |w| > 0 && forall i :: 0 <= i < |w| ==> IsSpace(w[i])
    requires |b| > 0 && !IsSpace(b[0])
    ensures Collapse(w + b) == " " + Collapse(b)
  {
    var wb := w + b;
    assert wb[0] == w[0] && wb[1..] == w[1..] + b;
    SkipSpacesRun(w[1..], b);
    assert SkipSpaces(wb[1..]) == b;
    assert Collapse(wb) == " " + Collapse(SkipSpaces(wb[1..]));
  }

  /** A whitespace run between two visible characters becomes exactly one space. */
  lemma CollapseRun(a: string, w: string, b: string)
    requires |a| == 0 || !IsSpace(a[|a| - 1])
    requires |w| > 0 && forall i :: 0 <= i < |w| ==> IsSpace(w[i])
    requires |b| > 0 && !IsSpace(b[0])
    ensures CollapseSpaces(a + w + b) == CollapseSpaces(a) + " " + CollapseSpaces(b)
  {
    var wb := w + b;
    CollapseLeadingRun(w, b);
    assert a + w + b == a + wb;
    CollapseAppend(a, wb);
    assert Collapse(a) + (" " + Collapse(b)) == Collapse(a) + " " + Collapse(b);
  }

  /** The same after trimming, between two visible characters: the text on
      each side is normalized on its own and exactly one space joins them. */
  lemma TrimCollapseRun(a: string, w: string, b: string)
    requires |a| > 0 && !IsSpace(a[|a| - 1])
    requires |w| > 0 && forall i :: 0 <= i < |w| ==> IsSpace(w[i])
    requires |b| > 0 && !IsSpace(b[0])
    ensures Trim(CollapseSpaces(a + w + b)) == Trim(CollapseSpaces(a)) + " " + Trim(CollapseSpaces(b))
  {
    CollapseRun(a, w, b);
    var ca, cb := CollapseSpaces(a), CollapseSpaces(b);
    TrimJoin(ca, cb);
  }

  /** Trimming `x + " " + y`, where `x` ends and `y` starts visibly, trims each side. */
  lemma TrimJoin(x: string, y: string)
    requires |x| > 0 && !IsSpace(x[|x| - 1])
    requires |y| > 0 && !IsSpace(y[0])
    ensures Trim(x + " " + y) == Trim(x) + " " + Trim(y)
  {
    VisibleLast(x);
    VisibleFirst(y);
    var kx := SkipSpaces(x);
    SkipSpacesSuffix(x);
    assert x + " " + y == x + (" " + y);
    SkipSpacesAppend(x, " " + y);
    assert kx[|kx| - 1] == x[|x| - 1];
    assert TrimEnd(kx) == kx;
    assert SkipSpaces(y) == y;
    assert kx + (" " + y) == (kx + " ") + y;
    TrimEndAppend(kx + " ", y);
  }

  /** Trimming keeps single spacing. */
  lemma TrimKeepsSingleSpaced(c: string)
    requires SingleSpaced(c)
    ensures SingleSpaced(Trim(c))
  {
    var lo := TrimSlice(c);
    SliceSingleSpaced(c, lo, lo + |Trim(c)|);
  }

  /** Trimming keeps a contiguous stretch of the input. */
  lemma TrimSlice(c: string) returns (lo: nat)
    ensures lo + |Trim(c)| <= |c| && Trim(c) == c[lo..lo + |Trim(c)|]
  {
    var k := SkipSpaces(c);
    SkipSpacesSuffix(c);
    var r := TrimEnd(k);
    lo := |c| - |k|;
    assert r == k[..|r|] && k == c[lo..];
  }

  lemma SliceSingleSpaced(c: string, lo: nat, hi: nat)
    requires SingleSpaced(c) && lo <= hi <= |c|
    ensures SingleSpaced(c[lo..hi])
  {
    var d := c[lo..hi];
    assert forall i :: 0 <= i < |d| ==> d[i] == c[lo + i];
  }

  /** `s.trim()`. */
  function Trim(s: string): (r: string)
    ensures |r| > 0 ==> !IsSpace(r[0]) && !IsSpace(r[|r| - 1])
    ensures NonSpace(r) == NonSpace(s)
    ensures (|s| == 0 || (!IsSpace(s[0]) && !IsSpace(s[|s| - 1]))) ==> r == s
  {
    TrimEnd(SkipSpaces(s))
  }

  lemma {:induction false} NonSpaceAppend(a: string, b: string)
    ensures NonSpace(a + b) == NonSpace(a) + NonSpace(b)
    decreases |a|
  {
    if |a| > 0 {
      assert (a + b)[1..] == a[1..] + b;
      NonSpaceAppend(a[1..], b);
    } else {
      assert a + b == b;
    }
  }

  function TrimEnd(s: string): (r: string)
    ensures |r| <= |s|
    ensures |r| > 0 ==> !IsSpace(r[|r| - 1])
    ensures r == s[..|r|]
    ensures NonSpace(r) == NonSpace(s)
  {
    if |s| > 0 && IsSpace(s[|s| - 1]) then
      NonSpaceAppend(s[..|s| - 1], [s[|s| - 1]]);
      assert s[..|s| - 1] + [s[|s| - 1]] == s;
      TrimEnd(s[..|s| - 1])
    else s
  }

  // ---------------------------------------------------------------- numbers

  function DigitChar(d: nat): (r: char)
    requires d < 10
    ensures '0' <= r <= '9'
  {
    ['0', '1', '2', '3', '4', '5', '6', '7', '8', '9'][d]
  }

  predicate IsDigits(s: string)
  {
    forall i :: 0 <= i < |s| ==> '0' <= s[i] <= '9'
  }

  /** The number a string of decimal digits denotes. */
  function DecimalValue(s: string): nat
    requires IsDigits(s)
  {
    if |s| == 0 then 0 else 10 * DecimalValue(s[..|s| - 1]) + (s[|s| - 1] as int - '0' as int)
  }

  /** The decimal rendering of a natural number, as `String(n)` gives it. */
  function NatToString(n: nat): (r: string)
    ensures |r| > 0 && IsDigits(r)
    ensures DecimalValue(r) == n
  {
    if n < 10 then [DigitChar(n)]
    else
      var r := NatToString(n / 10) + [DigitChar(n % 10)];
      assert r[..|r| - 1] == NatToString(n / 10);
      r
  }

  /** `String(i)` for an integer. */
  function IntToString(i: int): (r: string)
    ensures |r| > 0
    ensures i >= 0 ==> IsDigits(r) && DecimalValue(r) == i
    ensures i < 0 ==> r[0] == '-' && IsDigits(r[1..]) && DecimalValue(r[1..]) == -i
  {
    if i >= 0 then NatToString(i) else "-" + NatToString(-i)
  }
}

=== FILE: types.dfy ===
/** The shapes that flow between stages: a discovered candidate, its optional
    metadata, and a candidate enriched with a classification. */
module Types {
  import opened Wrappers

  /** Where a candidate was discovered. */
  datatype Source = GitHub | Arxiv | Blog | WebPage

  /** The tag a source is written as. */
  function SourceName(s: Source): (r: string)
    ensures r in ["github", "arxiv", "blog", "web_page"]
  {
    match s
    case GitHub => "github"
    case Arxiv => "arxiv"
    case Blog => "blog"
    case WebPage => "web_page"
  }

  /** Reads a source tag back; only the four tags are accepted. */
  function ParseSource(name: string): (r: Option<Source>)
    ensures r.Some? <==> name in ["github", "arxiv", "blog", "web_page"]
    ensures r.Some? ==> SourceName(r.value) == name
  {
    if name == "github" then Some(GitHub)
    else if name == "arxiv" then Some(Arxiv)
    else if name == "blog" then Some(Blog)
    else if name == "web_page" then Some(WebPage)
    else None
  }

  lemma SourceNameRoundTrip(s: Source)
    ensures ParseSource(SourceName(s)) == Some(s)
  {
  }

  /** Source-specific facts; every one may be absent, and absence means unknown. */
  datatype Metadata = Metadata(
    stars: Option<int>,
    language: Option<string>,
    topics: Option<seq<string>>,
    authors: Option<seq<string>>,
    publishedAt: Option<string>,
    feedName: Option<string>,
    pageName: Option<string>)

  const NoMetadata := Metadata(None, None, None, None, None, None, None)

  datatype Candidate = Candidate(
    url: string,
    title: string,
    description: string,
    source: Source,
    metadata: Metadata)

  /** A candidate plus the four classification fields. */
  datatype ClassifiedCandidate = ClassifiedCandidate(
    candidate: Candidate,
    relevanceScore: int,
    suggestedCategory: string,
    suggestedTags: seq<string>,
    reasoning: string)

  function CandidateOf(c: ClassifiedCandidate): Candidate
  {
    c.candidate
  }
}

=== FILE: web_pages.dfy ===
/** The web-page collector after fetching: each configured page is fetched,
    cleaned, handed to a language model that lists its article links, and the
    links are turned into candidates. Fetching, the model call, URL resolution
    and host-name extraction are inputs. */
module WebPages {
  import opened Wrappers
  import opened Text
  import opened Seqs
  import opened External
  import opened Types
  import opened Configuration
  import opened Brackets
  import opened Blogs

  const MaxHtmlLength: nat := 15000

  /** `cleanHtml`. `stripTags` stands for the regex rewriting (dropping script,
      style, nav, footer and header blocks, turning anchors into markdown links,
      replacing the remaining tags by spaces); what follows it is modelled:
      whitespace runs become one space, the ends are trimmed, and the text is cut
      to 15000 characters. */
  function CleanHtml(html: string, stripTags: string -> string): (r: string)
    ensures |r| <= MaxHtmlLength
    ensures var normalized := Trim(CollapseSpaces(stripTags(html)));
            && |r| <= |normalized| && r == normalized[..|r|]
            && (|normalized| <= MaxHtmlLength ==> r == normalized)
            && (|normalized| > MaxHtmlLength ==> |r| == MaxHtmlLength)
    ensures |r| > 0 ==> !IsSpace(r[0])
  {
    Take(Trim(CollapseSpaces(stripTags(html))), MaxHtmlLength)
  }

  /** A link the model reported. */
  datatype Link = Link(title: string, url: string)

  /** An array element kept by `extractFirstJsonArray`: an object whose `title`
      and `url` are strings. */
  predicate IsLinkObject(item: Json)
  {
    && item.JObj? && "title" in item.fields && "url" in item.fields
    && item.fields["title"].JStr? && item.fields["url"].JStr?
  }

  function ToLink(item: Json): Link
  {
    if IsLinkObject(item) then Link(item.fields["title"].s, item.fields["url"].s) else Link("", "")
  }

  /** The links of a parsed value: nothing unless it is an array, then its link
      objects in order. */
  function LinksOf(value: Json): (r: seq<Link>)
    ensures !value.JArr? ==> r == []
    ensures value.JArr? ==> |r| <= |value.items|
    ensures forall l :: l in r <==>
              value.JArr? && exists item :: item in value.items && IsLinkObject(item) && l == ToLink(item)
  {
    if value.JArr? then
      var kept := Filter(value.items, IsLinkObject);
      assert forall i :: 0 <= i < |kept| ==> kept[i] in kept;
      assert forall item :: item in kept ==> exists i :: 0 <= i < |kept| && kept[i] == item;
      Map(kept, ToLink)
    else []
  }

  /** Array elements are read in order: the links of two runs of elements are
      those of the first run followed by those of the second. */
  lemma LinksOfAppend(a: seq<Json>, b: seq<Json>)
    ensures LinksOf(JArr(a + b)) == LinksOf(JArr(a)) + LinksOf(JArr(b))
  {
    FilterAppend(a, b, IsLinkObject);
    MapAppend(Filter(a, IsLinkObject), Filter(b, IsLinkObject), ToLink);
  }

  /** One element yields a link exactly when it is a link object. */
  lemma LinksOfSingle(item: Json)
    ensures LinksOf(JArr([item])) == if IsLinkObject(item) then [ToLink(item)] else []
  {
    assert [item][1..] == [];
    assert Filter([item], IsLinkObject) == if IsLinkObject(item) then [item] else [];
  }

  /** `JSON.parse` threw on the bracketed slice; the page's task rejects. */
  datatype PageError = NetworkError | HttpError(status: int) | LinkCallFailed | MalformedLinks

  /** `extractFirstJsonArray`: the slice from the first `[` to where the bracket
      depth returns to 0, parsed. No `[`, no balanced slice or a non-array all give
      no links; a slice that does not parse is an error. */
  function ExtractFirstJsonArray(text: string, parse: JsonParser): (r: Result<seq<Link>, PageError>)
    ensures '[' !in text ==> r == Ok([])
    ensures FirstBalanced(text, '[', ']').Unbalanced? ==> r == Ok([])
    ensures r.Err? ==> r.error == MalformedLinks
    ensures var b := FirstBalanced(text, '[', ']');
            b.Balanced? ==>
              && (r.Err? <==> parse(text[b.start..b.end]).None?)
              && (r.Ok? ==> r.value == LinksOf(parse(text[b.start..b.end]).value))
  {
    match FirstBalanced(text, '[', ']')
    case NoOpen => Ok([])
    case Unbalanced => Ok([])
    case Balanced(s, e) =>
      match parse(text[s..e])
      case None => Err(MalformedLinks)
      case Some(value) => Ok(LinksOf(value))
  }

  /** The text of the link-extraction reply: a non-text first block reads as `[]`. */
  function LinkReplyText(reply: LlmReply): Option<string>
  {
    match reply
    case TextReply(text) => Some(text)
    case NonTextReply => Some("[]")
    case CallFailed => None
  }

  /** What the fetch of one page produced. */
  datatype PageFetch = FetchFailed | Status(status: int) | Body(html: string)

  /** A page whose links were extracted, with relative URLs resolved against it. */
  datatype Page = Page(pageUrl: string, links: seq<Link>)

  /** One page's task: fetch, extract links, resolve them. `resolve(base, href)`
      is `resolveUrl`. */
  function ProcessPage(pageUrl: string, fetch: PageFetch, reply: LlmReply, parse: JsonParser,
                       resolve: (string, string) -> string): (r: Result<Page, PageError>)
    ensures fetch.FetchFailed? ==> r == Err(NetworkError)
    ensures fetch.Status? ==> r == Err(HttpError(fetch.status))
    ensures fetch.Body? && reply.CallFailed? ==> r == Err(LinkCallFailed)
    ensures r.Ok? <==>
              fetch.Body? && LinkReplyText(reply).Some?
              && ExtractFirstJsonArray(LinkReplyText(reply).value, parse).Ok?
    ensures r.Ok? ==>
              var links := ExtractFirstJsonArray(LinkReplyText(reply).value, parse).value;
              && r.value.pageUrl == pageUrl
              && |r.value.links| == |links|
              && forall i :: 0 <= i < |links| ==>
                   r.value.links[i] == Link(links[i].title, resolve(pageUrl, links[i].url))
  {
    match fetch
    case FetchFailed => Err(NetworkError)
    case Status(status) => Err(HttpError(status))
    case Body(_) =>
      match LinkReplyText(reply)
      case None => Err(LinkCallFailed)
      case Some(text) =>
        match ExtractFirstJsonArray(text, parse)
        case Err(e) => Err(e)
        case Ok(links) => Ok(Page(pageUrl, Map(links, (l: Link) => Link(l.title, resolve(pageUrl, l.url)))))
  }

  function Settle(r: Result<Page, PageError>): Settled<Page>
  {
    if r.Ok? then Fulfilled(r.value) else Rejected
  }

  /** `Promise.allSettled` over the pages: `fetches[k]` and `replies[k]` belong to
      `urls[k]`; a missing fetch fails. */
  function PageOutcomes(urls: seq<string>, fetches: seq<PageFetch>, replies: seq<LlmReply>,
                        parse: JsonParser, resolve: (string, string) -> string): (r: seq<Settled<Page>>)
    ensures |r| == |urls|
    ensures forall k :: 0 <= k < |urls| ==>
              r[k] == Settle(ProcessPage(urls[k], if k < |fetches| then fetches[k] else FetchFailed,
                                         ReplyAt(replies, k), parse, resolve))
  {
    seq(|urls|, k requires 0 <= k < |urls| =>
      Settle(ProcessPage(urls[k], if k < |fetches| then fetches[k] else FetchFailed, ReplyAt(replies, k), parse, resolve)))
  }

  predicate LinkAccepted(link: Link, keywords: Option<seq<string>>)
  {
    && link.url != "" && link.title != ""
    && (KeywordsApply(keywords) ==> MatchesKeywords(link.title + " " + link.url, keywords.value))
  }

  function LinkCandidate(link: Link, pageName: string): Candidate
  {
    Candidate(link.url, link.title, Take(link.title, MaxDescriptionLength), WebPage,
              NoMetadata.(pageName := Some(pageName)))
  }

  /** The shape every web-page candidate has. */
  predicate IsWebPageCandidate(c: Candidate)
  {
    && c.source == WebPage && c.url != "" && c.title != ""
    && |c.description| <= MaxDescriptionLength && |c.description| <= |c.title|
    && c.description == c.title[..|c.description|]
    && c.metadata.pageName.Some?
    && c.metadata.stars.None? && c.metadata.authors.None? && c.metadata.feedName.None?
  }

  /** The inner loop over one page's links; `hostname(url)` is `new URL(url).hostname`. */
  function PageCandidates(page: Page, keywords: Option<seq<string>>, hostname: string -> string): (r: seq<Candidate>)
    ensures |r| <= |page.links|
    ensures forall i :: 0 <= i < |r| ==> IsWebPageCandidate(r[i]) && r[i].metadata.pageName == Some(hostname(page.pageUrl))
    ensures forall link :: link in page.links && LinkAccepted(link, keywords) ==>
              LinkCandidate(link, hostname(page.pageUrl)) in r
    ensures forall c :: c in r ==>
              exists link :: link in page.links && LinkAccepted(link, keywords) && c == LinkCandidate(link, hostname(page.pageUrl))
  {
    var kept := Filter(page.links, LinkAcceptedBy(keywords));
    var r := Map(kept, LinkCandidateOf(hostname(page.pageUrl)));
    KeptLinksYield(page.links, keywords, hostname(page.pageUrl), kept, r);
    r
  }

  function LinkAcceptedBy(keywords: Option<seq<string>>): Link -> bool
  {
    link => LinkAccepted(link, keywords)
  }

  function LinkCandidateOf(pageName: string): Link -> Candidate
  {
    link => LinkCandidate(link, pageName)
  }

  /** Links are visited in order: the candidates of two runs of links are those
      of the first run followed by those of the second. */
  lemma PageCandidatesAppend(pageUrl: string, a: seq<Link>, b: seq<Link>, keywords: Option<seq<string>>,
                             hostname: string -> string)
    ensures PageCandidates(Page(pageUrl, a + b), keywords, hostname)
            == PageCandidates(Page(pageUrl, a), keywords, hostname) + PageCandidates(Page(pageUrl, b), keywords, hostname)
  {
    var keep := LinkAcceptedBy(keywords);
    FilterAppend(a, b, keep);
    MapAppend(Filter(a, keep), Filter(b, keep), LinkCandidateOf(hostname(pageUrl)));
  }

  /** One link yields its candidate exactly when it is accepted. */
  lemma PageCandidatesSingle(pageUrl: string, link: Link, keywords: Option<seq<string>>, hostname: string -> string)
    ensures PageCandidates(Page(pageUrl, [link]), keywords, hostname)
            == if LinkAccepted(link, keywords) then [LinkCandidate(link, hostname(pageUrl))] else []
  {
    assert [link][1..] == [];
    assert Filter([link], LinkAcceptedBy(keywords)) == if LinkAccepted(link, keywords) then [link] else [];
  }

  /** The candidates made from exactly the accepted links. */
  lemma KeptLinksYield(links: seq<Link>, keywords: Option<seq<string>>, pageName: string,
                       kept: seq<Link>, r: seq<Candidate>)
    requires forall link :: link in kept <==> link in links && LinkAccepted(link, keywords)
    requires |r| == |kept| && forall i :: 0 <= i < |kept| ==> r[i] == LinkCandidate(kept[i], pageName)
    ensures forall i :: 0 <= i < |r| ==> IsWebPageCandidate(r[i]) && r[i].metadata.pageName == Some(pageName)
    ensures forall link :: link in links && LinkAccepted(link, keywords) ==> LinkCandidate(link, pageName) in r
    ensures forall c :: c in r ==>
              exists link :: link in links && LinkAccepted(link, keywords) && c == LinkCandidate(link, pageName)
  {
    forall i | 0 <= i < |r|
      ensures IsWebPageCandidate(r[i]) && r[i].metadata.pageName == Some(pageName)
    {
      assert kept[i] in kept;
    }
    forall link | link in kept
      ensures LinkCandidate(link, pageName) in r
    {
      var i :| 0 <= i < |kept| && kept[i] == link;
      assert r[i] == LinkCandidate(link, pageName);
    }
    forall c | c in r
      ensures exists link :: link in links && LinkAccepted(link, keywords) && c == LinkCandidate(link, pageName)
    {
      var i :| 0 <= i < |r| && r[i] == c;
      assert kept[i] in kept;
    }
  }

  /** The outer loop: a rejected page is skipped, the others count in page order. */
  function SettledPages(outcomes: seq<Settled<Page>>, keywords: Option<seq<string>>, hostname: string -> string)
    : (r: seq<Candidate>)
    ensures forall i :: 0 <= i < |r| ==> IsWebPageCandidate(r[i])
  {
    if |outcomes| == 0 then []
    else
      var first := match outcomes[0]
        case Rejected => []
        case Fulfilled(page) => PageCandidates(page, keywords, hostname);
      first + SettledPages(outcomes[1..], keywords, hostname)
  }

  lemma {:induction false} SettledPagesAppend(a: seq<Settled<Page>>, b: seq<Settled<Page>>,
                                              keywords: Option<seq<string>>, hostname: string -> string)
    ensures SettledPages(a + b, keywords, hostname) == SettledPages(a, keywords, hostname) + SettledPages(b, keywords, hostname)
    decreases |a|
  {
    if |a| == 0 {
      assert a + b == b;
    } else {
      assert (a + b)[1..] == a[1..] + b;
      SettledPagesAppend(a[1..], b, keywords, hostname);
    }
  }

  /** A page that fails contributes nothing and disturbs nothing. */
  lemma RejectedPageIsolated(before: seq<Settled<Page>>, after: seq<Settled<Page>>,
                             keywords: Option<seq<string>>, hostname: string -> string)
    ensures SettledPages(before + [Rejected] + after, keywords, hostname)
            == SettledPages(before, keywords, hostname) + SettledPages(after, keywords, hostname)
  {
    var failed: seq<Settled<Page>> := [Rejected];
    RejectedPageSkipped(keywords, hostname);
    SettledPagesAppend(before, failed, keywords, hostname);
    SettledPagesAppend(before + failed, after, keywords, hostname);
    assert SettledPages(before + failed, keywords, hostname) == SettledPages(before, keywords, hostname);
  }

  lemma RejectedPageSkipped(keywords: Option<seq<string>>, hostname: string -> string)
    ensures SettledPages([Rejected], keywords, hostname) == []
  {
    var failed: seq<Settled<Page>> := [Rejected];
    assert failed[1..] == [];
  }

  /** A loaded page contributes exactly its own candidates. */
  lemma SettledPagesSingle(page: Page, keywords: Option<seq<string>>, hostname: string -> string)
    ensures SettledPages([Fulfilled(page)], keywords, hostname) == PageCandidates(page, keywords, hostname)
  {
    var loaded: seq<Settled<Page>> := [Fulfilled(page)];
    assert loaded[1..] == [];
  }

  /** A page that loads contributes its own candidates between those of the
      pages before and after it. */
  lemma LoadedPageIsolated(before: seq<Settled<Page>>, page: Page, after: seq<Settled<Page>>,
                           keywords: Option<seq<string>>, hostname: string -> string)
    ensures SettledPages(before + [Fulfilled(page)] + after, keywords, hostname)
            == SettledPages(before, keywords, hostname) + PageCandidates(page, keywords, hostname)
               + SettledPages(after, keywords, hostname)
  {
    var loaded: seq<Settled<Page>> := [Fulfilled(page)];
    SettledPagesSingle(page, keywords, hostname);
    SettledPagesAppend(before, loaded, keywords, hostname);
    SettledPagesAppend(before + loaded, after, keywords, hostname);
  }

  /** `collectWebPages` once every page has settled. */
  function CollectWebPages(config: RadarConfig, fetches: seq<PageFetch>, replies: seq<LlmReply>,
                           parse: JsonParser, resolve: (string, string) -> string, hostname: string -> string)
    : (r: seq<Candidate>)
    ensures config.sources.webPages.None? ==> r == []
    ensures forall i :: 0 <= i < |r| ==> IsWebPageCandidate(r[i])
  {
    match config.sources.webPages
    case None => []
    case Some(webPages) =>
      SettledPages(PageOutcomes(webPages.urls, fetches, replies, parse, resolve), webPages.keywords, hostname)
  }

  /** A page whose fetch fails is as if it were not configured: the pages before
      and after it give what they give alone. */
  lemma FailedFetchIsolated(config: RadarConfig, k: nat, fetches: seq<PageFetch>, replies: seq<LlmReply>,
                            parse: JsonParser, resolve: (string, string) -> string, hostname: string -> string)
    requires config.sources.webPages.Some? && k < |config.sources.webPages.value.urls|
    requires k < |fetches| && !fetches[k].Body?
    ensures var urls := config.sources.webPages.value.urls;
            var outcomes := PageOutcomes(urls, fetches, replies, parse, resolve);
            var keywords := config.sources.webPages.value.keywords;
            CollectWebPages(config, fetches, replies, parse, resolve, hostname)
            == SettledPages(outcomes[..k], keywords, hostname) + SettledPages(outcomes[k + 1..], keywords, hostname)
  {
    var urls := config.sources.webPages.value.urls;
    var outcomes := PageOutcomes(urls, fetches, replies, parse, resolve);
    assert outcomes[k] == Rejected;
    assert outcomes == outcomes[..k] + [Rejected] + outcomes[k + 1..];
    RejectedPageIsolated(outcomes[..k], outcomes[k + 1..], config.sources.webPages.value.keywords, hostname);
  }

  /** A page that loads contributes its own candidates in its own place: the
      pages before it, then its accepted links, then the pages after it. */
  lemma LoadedPageCollected(config: RadarConfig, k: nat, page: Page, fetches: seq<PageFetch>, replies: seq<LlmReply>,
                            parse: JsonParser, resolve: (string, string) -> string, hostname: string -> string)
    requires config.sources.webPages.Some? && k < |config.sources.webPages.value.urls|
    requires var urls := config.sources.webPages.value.urls;
             ProcessPage(urls[k], if k < |fetches| then fetches[k] else FetchFailed, ReplyAt(replies, k), parse, resolve)
             == Ok(page)
    ensures var urls := config.sources.webPages.value.urls;
            var outcomes := PageOutcomes(urls, fetches, replies, parse, resolve);
            var keywords := config.sources.webPages.value.keywords;
            CollectWebPages(config, fetches, replies, parse, resolve, hostname)
            == SettledPages(outcomes[..k], keywords, hostname) + PageCandidates(page, keywords, hostname)
               + SettledPages(outcomes[k + 1..], keywords, hostname)
  {
    var urls := config.sources.webPages.value.urls;
    var outcomes := PageOutcomes(urls, fetches, replies, parse, resolve);
    assert outcomes[k] == Fulfilled(page);
    SplitAround(outcomes, k);
    LoadedPageIsolated(outcomes[..k], page, outcomes[k + 1..], config.sources.webPages.value.keywords, hostname);
  }
}

=== FILE: wiring.dfy ===
/** The action's entry point: the collect and filter compositions handed to the
    orchestrator, and the dry-run flag. Everything the action reads from
    outside is gathered in `World`. */
module Wiring {
  import opened Wrappers
  import opened Text
  import opened Seqs
  import opened External
  import opened Types
  import opened Configuration
  import opened Keywords
  import opened Dedup
  import opened Classifier
  import opened Blogs
  import opened Arxiv
  import opened GitHub
  import opened Pipeline

  /** What every outside call of one run returns. */
  datatype World = World(
    createdAfter: string,
    search: string -> SearchResponse,
    arxivFetch: string -> ArxivResponse,
    parseXml: string -> Option<EntryField>,
    feeds: seq<Settled<Feed>>,
    readFile: string -> Result<string, string>,
    replies: seq<LlmReply>,
    parseJson: JsonParser,
    createIssues: (seq<ClassifiedCandidate>, RadarConfig, bool) -> Result<int, string>)

  /** The position of each source's block in the collected list. */
  function SourceRank(s: Source): nat
  {
    match s
    case GitHub => 0
    case Arxiv => 1
    case Blog => 2
    case WebPage => 3
  }

  function GitHubPart(config: RadarConfig, world: World): seq<Candidate>
  {
    if config.sources.github.Some? then CollectGitHub(config, world.createdAfter, world.search) else []
  }

  function ArxivPart(config: RadarConfig, world: World): seq<Candidate>
  {
    if config.sources.arxiv.Some? then CollectArxiv(config, world.arxivFetch, world.parseXml) else []
  }

  function BlogsPart(config: RadarConfig, world: World): seq<Candidate>
  {
    if config.sources.blogs.Some? then CollectBlogs(config, world.feeds) else []
  }

  /** `collect`: GitHub results, then arXiv, then blogs; the web-page collector is
      not called. */
  function Collect(config: RadarConfig, world: World): (r: seq<Candidate>)
    ensures |r| == |GitHubPart(config, world)| + |ArxivPart(config, world)| + |BlogsPart(config, world)|
    ensures forall i :: 0 <= i < |r| ==> r[i].source != WebPage
    ensures forall i, j :: 0 <= i < j < |r| ==> SourceRank(r[i].source) <= SourceRank(r[j].source)
    ensures FromSource(r, GitHub) == GitHubPart(config, world)
    ensures FromSource(r, Arxiv) == ArxivPart(config, world)
    ensures FromSource(r, Blog) == BlogsPart(config, world)
  {
    var gh, ax, bl := GitHubPart(config, world), ArxivPart(config, world), BlogsPart(config, world);
    BlocksInRankOrder(gh, ax, bl);
    BlocksBySource(gh, ax, bl);
    gh + ax + bl
  }

  function SourceIs(s: Source): Candidate -> bool
  {
    (c: Candidate) => c.source == s
  }

  /** The candidates from source `s`, in their order. */
  function FromSource(cs: seq<Candidate>, s: Source): seq<Candidate>
  {
    Filter(cs, SourceIs(s))
  }

  /** A block whose candidates all come from `from` contributes all of itself to
      that source and nothing to any other. */
  lemma BlockFromSource(block: seq<Candidate>, from: Source, s: Source)
    requires forall i :: 0 <= i < |block| ==> block[i].source == from
    ensures FromSource(block, s) == if s == from then block else []
  {
    if s != from {
      FilterNone(block, SourceIs(s));
    }
  }

  /** Three single-source blocks, concatenated, give each source its own block back. */
  lemma BlocksBySource(gh: seq<Candidate>, ax: seq<Candidate>, bl: seq<Candidate>)
    requires forall i :: 0 <= i < |gh| ==> gh[i].source == GitHub
    requires forall i :: 0 <= i < |ax| ==> ax[i].source == Arxiv
    requires forall i :: 0 <= i < |bl| ==> bl[i].source == Blog
    ensures FromSource(gh + ax + bl, GitHub) == gh
    ensures FromSource(gh + ax + bl, Arxiv) == ax
    ensures FromSource(gh + ax + bl, Blog) == bl
  {
    ThreeBlocks(gh, ax, bl, GitHub);
    ThreeBlocks(gh, ax, bl, Arxiv);
    ThreeBlocks(gh, ax, bl, Blog);
  }

  lemma ThreeBlocks(gh: seq<Candidate>, ax: seq<Candidate>, bl: seq<Candidate>, s: Source)
    requires forall i :: 0 <= i < |gh| ==> gh[i].source == GitHub
    requires forall i :: 0 <= i < |ax| ==> ax[i].source == Arxiv
    requires forall i :: 0 <= i < |bl| ==> bl[i].source == Blog
    ensures FromSource(gh + ax + bl, s)
            == (if s == GitHub then gh else []) + (if s == Arxiv then ax else []) + (if s == Blog then bl else [])
  {
    FilterAppend(gh + ax, bl, SourceIs(s));
    FilterAppend(gh, ax, SourceIs(s));
    BlockFromSource(gh, GitHub, s);
    BlockFromSource(ax, Arxiv, s);
    BlockFromSource(bl, Blog, s);
  }

  /** Three blocks, each from one source, concatenated in source-rank order. */
  lemma BlocksInRankOrder(gh: seq<Candidate>, ax: seq<Candidate>, bl: seq<Candidate>)
    requires forall i :: 0 <= i < |gh| ==> gh[i].source == GitHub
    requires forall i :: 0 <= i < |ax| ==> ax[i].source == Arxiv
    requires forall i :: 0 <= i < |bl| ==> bl[i].source == Blog
    ensures var r := gh + ax + bl;
            && (forall i :: 0 <= i < |r| ==> r[i].source != WebPage)
            && (forall i, j :: 0 <= i < j < |r| ==> SourceRank(r[i].source) <= SourceRank(r[j].source))
  {
    var r := gh + ax + bl;
    forall i | 0 <= i < |r|
      ensures SourceRank(r[i].source) == if i < |gh| then 0 else if i < |gh| + |ax| then 1 else 2
    {
      if i < |gh| {
        assert r[i] == gh[i];
      } else if i < |gh| + |ax| {
        assert r[i] == ax[i - |gh|];
      } else {
        assert r[i] == bl[i - |gh| - |ax|];
      }
    }
  }

  /** A candidate the filter stage lets through: it matches a keyword when any
      are configured, and its URL is not in a readable list file. */
  predicate PassesFilter(c: Candidate, config: RadarConfig, world: World)
  {
    && (GetAllKeywords(config) != [] ==> MatchesAnyKeyword(SearchText(c), GetAllKeywords(config)))
    && (world.readFile(config.listFile).Ok? ==>
          Lower(c.url) !in ExtractUrlsFromMarkdown(world.readFile(config.listFile).value))
  }

  /** `filter`: the keyword filter, then de-duplication against the list file. */
  function FilterStage(candidates: seq<Candidate>, config: RadarConfig, world: World): (r: seq<Candidate>)
    ensures IsSubseq(r, candidates) && |r| <= |candidates|
    ensures forall c :: c in r <==> c in candidates && PassesFilter(c, config, world)
    ensures forall c :: multiset(r)[c] == if PassesFilter(c, config, world) then multiset(candidates)[c] else 0
  {
    var kept := FilterCandidates(candidates, config);
    var r := DedupCandidates(kept, config, world.readFile);
    IsSubseqTransitive(r, kept, candidates);
    IsSubseqMembers(r, candidates);
    r
  }

  function ClassifyStage(candidates: seq<Candidate>, config: RadarConfig, world: World): seq<ClassifiedCandidate>
  {
    ClassifyCandidates(candidates, config, world.replies, world.parseJson).classified
  }

  /** The stages `run` hands to `runPipeline`; only the issue writer can reject. */
  function RadarDeps(world: World): Deps
  {
    Deps(
      (config: RadarConfig) => Ok(Collect(config, world)),
      (cs: seq<Candidate>, config: RadarConfig) => Ok(FilterStage(cs, config, world)),
      (cs: seq<Candidate>, config: RadarConfig) => Ok(ClassifyStage(cs, config, world)),
      world.createIssues)
  }

  /** `run` once the configuration is loaded; the dry-run flag is
      `core.getInput("dry_run") === "true"`. The stages it hands over never
      reject, so every run reaches the issue writer, each stage taking the
      previous stage's output, and the run fails exactly when the writer does. */
  function RunRadar(config: RadarConfig, world: World, dryRunInput: string): (r: Run)
    ensures var collected := Collect(config, world);
            var filtered := FilterStage(collected, config, world);
            && r.trace == [CollectCall, FilterCall(collected), ClassifyCall(filtered),
                           OutputCall(ClassifyStage(filtered, config, world), dryRunInput == "true")]
            && (r.result.Ok? <==> world.createIssues(ClassifyStage(filtered, config, world), config, dryRunInput == "true").Ok?)
  {
    RunPipeline(config, RadarDeps(world), dryRunInput == "true")
  }

  /** What the classify stage passes on: at most `max_issues_per_run` of its
      input candidates, each scored at or above the threshold. */
  lemma ClassifyStageBounds(candidates: seq<Candidate>, config: RadarConfig, world: World)
    ensures var out := ClassifyStage(candidates, config, world);
            && |out| <= config.classification.maxIssuesPerRun
            && |out| <= |candidates|
            && forall x :: x in out ==>
                 x.relevanceScore as real >= config.classification.threshold && x.candidate in candidates
  {
    var out := ClassifyCandidates(candidates, config, world.replies, world.parseJson).classified;
    forall x | x in out
      ensures x.relevanceScore as real >= config.classification.threshold && x.candidate in candidates
    {
      var i :| 0 <= i < |out| && out[i] == x;
    }
  }

  /** One run end to end: the issue writer sees the dry-run flag exactly when the
      input is "true"; filtering only removes; at most `max_issues_per_run`
      candidates reach the writer, each scored at or above the threshold and none
      from a web page. */
  lemma RunRadarShape(config: RadarConfig, world: World, dryRunInput: string)
    ensures var r := RunRadar(config, world, dryRunInput);
            && |r.trace| == 4
            && (r.trace[3].dryRun <==> dryRunInput == "true")
            && |r.trace[2].candidates| <= |r.trace[1].candidates|
            && |r.trace[3].classified| <= config.classification.maxIssuesPerRun
            && (forall x :: x in r.trace[3].classified ==>
                  x.relevanceScore as real >= config.classification.threshold && x.candidate.source != WebPage)
            && (r.result.Ok? ==> r.result.value.candidatesFiltered <= r.result.value.candidatesFound)
  {
    var collected := Collect(config, world);
    var filtered := FilterStage(collected, config, world);
    ClassifyStageBounds(filtered, config, world);
    IsSubseqMembers(filtered, collected);
  }
}

=== FILE: wrappers.dfy ===
/** Optional values, error-or-value results and the outcome of one task joined by
    `Promise.allSettled`: the shapes every stage uses instead of `undefined`,
    exceptions and promise rejections. */
module Wrappers {

  /** `undefined`/`null` versus a present value. */
  datatype Option<+T> = None | Some(value: T) {

    /** The value, or `default` when absent: JavaScript's `??`. */
    function GetOr(default: T): T
    {
      match this
      case Some(v) => v
      case None => default
    }
  }

  /** A value, or the error an operation would have thrown. */
  datatype Result<+T, +E> = Ok(value: T) | Err(error: E)

  /** The settled outcome of one concurrently started task. */
  datatype Settled<+T> = Fulfilled(value: T) | Rejected
}
